=== FILE: README.md ===
# Jolt codec model

Jolt is the JSON format in which Neo4j values travel: every value is a
one-member object whose key is a *sigil* naming its type (`Z` integer,
`R` real, `U` string, `#` bytes, `[]` list, `{}` map, `T` temporal, `TA`
temporal amount, `@` point, `()` node, `->` relationship, `<-` reversed
relationship, `..` path, `?` boolean, the empty string for null) and whose
value is the payload. The `ac.simons.neo4j.jolt` codec does this through
Jackson: a type-id resolver maps classes to sigils and back, a module
registers one serializer and one deserializer per type, and `JoltCodec`
installs the wrapper-object type handling with a retry for durations
written under `T`.

The model works on a JSON token stream (`Json.Token`), not on text. A
parser position is the stream from the current token on, and every reader
returns the value read together with the stream after it. Nested
`writeObject` and `readValue` calls are function parameters (`write`,
`readFor`, `find`), so each serializer and deserializer is modelled on its
own and composed through those parameters.

Modules, in dependency order:

- `Results` holds the errors the Java code throws, as a `Result`, and `Option` for Java's `null`.
- `Numerals` models Java's `int`, `long` and `byte`, with `String.valueOf(long)`, `Long.parseLong` and `Integer.valueOf`.
- `JavaText` models `String.trim`, `isBlank`, the regular-expression classes `\s` and `\d`, and the boolean text.
- `JavaTypes` models the Java classes the codec names, with `isAssignableFrom` over them.
- `Json` holds the tokens. `Tokens` holds the wrapper-object form and bracket counting, which splits written output back into its values.
- `Graph` models the values: scalars, collections, temporals, points, nodes, relationships and paths. It also holds `JoltRelationship.fromRelationshipReversed`.
- `Sigils` is the `Sigil` enum: its literals, its alias, `ofLiteral` and `forType`.
- `TypeIds` is `JoltTypeIdResolver`.
- `Numbers` covers the delegating, long and sparse-number serializers.
- `Hex` covers the byte-array payload.
- `Wkt` covers the point payload.
- `StdDeser` covers `JoltStdDeserializer` and `JoltRealDeserializer`.
- `Lists` is `JoltListDeserializer`.
- `Entities` covers the map, node, relationship and path serializers.
- `Registry` holds the two modules' registration tables.
- `Codec` covers the `JoltCodec` resolver builder and the wrapper type deserializer with its temporal-amount retry.

Behaviour the model makes explicit:

- Two serializers test the integer range differently:
  - The strict long serializer and the resolver tag a long `Z` only when it is below `Integer.MAX_VALUE`. `Integer.MAX_VALUE` itself is tagged `R`.
  - The compact serializer writes every value up to `Integer.MAX_VALUE` inclusive as a bare number.
- The temporal sigil is shared:
  - A duration is written under `T`, because `TA` is an alias of `T`, and `T` resolves to `Temporal`, which a duration is not.
  - Reading a duration therefore fails the first attempt with an invalid type id. The codec then retries once under `TA`. When the requested type accepts `TemporalAmount`, the retry passes the type check. The value is then read only if the reader found for `TemporalAmount` reads the payload, and neither module registers a reader for that class. A Jolt standard deserializer handed the payload refuses a bare string (see Left out).
  - A concrete `java.time` class requested under `T` fails the retry as well.
- A list element under `@` is dispatched to `readValue(PointValue)`. The `@` tag resolves to `Point`, which `PointValue` is not a supertype of, so the type check rejects the element.
- The branch of `typeFromId` that would resolve a duration text under `T` is guarded by a constant `false`. It is dead, and the model leaves it out.

## Model

| member | source | states |
|---|---|---|
| Sigils.Ordinal | src/main/java/ac/simons/neo4j/jolt/Sigil.java:38-52 | every sigil has a position in the fifteen-entry declaration order and sits at that position |
| Sigils.AliasedLiteral | src/main/java/ac/simons/neo4j/jolt/Sigil.java:79-81 | the temporal-amount sigil writes the temporal literal `T`; every other sigil writes its own literal |
| Sigils.LiteralsDistinct | src/main/java/ac/simons/neo4j/jolt/Sigil.java:54-55 | no two sigils share a literal, so the reverse lookup table is a function |
| Sigils.OfLiteral | src/main/java/ac/simons/neo4j/jolt/Sigil.java:87-92 | a sigil found for a string has exactly that literal; a string that is no sigil's literal fails with an error naming it |
| Sigils.OfLiteralOfLiteral | src/main/java/ac/simons/neo4j/jolt/Sigil.java:87-92 | every sigil is found again from its own literal |
| Sigils.AnyAssignableIff | src/main/java/ac/simons/neo4j/jolt/Sigil.java:101-105 | the inner loop finds an assignable type exactly when the sigil's type list contains a supertype of the class |
| Sigils.FirstCovering | src/main/java/ac/simons/neo4j/jolt/Sigil.java:100-106 | the outer loop stops at a sigil covering the class with no covering sigil before it, or reports that none covers it |
| Sigils.ForType | src/main/java/ac/simons/neo4j/jolt/Sigil.java:94-109 | null gives the null sigil; otherwise the result covers the class and no earlier sigil does; it fails with the unsupported-type error only when no sigil covers the class |
| Sigils.ForTypeIsFirstCover | src/main/java/ac/simons/neo4j/jolt/Sigil.java:94-109 | the converse: the first covering sigil in declaration order is what `forType` returns |
| Sigils.ForTypeInteger | src/main/java/ac/simons/neo4j/jolt/Sigil.java:38 | example: a boxed Integer is found under the integer sigil |
| Sigils.ForTypeOtherNumbers | src/main/java/ac/simons/neo4j/jolt/Sigil.java:38-39 | Long, Double and Short fall under the real sigil, because they are Numbers and not Integers |
| Sigils.ForTypeDuration | src/main/java/ac/simons/neo4j/jolt/Sigil.java:44-45 | a Neo4j duration falls under the temporal-amount sigil, not the temporal one |
| Sigils.ForTypeTemporal | src/main/java/ac/simons/neo4j/jolt/Sigil.java:44 | every java.time class falls under the temporal sigil |
| Sigils.ForTypePointValue | src/main/java/ac/simons/neo4j/jolt/Sigil.java:46 | a point value falls under the spatial sigil |
| Sigils.ForTypeUncovered | src/main/java/ac/simons/neo4j/jolt/Sigil.java:108 | Object, Label and the primitive classes are covered by no sigil, so `forType` fails for them |
| TypeIds.WrittenSigil | src/main/java/ac/simons/neo4j/jolt/JoltTypeIdResolver.java:35-43 | the integer sigil is written exactly for the integer sigil or for a Long under the real sigil in `[Integer.MIN_VALUE, Integer.MAX_VALUE)`; the temporal sigil exactly for the temporal and temporal-amount sigils; every other sigil unchanged |
| TypeIds.CheckForLongForRealz | src/main/java/ac/simons/neo4j/jolt/JoltTypeIdResolver.java:35-43 | the tag is the literal of the written sigil |
| TypeIds.IdFromValue | src/main/java/ac/simons/neo4j/jolt/JoltTypeIdResolver.java:19-25 | null is tagged with the empty string; any other value fails, with the unsupported-type error, exactly when `forType` of its class fails, and otherwise is tagged with the literal of the sigil written for the sigil `forType` finds |
| TypeIds.IdFromValueAndType | src/main/java/ac/simons/neo4j/jolt/JoltTypeIdResolver.java:28-33 | without a suggested type it behaves as `idFromValue`; with one it fails exactly when `forType` of the suggestion fails, and otherwise returns the literal of the sigil written for the sigil found for the suggestion |
| TypeIds.TypeFromId | src/main/java/ac/simons/neo4j/jolt/JoltTypeIdResolver.java:51-71 | a tag resolves to no type exactly when `ofLiteral` refuses it, with the error naming the tag |
| TypeIds.IdFromValueFails | src/main/java/ac/simons/neo4j/jolt/JoltTypeIdResolver.java:19-25 | a value other than null has no tag exactly when no sigil covers its class |
| TypeIds.TypeFromIdFails | src/main/java/ac/simons/neo4j/jolt/JoltTypeIdResolver.java:53 | a tag resolves to no type exactly when it is no sigil's literal |
| TypeIds.LongTag | src/main/java/ac/simons/neo4j/jolt/JoltTypeIdResolver.java:35-43 | a Long is tagged `Z` exactly when it fits the integer tag's range, `R` otherwise |
| TypeIds.NumberTags | src/main/java/ac/simons/neo4j/jolt/JoltTypeIdResolver.java:19-25 | an Integer is tagged `Z`, and a Double always `R` |
| TypeIds.TemporalTags | src/main/java/ac/simons/neo4j/jolt/JoltTypeIdResolver.java:42 | every java.time value and every duration is tagged `T` |
| TypeIds.TemporalAmountCovers | src/main/java/ac/simons/neo4j/jolt/Sigil.java:45 | only `TemporalAmount` itself and durations fall under the temporal-amount sigil |
| TypeIds.TypeFromLiteral | src/main/java/ac/simons/neo4j/jolt/JoltTypeIdResolver.java:51-71 | a sigil's literal resolves to `Number` for the real sigil, otherwise to the first type the sigil lists |
| TypeIds.ResolvedCoversSigil | src/main/java/ac/simons/neo4j/jolt/JoltTypeIdResolver.java:51-71 | for every sigil but temporal amount, the type its written tag resolves to is a supertype of every class the sigil covers |
| TypeIds.TagResolvesToSupertype | src/main/java/ac/simons/neo4j/jolt/JoltTypeIdResolver.java:19-71 | apart from null, durations and demoted longs, the tag written for a value resolves on reading to a supertype of the value's class |
| TypeIds.DurationTagMisresolves | src/main/java/ac/simons/neo4j/jolt/JoltTypeIdResolver.java:57-68 | a duration is tagged `T`, and `T` resolves to `Temporal`, which is not a supertype of a duration |
| TypeIds.DemotedLongResolvesToInteger | src/main/java/ac/simons/neo4j/jolt/JoltTypeIdResolver.java:38-39 | a Long tagged `Z` resolves to `Integer`, which is not a supertype of Long |
| Numbers.DelegatingSerialize | src/main/java/ac/simons/neo4j/jolt/JoltDelegatingValueSerializer.java:19-21 | the payload is one string token, the converter's text |
| Numbers.LongTagOf | src/main/java/ac/simons/neo4j/jolt/JoltLongSerializer.java:28-35 | the field name is `Z` exactly when the long fits the integer tag, `R` exactly when it does not |
| Numbers.LongSerialize | src/main/java/ac/simons/neo4j/jolt/JoltLongSerializer.java:22-39 | a four-token object whose key is `Z` if and only if the long fits the integer tag, `R` otherwise, and whose value is the long's decimal text under either tag |
| Numbers.LongPayloadParses | src/main/java/ac/simons/neo4j/jolt/JoltLongSerializer.java:37 | the payload reads back as the same long through `Long.parseLong` |
| Numbers.LongSerializeAgreesWithResolver | src/main/java/ac/simons/neo4j/jolt/JoltLongSerializer.java:28-35 | the long serializer writes the same tag the type-id resolver assigns that Long |
| Numbers.LongSerializeBoundaries | src/main/java/ac/simons/neo4j/jolt/JoltLongSerializer.java:28 | `Integer.MIN_VALUE` and `Integer.MAX_VALUE - 1` are tagged `Z`; `Integer.MAX_VALUE` and `Integer.MIN_VALUE - 1` are tagged `R` |
| Numbers.LongSerializeExample | src/main/java/ac/simons/neo4j/jolt/JoltLongSerializer.java:22-39 | example: `123L` is written as `{"Z":"123"}` |
| Numbers.SparseSerialize | src/main/java/ac/simons/neo4j/jolt/JoltSparseNumberSerializer.java:46-54 | one token, a bare number equal to the value exactly when the value lies within the int range bounds included, else a string holding its decimal text |
| Numbers.SparsePayloadParses | src/main/java/ac/simons/neo4j/jolt/JoltSparseNumberSerializer.java:52 | outside the int range the string payload reads back as the same long |
| Numbers.SparseSerializeInt | src/main/java/ac/simons/neo4j/jolt/JoltSparseNumberSerializer.java:49-50 | every Integer is written as a bare number |
| Numbers.ModesDisagreeOnMaxInt | src/main/java/ac/simons/neo4j/jolt/JoltSparseNumberSerializer.java:49 | `Integer.MAX_VALUE` is bare in compact mode and tagged `R` in strict mode; every other value in the compact range is tagged `Z` in strict mode |
| Numerals.LongToString | src/main/java/ac/simons/neo4j/jolt/JoltLongSerializer.java:37 | a minus sign exactly for negative values, followed by canonical decimal digits whose value is the magnitude |
| Numerals.ParseLong | src/main/java/ac/simons/neo4j/jolt/JoltRealDeserializer.java:19 | it succeeds exactly when the text is a run of ASCII digits, optionally after a `+` or `-`, whose signed value fits in 64 bits, and then yields that value (so `+5` is 5, `007` is 7, `-0` is 0); a failure is a number-format error naming the text |
| Numerals.ParseLongOfLongToString | src/main/java/ac/simons/neo4j/jolt/JoltRealDeserializer.java:19 | `Long.parseLong` reads back the decimal text of every long |
| Numerals.ParseInt | src/main/java/ac/simons/neo4j/jolt/WKTToPoint.java:42 | a digit run parses exactly when it is non-empty and its value is at most `Integer.MAX_VALUE`, and then to that value |
| Numerals.ParseIntOfDigits | src/main/java/ac/simons/neo4j/jolt/WKTToPoint.java:42 | the decimal text of a non-negative int is a digit run that parses back to it |
| JavaText.Trim | src/main/java/ac/simons/neo4j/jolt/JoltStdDeserializer.java:75 | the result is an infix of the text with only characters up to U+0020 around it, and it neither starts nor ends with one |
| JavaText.TrimUntrimmed | src/main/java/ac/simons/neo4j/jolt/JoltStdDeserializer.java:88 | a text that neither starts nor ends with such a character is unchanged by trimming |
| JavaText.BooleanToString | src/main/java/ac/simons/neo4j/jolt/JoltModule.java:76-77 | the text of a boolean is read back as the same boolean by `Boolean.parseBoolean` |
| JavaText.ParseBoolean | src/main/java/ac/simons/neo4j/jolt/JoltModule.java:136-137 | true exactly for the four letters of `true` in any ASCII case |
| Hex.HighNibble | src/main/java/ac/simons/neo4j/jolt/JoltModule.java:177 | the shifted and masked high nibble indexes the digit table |
| Hex.LowNibble | src/main/java/ac/simons/neo4j/jolt/JoltModule.java:177 | the masked low nibble indexes the digit table |
| Hex.NibblesSpellUnsigned | src/main/java/ac/simons/neo4j/jolt/JoltModule.java:177 | the two nibbles of a signed byte spell its unsigned value |
| Hex.ToHexString | src/main/java/ac/simons/neo4j/jolt/JoltModule.java:172-180 | the text has two characters per byte |
| Hex.ToHexStringAt | src/main/java/ac/simons/neo4j/jolt/JoltModule.java:175-178 | byte `i` is written at positions `2i` and `2i+1`, high nibble first, as upper-case digits |
| Hex.Digit | src/main/java/ac/simons/neo4j/jolt/JoltModule.java:187-188 | `Character.digit(c, 16)` is -1 exactly for a non-hex character and otherwise below 16 |
| Hex.ToByte | src/main/java/ac/simons/neo4j/jolt/JoltModule.java:187 | the `(byte)` cast keeps the value modulo 256 |
| Hex.FromHexString | src/main/java/ac/simons/neo4j/jolt/JoltModule.java:182-191 | an odd-length text fails on the missing last character, and only such a text fails; otherwise there is one byte per pair (length counted in characters, see Left out) |
| Hex.FromHexStringAt | src/main/java/ac/simons/neo4j/jolt/JoltModule.java:186-189 | byte `k` is the cast of sixteen times the digit at `2k` plus the digit at `2k+1` |
| Hex.DigitPairRoundTrip | src/main/java/ac/simons/neo4j/jolt/JoltModule.java:172-191 | the two digits written for a byte are read back as that byte |
| Hex.FromHexOfToHex | src/main/java/ac/simons/neo4j/jolt/JoltModule.java:172-191 | reading back what `toHexString` wrote gives the same bytes |
| Hex.ToHexOfFromHex | src/main/java/ac/simons/neo4j/jolt/JoltModule.java:172-191 | writing back what `fromHexString` read from even-length hex text gives that text in upper case |
| Hex.NonHexDigitsAccepted | src/main/java/ac/simons/neo4j/jolt/JoltModule.java:187-188 | a non-hex character is not refused but read as -1, so `G0` becomes the byte -16 |
| Hex.HexExamples | src/main/java/ac/simons/neo4j/jolt/JoltModule.java:177 | example: the byte 10 is written `0A`, and the bytes -1 and -128 are written `FF80` |
| Hex.ToHexStringAppend | src/main/java/ac/simons/neo4j/jolt/JoltModule.java:175-178 | the text of a concatenation is the concatenation of the texts |
| StdDeser.SigilFromStruct | src/main/java/ac/simons/neo4j/jolt/JoltStdDeserializer.java:73-83 | a found sigil's literal is the trimmed field name after the struct start; a missing field name fails; a trimmed name that is no literal fails naming it |
| StdDeser.ValueAsString | src/main/java/ac/simons/neo4j/jolt/JoltStdDeserializer.java:85-96 | the trimmed text, the empty string for a missing token, and a failure exactly for a primitive target with blank text |
| StdDeser.Deserialize | src/main/java/ac/simons/neo4j/jolt/JoltStdDeserializer.java:28-58 | it fails unless the value is a struct under the deserializer's own trimmed literal, with a string payload where strings are required, converted by the step and followed by a struct end; the result is the step's value and the stream after that end |
| StdDeser.Close | src/main/java/ac/simons/neo4j/jolt/JoltStdDeserializer.java:53-57 | a converted value is kept exactly when the next token ends the struct, which is then consumed; a conversion error passes through |
| StdDeser.DeserializeAccepted | src/main/java/ac/simons/neo4j/jolt/JoltStdDeserializer.java:28-58 | once the header checks pass, the outcome is the step's, closed |
| StdDeser.DeserializeWrongSigil | src/main/java/ac/simons/neo4j/jolt/JoltStdDeserializer.java:37-42 | another sigil's tag is refused with an error naming both sigils |
| StdDeser.DeserializeUnknownTag | src/main/java/ac/simons/neo4j/jolt/JoltStdDeserializer.java:76-82 | a trimmed tag that is no literal is refused as an unsupported named datatype |
| StdDeser.DeserializeNonStringPayload | src/main/java/ac/simons/neo4j/jolt/JoltStdDeserializer.java:44-50 | with the string restriction, a missing or non-string payload is refused |
| StdDeser.DeserializeDangling | src/main/java/ac/simons/neo4j/jolt/JoltStdDeserializer.java:53-56 | a converted payload not followed by a struct end is refused as dangling data |
| StdDeser.DeserializeWrapped | src/main/java/ac/simons/neo4j/jolt/JoltStdDeserializer.java:28-58 | a wrapper object under the own tag whose payload the step reads is read back as that value, leaving the stream after the object |
| StdDeser.RealStep | src/main/java/ac/simons/neo4j/jolt/JoltRealDeserializer.java:15-23 | the result is a Long the long parse gives for the trimmed text, else a Double the double parse gives for it, else the number-format error, and one token is consumed |
| StdDeser.RealDeserialize | src/main/java/ac/simons/neo4j/jolt/JoltRealDeserializer.java:10-12 | only a string payload under the real tag is read, and the result is a Long or a Double |
| StdDeser.RealStepOfLongText | src/main/java/ac/simons/neo4j/jolt/JoltRealDeserializer.java:17-19 | the decimal text of a long is read as that long |
| StdDeser.RealStepOfDoubleText | src/main/java/ac/simons/neo4j/jolt/JoltRealDeserializer.java:20-21 | a text the long parse refuses falls back to the double parse |
| StdDeser.RealStepRefuses | src/main/java/ac/simons/neo4j/jolt/JoltRealDeserializer.java:20-21 | a text neither parse accepts fails with the number-format error |
| StdDeser.RealReadsLongText | src/main/java/ac/simons/neo4j/jolt/JoltRealDeserializer.java:10-23 | any long's decimal text under `R` is read back as that long |
| StdDeser.RealReadsStrictLong | src/main/java/ac/simons/neo4j/jolt/JoltRealDeserializer.java:10-23 | a long the strict serializer tags `R` is read back as the same long |
| StdDeser.RealRefusesIntegerTag | src/main/java/ac/simons/neo4j/jolt/JoltStdDeserializer.java:37-42 | a long the strict serializer tags `Z` is refused by the real deserializer as a sigil mismatch |
| StdDeser.RealReadsDouble | src/main/java/ac/simons/neo4j/jolt/JoltRealDeserializer.java:20-21 | a wrapped text only the double parse accepts is read as that double |
| StdDeser.RealRefusesNonNumber | src/main/java/ac/simons/neo4j/jolt/JoltRealDeserializer.java:20-21 | a wrapped text neither parse accepts fails with the double parse's error |
| StdDeser.RealReadsExample | src/main/java/ac/simons/neo4j/jolt/JoltRealDeserializer.java:19 | example: `{"R":"123"}` is the Long 123 |
| StdDeser.LiteralUntrimmed | src/main/java/ac/simons/neo4j/jolt/JoltStdDeserializer.java:75 | trimming leaves every sigil literal unchanged |
| Lists.ListSerialize | src/main/java/ac/simons/neo4j/jolt/JoltListDeserializer.java:47-58 | the list deserializer's own `serialize` (the module registers `JoltListSerializer` as the list writer, which is not part of this model): the list is a wrapper object under the list tag whose value is an array |
| Lists.ListSerializeSplits | src/main/java/ac/simons/neo4j/jolt/JoltListDeserializer.java:47-58 | the list written by the deserializer's own `serialize` is one JSON value whose array splits back into one group per item, in order |
| Lists.ElementTarget | src/main/java/ac/simons/neo4j/jolt/JoltListDeserializer.java:92-110 | an element sigil is refused exactly when it is map, temporal amount, node, relationship, reversed relationship, path or null, with an error naming it |
| Lists.HandleNestedJolt | src/main/java/ac/simons/neo4j/jolt/JoltListDeserializer.java:87-111 | a read element consumes at least one token |
| Lists.ReadElements | src/main/java/ac/simons/neo4j/jolt/JoltListDeserializer.java:72-84 | a read element list consumes at least the closing token |
| Lists.ListImpl | src/main/java/ac/simons/neo4j/jolt/JoltListDeserializer.java:66-85 | a payload that is not an array is refused; a result is a list |
| Lists.ListDeserialize | src/main/java/ac/simons/neo4j/jolt/JoltListDeserializer.java:43-63 | only an array under the list tag is read, with no string restriction, and the result is a list |
| Lists.HandleNestedDispatch | src/main/java/ac/simons/neo4j/jolt/JoltListDeserializer.java:91-107 | an element under a dispatched sigil is read by `readValue` for that sigil's target class, from the field name on |
| Lists.HandleNestedUnsupported | src/main/java/ac/simons/neo4j/jolt/JoltListDeserializer.java:108-109 | an element under any other sigil is refused, naming it |
| Lists.ReadElementsOfWriteAll | src/main/java/ac/simons/neo4j/jolt/JoltListDeserializer.java:74-82 | the elements `writeObject` wrote, each of which reads back, are read back in order up to the array end |
| Lists.ListRoundTrip | src/main/java/ac/simons/neo4j/jolt/JoltListDeserializer.java:47-85 | a list written by the list deserializer's own `serialize` (not the registered `JoltListSerializer`) whose elements read back is read back as the same list, leaving what follows |
| Lists.ListDeserializeOfWrap | src/main/java/ac/simons/neo4j/jolt/JoltListDeserializer.java:60-63 | under the list tag the whole payload goes to the list step, whatever its first token |
| Lists.ListRefusesScalarElement | src/main/java/ac/simons/neo4j/jolt/JoltListDeserializer.java:79-81 | an element that is a bare scalar fails with the not-yet-done error |
| Lists.ListRefusesUnsupportedElement | src/main/java/ac/simons/neo4j/jolt/JoltListDeserializer.java:108-109 | an element under an undispatched sigil makes the whole list fail |
| Lists.ListRefusesNonArray | src/main/java/ac/simons/neo4j/jolt/JoltListDeserializer.java:68-70 | a list payload that is not an array is refused |
| Lists.ListUnterminated | src/main/java/ac/simons/neo4j/jolt/JoltListDeserializer.java:74 | an array that never ends fails on the missing token |
| Entities.MapSerialize | src/main/java/ac/simons/neo4j/jolt/JoltMapSerializer.java:36-50 | the map tag opens an inner object, and both objects are closed at the end |
| Entities.MapSerializeSplits | src/main/java/ac/simons/neo4j/jolt/JoltMapSerializer.java:39-49 | the written map is one JSON value whose inner object splits back into the same keys, in order, with each value's output |
| Entities.EmptyMapSerialize | src/main/java/ac/simons/neo4j/jolt/JoltMapSerializer.java:39-49 | example: the empty map is written as `{"{}":{}}` |
| Entities.PropertiesOrEmpty | src/main/java/ac/simons/neo4j/jolt/JoltNodeSerializer.java:49 | missing properties are written as the empty map |
| Entities.NodeSerialize | src/main/java/ac/simons/neo4j/jolt/JoltNodeSerializer.java:35-54 | the node tag opens an inner object whose first member is `id` |
| Entities.NodeSerializeSplits | src/main/java/ac/simons/neo4j/jolt/JoltNodeSerializer.java:40-52 | the written node is one JSON value whose inner object splits back into `id`, `labels` and `properties`, in that order, with the id, the labels and the properties or the empty map |
| Entities.RelationshipSerialize | src/main/java/ac/simons/neo4j/jolt/JoltRelationshipSerializer.java:40-65 | an array holding the id, the start node id, the type name, the end node id and then a properties object |
| Entities.RelationshipSerializeSplits | src/main/java/ac/simons/neo4j/jolt/JoltRelationshipSerializer.java:43-64 | the written relationship is one JSON array whose items split back into those five values |
| Entities.RelationshipPropertiesSplit | src/main/java/ac/simons/neo4j/jolt/JoltRelationshipSerializer.java:53-62 | its properties object splits back into the properties, or none when they are missing |
| Entities.EmitElement | src/main/java/ac/simons/neo4j/jolt/JoltPathSerializer.java:34-54 | a node is written as is; a relationship is written as is when it starts at the last node, reversed otherwise |
| Entities.Normalise | src/main/java/ac/simons/neo4j/jolt/JoltPathSerializer.java:28-55 | one written element per path element |
| Entities.NormaliseAt | src/main/java/ac/simons/neo4j/jolt/JoltPathSerializer.java:29-55 | each written element is determined by its path element and the id of the last node before it, 0 if none |
| Entities.NormaliseElement | src/main/java/ac/simons/neo4j/jolt/JoltPathSerializer.java:34-54 | nodes are kept; a relationship is reversed exactly when it does not start at the last node, keeping id, type and properties |
| Entities.PathChain | src/main/java/ac/simons/neo4j/jolt/JoltPathSerializer.java:45-53 | in a well-formed path every written relationship runs from the node before it to the node after it |
| Entities.PathSerialize | src/main/java/ac/simons/neo4j/jolt/JoltPathSerializer.java:21-60 | the path is a wrapper object under the path tag whose value is the array of normalised elements |
| Entities.PathSerializeSplits | src/main/java/ac/simons/neo4j/jolt/JoltPathSerializer.java:26-57 | the written path is one JSON value whose array splits back into one group per path element |
| Graph.FromRelationshipReversed | src/main/java/ac/simons/neo4j/jolt/JoltRelationship.java:26-30 | start and end node ids are swapped, while the id, type and properties are kept |
| Graph.ReverseTwice | src/main/java/ac/simons/neo4j/jolt/JoltRelationship.java:26-30 | reversing twice gives back the original relationship |
| Wkt.PointToWkt | src/main/java/ac/simons/neo4j/jolt/PointToWKT.java:27-39 | the text starts with `SRID=` and ends with `)` |
| Wkt.ParseWkt | src/main/java/ac/simons/neo4j/jolt/WKTToPoint.java:30-39 | a match is pieces, each matching its part of the pattern, that spell the whole text |
| Wkt.ParseWktOfAssemble | src/main/java/ac/simons/neo4j/jolt/WKTToPoint.java:30 | the match is unique: well-formed pieces are cut back out of the text they spell |
| Wkt.WktToPoint | src/main/java/ac/simons/neo4j/jolt/WKTToPoint.java:33-46 | a text the pattern does not match is refused as an illegal point; a point read has two coordinates, the matched code of a known reference system and the double parses of the matched coordinates |
| Wkt.WktToPointOfSteps | src/main/java/ac/simons/neo4j/jolt/WKTToPoint.java:41-45 | once the match, the code, the reference system and both coordinates succeed, the point is built from them |
| Wkt.ParseWktOfPoint2D | src/main/java/ac/simons/neo4j/jolt/PointToWKT.java:27-39 | the text of a two-dimensional point matches the pattern, with the pieces of that point |
| Wkt.PointRoundTrip2D | src/main/java/ac/simons/neo4j/jolt/WKTToPoint.java:33-46 | a two-dimensional point in a known reference system is read back from its text |
| Wkt.PointRejected3D | src/main/java/ac/simons/neo4j/jolt/PointToWKT.java:34 | the text of a three-dimensional point does not match the pattern and is refused |
| Registry.SerializerFor | src/main/java/ac/simons/neo4j/jolt/JoltModule.java:69-127 | compact mode writes int, Integer, long and Long through the sparse serializer, and registers nothing for String, boolean, Boolean, Void or List |
| Registry.DeserializerFor | src/main/java/ac/simons/neo4j/jolt/JoltModule.java:129-170 | compact mode registers no deserializer for any mode-dependent class |
| Registry.StrictSerializers | src/main/java/ac/simons/neo4j/jolt/JoltModule.java:72-87 | table entries: strict mode tags strings `U`, booleans `?` and ints `Z`, writes longs through the long serializer, Void under the null sigil, and lists through the list serializer |
| Registry.StrictDeserializers | src/main/java/ac/simons/neo4j/jolt/JoltModule.java:132-146 | table entries: strict mode reads strings, booleans and ints under their sigils, a boxed Long under `Z`, and lists; nothing is registered for primitive long or Void |
| Registry.ModesAgreeElsewhere | src/main/java/ac/simons/neo4j/jolt/JoltModule.java:97-126 | outside the mode-dependent classes both modules register the same serializers and deserializers |
| Registry.TimeShared | src/main/java/ac/simons/neo4j/jolt/JoltModule.java:104-115 | every java.time class and durations are written and read under the temporal sigil in both modes |
| Registry.WriteAndReadAgree | src/main/java/ac/simons/neo4j/jolt/JoltModule.java:69-170 | where a class has both a delegating serializer and a delegating deserializer, both use the same sigil |
| Registry.ReadableIsWritable | src/main/java/ac/simons/neo4j/jolt/JoltModule.java:129-170 | every class a module reads is one it writes, except `Number`, which the real deserializer reads |
| Registry.ResolverAgreesWithRegistration | src/main/java/ac/simons/neo4j/jolt/JoltModule.java:74-115 | for a non-primitive class with a delegating serializer, the type-id resolver writes the literal of the sigil it is registered under |
| Codec.Specialize | src/main/java/ac/simons/neo4j/jolt/JoltCodec.java:120-122 | a resolved type is refused with an invalid-type-id error, naming the tag and keeping the stream after it, exactly when it has the requested type's kind, no generic types and is no subtype of it |
| Codec.SpecializeSimple | src/main/java/ac/simons/neo4j/jolt/JoltCodec.java:120-122 | between two plain classes the check is exactly assignability |
| Codec.SpecializeUnchecked | src/main/java/ac/simons/neo4j/jolt/JoltCodec.java:120-122 | a List or Map on either side is never checked |
| Codec.TypeIdField | src/main/java/ac/simons/neo4j/jolt/JoltCodec.java:121 | the type id is the field name after an object start, or the current token when that is a field name; anything else is the wrong token |
| Codec.ReadTagged | src/main/java/ac/simons/neo4j/jolt/JoltCodec.java:121 | a read value leaves a strictly shorter stream than the payload it was given; a rejected type id keeps no more than that stream |
| Codec.Attempt | src/main/java/ac/simons/neo4j/jolt/JoltCodec.java:121 | a read value consumes at least the field name and the object end, and also the object start when there is one |
| Codec.RetryStream | src/main/java/ac/simons/neo4j/jolt/JoltCodec.java:126-130 | an object start and the temporal-amount tag, followed by the rest of the rejected stream |
| Codec.Recover | src/main/java/ac/simons/neo4j/jolt/JoltCodec.java:120-134 | only an invalid type id changes the first outcome; under the temporal tag the result is a second attempt on the retry stream |
| Codec.WrapperDeserialize | src/main/java/ac/simons/neo4j/jolt/JoltCodec.java:118-135 | a read value consumes at least one token, also through the retry |
| Codec.TimeTagOnly | src/main/java/ac/simons/neo4j/jolt/JoltCodec.java:125 | the retry condition holds exactly for the tag `T` |
| Codec.RetryOnlyForTime | src/main/java/ac/simons/neo4j/jolt/JoltCodec.java:122-131 | an invalid type id under `T` is retried once, on the retry stream |
| Codec.NoRetryOtherwise | src/main/java/ac/simons/neo4j/jolt/JoltCodec.java:120-134 | any other outcome of the first attempt stands |
| Codec.AttemptOfWrap | src/main/java/ac/simons/neo4j/jolt/JoltCodec.java:121 | a wrapper object is read under its tag from the payload on |
| Codec.AttemptOfRetry | src/main/java/ac/simons/neo4j/jolt/JoltCodec.java:126-131 | the retry stream is read under the temporal-amount tag |
| Codec.WrapperReadsTagged | src/main/java/ac/simons/neo4j/jolt/JoltCodec.java:118-121 | a wrapper object whose tag resolves to a class the requested one accepts is read by that class's deserializer |
| Codec.TimeRejected | src/main/java/ac/simons/neo4j/jolt/JoltCodec.java:121-122 | a plain requested class that is no supertype of `Temporal` rejects the `T` tag on the first attempt |
| Codec.RetryReads | src/main/java/ac/simons/neo4j/jolt/JoltCodec.java:126-131 | when the requested class accepts `TemporalAmount`, the retry passes the type check and yields whatever the reader found for `TemporalAmount` reads from the payload; it is read only when that reader reads it |
| Codec.RetryTargetUnregistered | src/main/java/ac/simons/neo4j/jolt/JoltModule.java:129-170 | `TA` resolves to `TemporalAmount`, and no deserializer is registered for that class in either mode |
| Codec.RetryRefusedByStdReader | src/main/java/ac/simons/neo4j/jolt/JoltStdDeserializer.java:28-35 | a Jolt standard deserializer supplied for `TemporalAmount` is handed the payload from the string token on and refuses it, so the retry of a string payload fails |
| Codec.RetryRejected | src/main/java/ac/simons/neo4j/jolt/JoltCodec.java:131 | when it does not, the retry fails with an invalid type id under `TA` |
| Codec.DurationUnderTimeRetried | src/main/java/ac/simons/neo4j/jolt/JoltCodec.java:118-135 | a duration written under `T` and read as a `TemporalAmount` fails the first attempt; the retry yields the duration only when the reader found for `TemporalAmount` reads its payload |
| Codec.TemporalRetryFails | src/main/java/ac/simons/neo4j/jolt/JoltCodec.java:122-133 | a `T` value read as a concrete java.time class fails on both attempts |
| Codec.UnknownTagNotRetried | src/main/java/ac/simons/neo4j/jolt/JoltCodec.java:120-122 | a tag that is no sigil's literal fails with the resolver's own error and is not retried |
| Codec.ListPointElementRejected | src/main/java/ac/simons/neo4j/jolt/JoltListDeserializer.java:102-103 | a list element under `@`, read as `PointValue`, is refused with an invalid type id |
| Codec.BuildTypeSerializer | src/main/java/ac/simons/neo4j/jolt/JoltCodec.java:66-72 | type serialization is handed on exactly for non-array types and `byte[]` |
| Codec.BuildTypeDeserializer | src/main/java/ac/simons/neo4j/jolt/JoltCodec.java:75-93 | it fails exactly when the inclusion is not a wrapper object and no exclusion applies; a built deserializer is for the requested type |
| Codec.NewCodec | src/main/java/ac/simons/neo4j/jolt/JoltCodec.java:57-103 | the strict module is registered exactly when strict mode is asked for; the resolver uses custom ids and the wrapper-object inclusion |
| Codec.DefaultCodec | src/main/java/ac/simons/neo4j/jolt/JoltCodec.java:108-110 | the no-argument codec is in compact mode with the same resolver |
| Codec.CodecBuildsWrappers | src/main/java/ac/simons/neo4j/jolt/JoltCodec.java:85-96 | the codec's own builder never fails to build a type deserializer |
| Codec.TypedBothWays | src/main/java/ac/simons/neo4j/jolt/JoltCodec.java:66-93 | for non-primitive types, writing hands on type serialization exactly when reading builds the wrapper type deserializer |
| Codec.ExclusionsBeforeInclusion | src/main/java/ac/simons/neo4j/jolt/JoltCodec.java:77-79 | an array other than `byte[]`, a primitive type or the id type NONE gets no type deserializer, whatever the inclusion |

## Left out

- Jackson itself is outside the model. Its parser, generator, serializer lookup and the way a root or nested `readValue` composes a type deserializer with a value deserializer are left out. Nested writes and reads are the parameters `write`, `readFor` and `find`.
- Codec.RetryReads: how Jackson picks the value deserializer for `TemporalAmount` on the retry, and where it positions the parser for it, is not modelled. No module registers one (`Codec.RetryTargetUnregistered`). In the model's composition, a Jolt standard deserializer receives the payload after the tag and refuses a string (`Codec.RetryRefusedByStdReader`). So `Codec.RetryReads` and `Codec.DurationUnderTimeRetried` promise a read only under their premise that the reader found reads the payload.
- The JSON text is not modelled. The model works on tokens, and numbers are integers.
- Registry.SerializerFor: registrations are looked up by exact class; Jackson's lookup of a serializer registered for a supertype (such as `Node` for a node implementation) is not modelled.
- Codec.BuildTypeSerializer: states only when the override hands on to the inherited `buildTypeSerializer`. The inherited builder's own output is not modelled.
- Codec.BuildTypeDeserializer: the validator, the id resolver construction and the default implementation it computes are not modelled; only the exclusion and the inclusion switch are.
- The polymorphic type validator and `DefaultTyping.EVERYTHING` are not modelled. Every type is treated as typed unless an exclusion applies (`JoltCodec.java` 97-102).
- The ISO text of the temporal types is not modelled: `DateTimeFormatter` and `DurationValue.parse`/`toString`. Temporals and durations carry their text unchanged.
- StdDeser.RealStep: `Double.parseDouble` is a parameter, and a double is represented by its text.
- Wkt.WktToPoint: `Double.parseDouble` and the lookup `CoordinateReferenceSystem.get` are parameters, and coordinates are their text. `String.valueOf(double)` in `PointToWKT` is the identity on that text.
- Hex.FromHexString: a string is a sequence of Unicode scalar values, while `length()` and `charAt` count UTF-16 code units. A character outside the Basic Multilingual Plane is one character here and two code units in Java, so it changes the parity and the pairing: `"\u{1F600}"` fails here but gives one byte in Java, and `"A\u{1F600}"` gives one byte here but throws in Java. The model agrees with the source only on text within the Basic Multilingual Plane.
- Hex.Digit: `Character.digit` is modelled for ASCII characters only. Its acceptance of other Unicode digits and letters is left out.
- Numerals.ParseLong: accepts ASCII digits only; `Long.parseLong` also accepts other Unicode decimal digits.
- Lists.HandleNestedJolt: the nested reader is required never to return more tokens than it was given (`Lists.Reader`), which is what makes the element loop terminate in the model. Jackson's readers always consume.
- The debug output that `JoltStdDeserializer` and `handleNestedJolt` print is left out.
- `JoltListSerializer`, `JoltRelationshipReversedSerializer`, `JoltLabelConverter`, `JoltRelationshipTypeConverter` and `JoltDelegatingValueDeserializer` are not part of this model. The registry records that they are registered but not what they do.
- `JoltModule` constructs delegating serializers with a sigil argument, but `JoltDelegatingValueSerializer` in this revision takes only a class and a converter. The registry records the sigil passed, and the tag actually written comes from the type-id resolver.
- The branch of `typeFromId` guarded by a constant `false` (`JoltTypeIdResolver.java` 60-66) is dead and left out.
- `getMechanism` returns the custom id mechanism. The model states it as the builder's id type in `Codec.NewCodec`.

=== FILE: codec.dfy ===
/** The codec's type handling: the wrapper-object type deserializer Jackson
    builds for every requested type, the codec's retry of the temporal tag
    as a temporal amount, and the resolver builder that decides which types
    get a type serializer or deserializer at all.

    The wrapper deserializer reads `{tag: payload}`: it resolves the tag to a
    class with the type-id resolver, checks that class against the requested
    one, hands the payload to the deserializer for the resolved class (the
    parameter `find`) and expects the object to close right after it.
 */
module Codec {
  import opened Results
  import opened Json
  import opened JavaTypes
  import opened Graph
  import Sigils
  import Tokens
  import StdDeser
  import TypeIds
  import Lists
  import Registry

  /** The kinds of Jackson's `JavaType`: a plain class, an array, a
      collection or a map. */
  datatype TypeKind = SimpleKind | ArrayKind | CollectionKind | MapKind

  function KindOf(c: JavaClass): (k: TypeKind)
    ensures k == ArrayKind <==> IsArray(c)
    ensures k == CollectionKind <==> c == ListClass
    ensures k == MapKind <==> c == MapClass
  {
    if IsArray(c) then ArrayKind
    else if c == ListClass then CollectionKind
    else if c == MapClass then MapKind
    else SimpleKind
  }

  /** `hasGenericTypes` of the type constructed for a class: a raw `List`
      or `Map` is constructed with `Object` type parameters. */
  predicate HasGenericTypes(c: JavaClass) {
    c == ListClass || c == MapClass
  }

  /** The check `_findDeserializer` makes on a resolved type: when it is of
      the same kind as the requested one and has no type parameters, it is
      specialised from the requested type, which fails (as an invalid type
      id, at the parser position `rest`) unless the requested class is
      assignable from the resolved one. */
  function Specialize(base: JavaClass, resolved: JavaClass, id: string, rest: seq<Token>): (r: Result<JavaClass>)
    ensures r.Ok? ==> r.value == resolved
    ensures r.Err? ==> r.error == InvalidTypeId(id, rest)
  {
    if KindOf(base) == KindOf(resolved) && !HasGenericTypes(resolved) && !IsAssignableFrom(base, resolved)
    then Err(InvalidTypeId(id, rest))
    else Ok(resolved)
  }

  /** Between two plain classes the check is exactly assignability. */
  lemma SpecializeSimple(base: JavaClass, resolved: JavaClass, id: string, rest: seq<Token>)
    requires KindOf(base) == SimpleKind && KindOf(resolved) == SimpleKind
    ensures Specialize(base, resolved, id, rest).Ok? <==> IsAssignableFrom(base, resolved)
  {
  }

  /** A list or a map on either side is never checked: whatever the tag
      resolves to is accepted for a requested list or map, and a tag that
      resolves to a list or a map is accepted for any requested type. */
  lemma SpecializeUnchecked(base: JavaClass, resolved: JavaClass, id: string, rest: seq<Token>)
    requires HasGenericTypes(base) || HasGenericTypes(resolved)
    ensures Specialize(base, resolved, id, rest) == Ok(resolved)
  {
  }

  /** Where the type id is found: at the current token when it is a field
      name, at the next one when the current token starts an object; any
      other position is the wrong token. */
  function TypeIdField(toks: seq<Token>): (r: Result<seq<Token>>)
    ensures r.Ok? ==> |r.value| > 0 && r.value[0].FieldName?
    ensures r.Ok? ==> |toks| > 0 && (if toks[0] == StartObject then r.value == toks[1..] else r.value == toks)
    ensures r.Err? ==> r.error == WrongToken
    ensures r.Err? <==> |toks| == 0 || (toks[0] == StartObject && (|toks| < 2 || !toks[1].FieldName?))
                                     || (toks[0] != StartObject && !toks[0].FieldName?)
  {
    if |toks| == 0 then Err(WrongToken)
    else if toks[0] == StartObject then
      if |toks| >= 2 && toks[1].FieldName? then Ok(toks[1..]) else Err(WrongToken)
    else if toks[0].FieldName? then Ok(toks)
    else Err(WrongToken)
  }

  /** The inherited `AsWrapperTypeDeserializer._deserialize` once the type
      id `id` has been read, with `rest` the tokens after its field name: the
      id's resolved and checked class, the payload read by that class's
      deserializer, and the closing of the wrapper object. A tag that is no
      sigil's literal fails in the resolver, unwrapped. */
  function ReadTagged(base: JavaClass, find: JavaClass -> Lists.Reader, id: string, rest: seq<Token>): (r: Result<(Value, seq<Token>)>)
    ensures r.Ok? ==> |r.value.1| < |rest|
    ensures r.Err? && r.error.InvalidTypeId? ==> |r.error.rest| <= |rest|
  {
    var resolved :- TypeIds.TypeFromId(id);
    var cls :- Specialize(base, resolved, id, rest);
    var (v, after) :- find(cls)(rest);
    if |after| == 0 || after[0] != EndObject then Err(WrongToken)
    else Ok((v, after[1..]))
  }

  /** One pass of the inherited `AsWrapperTypeDeserializer._deserialize`
      for the requested class `base`. */
  function Attempt(base: JavaClass, find: JavaClass -> Lists.Reader, toks: seq<Token>): (r: Result<(Value, seq<Token>)>)
    ensures r.Ok? ==> |r.value.1| + 2 <= |toks|
    ensures r.Ok? && toks[0] == StartObject ==> |r.value.1| + 3 <= |toks|
    ensures r.Err? && r.error.InvalidTypeId? ==> |r.error.rest| + 1 <= |toks|
    ensures r.Err? && r.error.InvalidTypeId? && toks[0] == StartObject ==> |r.error.rest| + 2 <= |toks|
  {
    var field :- TypeIdField(toks);
    ReadTagged(base, find, field[0].name, field[1..])
  }

  /** The stream the codec retries on: a fresh object start and the
      temporal-amount tag, followed by the tokens after the rejected tag. */
  function RetryStream(rest: seq<Token>): (r: seq<Token>)
    ensures |r| == |rest| + 2 && r[0] == StartObject && r[2..] == rest
    ensures r[1] == FieldName(Sigils.Literal(Sigils.TemporalAmount))
  {
    [StartObject, FieldName("TA")] + rest
  }

  /** The codec's handler around the first attempt's outcome: an invalid
      type id whose tag (the parser's text, still the rejected field name) is
      the temporal sigil's literal is retried on the retry stream, and that
      second attempt's outcome stands; any other outcome is passed on. */
  function Recover(base: JavaClass, find: JavaClass -> Lists.Reader, first: Result<(Value, seq<Token>)>): (r: Result<(Value, seq<Token>)>)
    ensures r != first ==> first.Err? && first.error.InvalidTypeId?
    ensures first.Err? && first.error.InvalidTypeId? && Sigils.OfLiteral(first.error.id) == Ok(Sigils.Time)
      ==> r == Attempt(base, find, RetryStream(first.error.rest))
  {
    match first
    case Err(InvalidTypeId(id, rest)) =>
      (match Sigils.OfLiteral(id)
       case Err(e) => Err(e)
       case Ok(s) =>
         if s == Sigils.Time then Attempt(base, find, RetryStream(rest))
         else Err(InvalidTypeId(id, rest)))
    case other => other
  }

  /** `JoltAsWrapperTypeDeserializer._deserialize`: one attempt, recovered
      from at most once. */
  function WrapperDeserialize(base: JavaClass, find: JavaClass -> Lists.Reader, toks: seq<Token>): (r: Result<(Value, seq<Token>)>)
    ensures r.Ok? ==> |r.value.1| < |toks|
    ensures r.Err? && r.error.InvalidTypeId? ==> |r.error.rest| < |toks|
  {
    Recover(base, find, Attempt(base, find, toks))
  }

  /** The wrapper deserializer for `base` as a reader a list can be given. */
  function WrapperReader(base: JavaClass, find: JavaClass -> Lists.Reader): (reader: Lists.Reader)
    ensures forall t :: reader(t) == WrapperDeserialize(base, find, t)
  {
    t => WrapperDeserialize(base, find, t)
  }

  /** Only the temporal tag names the temporal sigil. */
  lemma TimeTagOnly(id: string)
    ensures Sigils.OfLiteral(id) == Ok(Sigils.Time) <==> id == "T"
  {
    Sigils.OfLiteralOfLiteral(Sigils.Time);
  }

  /** An invalid type id under the temporal tag is retried once, on the
      retry stream, and the retry's outcome is the result, whatever it is:
      there is no second retry. */
  lemma RetryOnlyForTime(base: JavaClass, find: JavaClass -> Lists.Reader, toks: seq<Token>, id: string, rest: seq<Token>)
    requires Attempt(base, find, toks) == Err(InvalidTypeId(id, rest))
    requires id == Sigils.Literal(Sigils.Time)
    ensures WrapperDeserialize(base, find, toks) == Attempt(base, find, RetryStream(rest))
  {
    Sigils.OfLiteralOfLiteral(Sigils.Time);
  }

  /** Without an invalid type id under the temporal tag, the result is the
      first attempt's. */
  lemma NoRetryOtherwise(base: JavaClass, find: JavaClass -> Lists.Reader, toks: seq<Token>)
    requires var a := Attempt(base, find, toks);
      a.Ok? || !a.error.InvalidTypeId? || Sigils.OfLiteral(a.error.id).Ok?
    requires var a := Attempt(base, find, toks);
      a.Err? && a.error.InvalidTypeId? ==> a.error.id != "T"
    ensures WrapperDeserialize(base, find, toks) == Attempt(base, find, toks)
  {
    var a := Attempt(base, find, toks);
    if a.Err? && a.error.InvalidTypeId? {
      TimeTagOnly(a.error.id);
    }
  }

  /** A wrapper object is read by the second half of the pass under its
      tag, with the tokens after the tag. */
  lemma AttemptOfWrap(base: JavaClass, find: JavaClass -> Lists.Reader, tag: string, payload: seq<Token>, tail: seq<Token>)
    ensures Attempt(base, find, Tokens.Wrap(tag, payload) + tail) == ReadTagged(base, find, tag, payload + [EndObject] + tail)
  {
    var toks := Tokens.Wrap(tag, payload) + tail;
    Tokens.WrapParts(tag, payload, tail);
    assert TypeIdField(toks) == Ok(toks[1..]);
    assert toks[1..][1..] == payload + [EndObject] + tail;
  }

  /** The retry stream is read under the temporal-amount tag. */
  lemma AttemptOfRetry(base: JavaClass, find: JavaClass -> Lists.Reader, rest: seq<Token>)
    ensures Attempt(base, find, RetryStream(rest)) == ReadTagged(base, find, Sigils.Literal(Sigils.TemporalAmount), rest)
  {
    var toks := RetryStream(rest);
    assert TypeIdField(toks) == Ok(toks[1..]);
    assert toks[1..][1..] == rest;
  }

  /** A wrapper object whose tag resolves to a class the requested one
      accepts is read as what the resolved class's deserializer reads from
      the payload, provided the object closes right after it. */
  lemma WrapperReadsTagged(base: JavaClass, find: JavaClass -> Lists.Reader, s: Sigils.Sigil, payload: seq<Token>, v: Value, tail: seq<Token>)
    requires TypeIds.TypeFromId(Sigils.Literal(s)).Ok?
    requires var c := TypeIds.TypeFromId(Sigils.Literal(s)).value;
      Specialize(base, c, Sigils.Literal(s), payload + [EndObject] + tail).Ok?
    requires find(TypeIds.TypeFromId(Sigils.Literal(s)).value)(payload + [EndObject] + tail) == Ok((v, [EndObject] + tail))
    ensures WrapperDeserialize(base, find, Tokens.Wrap(Sigils.Literal(s), payload) + tail) == Ok((v, tail))
  {
    AttemptOfWrap(base, find, Sigils.Literal(s), payload, tail);
  }

  /** A plain requested class that is not a `Temporal` supertype rejects
      the temporal tag on the first attempt, at the tokens after it. */
  lemma TimeRejected(base: JavaClass, find: JavaClass -> Lists.Reader, tag: string, payload: seq<Token>, tail: seq<Token>)
    requires tag == Sigils.Literal(Sigils.Time)
    requires KindOf(base) == SimpleKind && !IsAssignableFrom(base, TemporalClass)
    ensures Attempt(base, find, Tokens.Wrap(tag, payload) + tail) == Err(InvalidTypeId(tag, payload + [EndObject] + tail))
  {
    AttemptOfWrap(base, find, tag, payload, tail);
    TypeIds.TypeFromLiteral(Sigils.Time);
  }

  /** The retry resolves to `TemporalAmount`; when the requested class
      accepts it, the retry yields what the reader `find` supplies for
      `TemporalAmount` reads, once the object closes. */
  lemma RetryReads(base: JavaClass, find: JavaClass -> Lists.Reader, rest: seq<Token>, v: Value, tail: seq<Token>)
    requires IsAssignableFrom(base, TemporalAmountClass)
    requires find(TemporalAmountClass)(rest) == Ok((v, [EndObject] + tail))
    ensures Attempt(base, find, RetryStream(rest)) == Ok((v, tail))
  {
    AttemptOfRetry(base, find, rest);
    TypeIds.TypeFromLiteral(Sigils.TemporalAmount);
  }

  /** The retry resolves to `TemporalAmount`, and neither module registers
      a deserializer for that class: what the retry reads is whatever reader
      `find` supplies for it. */
  lemma RetryTargetUnregistered(mode: Registry.Mode)
    ensures TypeIds.TypeFromId(Sigils.Literal(Sigils.TemporalAmount)) == Ok(TemporalAmountClass)
    ensures Registry.DeserializerFor(mode, TemporalAmountClass).None?
  {
    TypeIds.TypeFromLiteral(Sigils.TemporalAmount);
  }

  /** The reader found for the resolved class is handed the stream from the
      payload on. A Jolt standard deserializer expects its own wrapper object
      there and refuses a bare string payload, so when `find` supplies one
      for `TemporalAmount` the retry of a string payload fails. */
  lemma RetryRefusedByStdReader(base: JavaClass, find: JavaClass -> Lists.Reader, own: Sigils.Sigil, stringsOnly: bool,
                                step: StdDeser.Step<Value>, text: string, tail: seq<Token>)
    requires IsAssignableFrom(base, TemporalAmountClass)
    requires find(TemporalAmountClass)([Str(text), EndObject] + tail)
          == StdDeser.Deserialize(own, stringsOnly, step, [Str(text), EndObject] + tail)
    ensures Attempt(base, find, RetryStream([Str(text), EndObject] + tail)) == Err(NotCompatibleWithJolt)
  {
    var rest := [Str(text), EndObject] + tail;
    assert |rest| > 0 && !Tokens.IsStructStart(rest[0]);
    AttemptOfRetry(base, find, rest);
    TypeIds.TypeFromLiteral(Sigils.TemporalAmount);
  }

  /** When the requested plain class does not accept `TemporalAmount`
      either, the retry is rejected in turn, under the temporal-amount tag. */
  lemma RetryRejected(base: JavaClass, find: JavaClass -> Lists.Reader, rest: seq<Token>)
    requires KindOf(base) == SimpleKind && !IsAssignableFrom(base, TemporalAmountClass)
    ensures Attempt(base, find, RetryStream(rest)) == Err(InvalidTypeId(Sigils.Literal(Sigils.TemporalAmount), rest))
  {
    AttemptOfRetry(base, find, rest);
    TypeIds.TypeFromLiteral(Sigils.TemporalAmount);
  }

  /** A duration written under the temporal tag and read as a
      `TemporalAmount`: the tag resolves to `Temporal`, which is rejected, and
      the retry under the temporal-amount tag hands the payload to the
      reader `find` supplies for `TemporalAmount`. */
  lemma DurationUnderTimeRetried(find: JavaClass -> Lists.Reader, tag: string, payload: seq<Token>, v: Value, tail: seq<Token>)
    requires tag == Sigils.Literal(Sigils.Time)
    requires find(TemporalAmountClass)(payload + [EndObject] + tail) == Ok((v, [EndObject] + tail))
    ensures Attempt(TemporalAmountClass, find, Tokens.Wrap(tag, payload) + tail)
         == Err(InvalidTypeId(tag, payload + [EndObject] + tail))
    ensures WrapperDeserialize(TemporalAmountClass, find, Tokens.Wrap(tag, payload) + tail) == Ok((v, tail))
  {
    var rest := payload + [EndObject] + tail;
    TimeRejected(TemporalAmountClass, find, tag, payload, tail);
    RetryOnlyForTime(TemporalAmountClass, find, Tokens.Wrap(tag, payload) + tail, tag, rest);
    RetryReads(TemporalAmountClass, find, rest, v, tail);
  }

  /** A temporal value read as a concrete java.time class is rejected on the
      first attempt and again on the retry, whose temporal-amount class is
      no more acceptable: the retry's failure is the result. */
  lemma TemporalRetryFails(base: JavaClass, find: JavaClass -> Lists.Reader, tag: string, payload: seq<Token>, tail: seq<Token>)
    requires IsTemporalKind(base) && tag == Sigils.Literal(Sigils.Time)
    ensures WrapperDeserialize(base, find, Tokens.Wrap(tag, payload) + tail)
         == Err(InvalidTypeId(Sigils.Literal(Sigils.TemporalAmount), payload + [EndObject] + tail))
  {
    var rest := payload + [EndObject] + tail;
    TimeRejected(base, find, tag, payload, tail);
    RetryOnlyForTime(base, find, Tokens.Wrap(tag, payload) + tail, tag, rest);
    RetryRejected(base, find, rest);
  }

  /** A tag that is no sigil's literal fails with the resolver's own error,
      which is not an invalid type id and so is never retried. */
  lemma UnknownTagNotRetried(base: JavaClass, find: JavaClass -> Lists.Reader, tag: string, payload: seq<Token>, tail: seq<Token>)
    requires forall s :: Sigils.Literal(s) != tag
    ensures WrapperDeserialize(base, find, Tokens.Wrap(tag, payload) + tail) == Err(NoSuchSigil(tag))
  {
    AttemptOfWrap(base, find, tag, payload, tail);
    TypeIds.TypeFromIdFails(tag);
  }

  /** A list element tagged as a point is dispatched to the reader for
      `PointValue`, but the tag resolves to `Point`, which a `PointValue` is
      not assignable from: the element is rejected as an invalid type id,
      not retried, and the whole list fails. `readFor` is the wrapper
      deserializer for the class asked for. */
  lemma ListPointElementRejected(readFor: JavaClass -> Lists.Reader, find: JavaClass -> Lists.Reader, tag: string, body: seq<Token>, rest: seq<Token>)
    requires readFor(PointValueClass) == WrapperReader(PointValueClass, find)
    requires tag == Sigils.Literal(Sigils.Spatial)
    ensures Lists.HandleNestedJolt(readFor, Tokens.Wrap(tag, body) + rest)
         == Err(InvalidTypeId(tag, body + [EndObject] + rest))
  {
    PointElementDispatched(readFor, tag, body, rest);
    PointRejected(find, tag, body + [EndObject] + rest);
  }

  /** A list element under the point tag goes to the reader for
      `PointValue`, started at the tag. */
  lemma PointElementDispatched(readFor: JavaClass -> Lists.Reader, tag: string, body: seq<Token>, rest: seq<Token>)
    requires tag == Sigils.Literal(Sigils.Spatial)
    ensures Lists.HandleNestedJolt(readFor, Tokens.Wrap(tag, body) + rest)
         == readFor(PointValueClass)([FieldName(tag)] + (body + [EndObject] + rest))
  {
    StdDeser.LiteralUntrimmed(Sigils.Spatial);
    Lists.HandleNestedDispatch(readFor, Sigils.Spatial, tag, body, rest);
    assert [FieldName(tag)] + body + [EndObject] + rest == [FieldName(tag)] + (body + [EndObject] + rest);
  }

  /** The reader for `PointValue`, started at the point tag, rejects it. */
  lemma PointRejected(find: JavaClass -> Lists.Reader, tag: string, after: seq<Token>)
    requires tag == Sigils.Literal(Sigils.Spatial)
    ensures WrapperDeserialize(PointValueClass, find, [FieldName(tag)] + after) == Err(InvalidTypeId(tag, after))
  {
    var field := [FieldName(tag)] + after;
    assert TypeIdField(field) == Ok(field) && field[1..] == after;
    assert ReadTagged(PointValueClass, find, tag, after) == Err(InvalidTypeId(tag, after)) by {
      TypeIds.TypeFromLiteral(Sigils.Spatial);
    }
    Sigils.OfLiteralOfLiteral(Sigils.Spatial);
  }

  /** The type-id mechanisms a resolver builder can be initialised with. */
  datatype IdMechanism = IdNone | IdClass | IdMinimalClass | IdName | IdCustom

  /** Where the type id goes (`JsonTypeInfo.As`). */
  datatype Inclusion = Property | WrapperObject | WrapperArray | ExternalProperty | ExistingProperty

  datatype Builder = Builder(idType: IdMechanism, inclusion: Inclusion)

  /** An array type other than `byte[]`: its elements are typed one by one,
      the array itself is not. */
  predicate UntypedArray(c: JavaClass) {
    IsArray(c) && c != ByteArrayClass
  }

  /** The overridden `buildTypeSerializer`: no type serializer for an array
      other than `byte[]`; every other type is handed to the inherited
      builder (`true`). */
  function BuildTypeSerializer(base: JavaClass): (delegated: bool)
    ensures delegated <==> !IsArray(base) || base == ByteArrayClass
  {
    !UntypedArray(base)
  }

  /** The wrapper type deserializer built for a requested class. */
  datatype TypeDeserializer = JoltWrapper(base: JavaClass)

  /** The overridden `buildTypeDeserializer`: nothing for an array other
      than `byte[]`, a primitive or a builder without type ids; for any other
      type the wrapper-object deserializer, the only inclusion supported. */
  function BuildTypeDeserializer(b: Builder, base: JavaClass): (r: Result<Option<TypeDeserializer>>)
    ensures r.Err? <==> b.inclusion != WrapperObject && !UntypedArray(base) && !IsPrimitive(base) && b.idType != IdNone
    ensures r.Err? ==> r.error == UnsupportedInclusion
    ensures r.Ok? && r.value.Some? ==> r.value.value.base == base
  {
    if UntypedArray(base) || IsPrimitive(base) || b.idType == IdNone then Ok(None)
    else if b.inclusion == WrapperObject then Ok(Some(JoltWrapper(base)))
    else Err(UnsupportedInclusion)
  }

  /** The reader a built type deserializer stands for. */
  function ReaderOf(d: TypeDeserializer, find: JavaClass -> Lists.Reader): (reader: Lists.Reader)
    ensures forall t :: reader(t) == WrapperDeserialize(d.base, find, t)
  {
    WrapperReader(d.base, find)
  }

  /** The codec: the module registered for its mode and the resolver
      builder it installs as default typing. */
  datatype JoltCodec = JoltCodec(mode: Registry.Mode, builder: Builder)

  /** `JoltCodec(strictModeEnabled)`: custom type ids from the Jolt
      resolver, always in a wrapper object. */
  function NewCodec(strictModeEnabled: bool): (c: JoltCodec)
    ensures c.mode.Strict? <==> strictModeEnabled
    ensures c.builder.idType == IdCustom && c.builder.inclusion == WrapperObject
  {
    JoltCodec(if strictModeEnabled then Registry.Strict else Registry.Default, Builder(IdCustom, WrapperObject))
  }

  /** `JoltCodec()`: strict mode off. */
  function DefaultCodec(): (c: JoltCodec)
    ensures c.mode == Registry.Default
    ensures c.builder == Builder(IdCustom, WrapperObject)
  {
    NewCodec(false)
  }

  /** The codec's own builder never fails: it builds the wrapper
      deserializer exactly for the types that are neither primitive nor an
      array other than `byte[]`. */
  lemma CodecBuildsWrappers(strictModeEnabled: bool, base: JavaClass)
    ensures BuildTypeDeserializer(NewCodec(strictModeEnabled).builder, base).Ok?
    ensures BuildTypeDeserializer(NewCodec(strictModeEnabled).builder, base).value.Some?
        <==> !UntypedArray(base) && !IsPrimitive(base)
  {
  }

  /** Writing and reading agree on which non-primitive types carry a tag:
      the codec builds a type serializer for such a type exactly when it
      builds a type deserializer for it. */
  lemma TypedBothWays(strictModeEnabled: bool, base: JavaClass)
    requires !IsPrimitive(base)
    ensures BuildTypeSerializer(base) <==> BuildTypeDeserializer(NewCodec(strictModeEnabled).builder, base) == Ok(Some(JoltWrapper(base)))
  {
  }

  /** The exclusions come first: an excluded type gets no type deserializer
      whatever the inclusion, and only a type that passes them can hit the
      unsupported-inclusion error. */
  lemma ExclusionsBeforeInclusion(b: Builder, base: JavaClass)
    requires UntypedArray(base) || IsPrimitive(base) || b.idType == IdNone
    ensures BuildTypeDeserializer(b, base) == Ok(None)
  {
  }
}

=== FILE: entities.dfy ===
/** The graph-entity serializers: maps under `{}`, nodes under `()`,
    relationships as a positional array, and paths under `..` with their
    relationships turned to follow the path.

    `generator.writeObject` is the parameter `write`: what the codec writes
    for a nested value, type wrapper included.
 */
module Entities {
  import opened Results
  import opened Json
  import opened Tokens
  import opened Graph

  /** `JoltMapSerializer.serialize`: the map tag, then an object with one
      member per entry, in iteration order, each key followed by what
      `writeObject` writes for its value. */
  function MapSerialize(entries: seq<(string, Value)>, write: Value -> seq<Token>): (r: seq<Token>)
    ensures |r| >= 5 && r[..3] == [StartObject, FieldName("{}"), StartObject]
    ensures r[|r| - 2..] == [EndObject, EndObject]
  {
    [StartObject, FieldName("{}"), StartObject] + WriteEntries(entries, write) + [EndObject, EndObject]
  }

  /** The written map is one JSON value whose inner object splits back into
      the same keys, in the same order, each with what `writeObject` wrote for
      its value. */
  lemma MapSerializeSplits(entries: seq<(string, Value)>, write: Value -> seq<Token>)
    requires AllSingleEntries(entries, write)
    ensures SingleValue(MapSerialize(entries, write))
    ensures SplitMembers(MapSerialize(entries, write)[3..]) == Some((WrittenEntries(entries, write), [EndObject]))
  {
    var w := WriteEntries(entries, write);
    assert MapSerialize(entries, write) == Wrap("{}", [StartObject] + w + [EndObject]);
    WriteEntriesIsLevel(entries, write);
    Bracketed(StartObject, w, EndObject);
    WrapIsSingle("{}", [StartObject] + w + [EndObject]);
    assert MapSerialize(entries, write)[3..] == w + [EndObject] + [EndObject];
    SplitMembersOfWriteEntries(entries, write, [EndObject]);
  }

  /** The empty map is written `{"{}":{}}`. */
  lemma EmptyMapSerialize(write: Value -> seq<Token>)
    ensures MapSerialize([], write) == [StartObject, FieldName("{}"), StartObject, EndObject, EndObject]
  {
  }

  /** `Optional.ofNullable(properties).orElseGet(emptyMap)`. */
  function PropertiesOrEmpty(p: Option<seq<(string, Value)>>): (r: seq<(string, Value)>)
    ensures p.None? ==> r == []
    ensures p.Some? ==> r == p.value
  {
    match p
    case None => []
    case Some(m) => m
  }

  /** The node's labels as the value `writeObject` is given. */
  function LabelsValue(labels: seq<string>): (r: Value)
    ensures r.ListValue? && |r.items| == |labels|
    ensures forall i :: 0 <= i < |labels| ==> r.items[i] == LabelValue(labels[i])
  {
    ListValue(seq(|labels|, i requires 0 <= i < |labels| => LabelValue(labels[i])))
  }

  /** `JoltNodeSerializer.serialize`: the node tag, then an object with the
      members `id`, `labels` and `properties`, each written by `writeObject`;
      null properties are written as the empty map. */
  function NodeSerialize(node: Node, write: Value -> seq<Token>): (r: seq<Token>)
    ensures |r| >= 8 && r[..4] == [StartObject, FieldName("()"), StartObject, FieldName("id")]
  {
    [StartObject, FieldName("()"), StartObject, FieldName("id")] + write(LongValue(node.id))
      + [FieldName("labels")] + write(LabelsValue(node.labels))
      + [FieldName("properties")] + write(MapValue(PropertiesOrEmpty(node.properties)))
      + [EndObject, EndObject]
  }

  /** The three members of a node, in the order they are written. */
  function NodeFields(node: Node): (r: seq<(string, Value)>)
    ensures |r| == 3 && r[0].0 == "id" && r[1].0 == "labels" && r[2].0 == "properties"
  {
    [("id", LongValue(node.id)), ("labels", LabelsValue(node.labels)),
     ("properties", MapValue(PropertiesOrEmpty(node.properties)))]
  }

  /** The node's inner object is its three members written one after another. */
  lemma NodeSerializeIsEntries(node: Node, write: Value -> seq<Token>)
    ensures NodeSerialize(node, write) == Wrap("()", [StartObject] + WriteEntries(NodeFields(node), write) + [EndObject])
  {
    var f := NodeFields(node);
    var w2 := [FieldName("properties")] + write(f[2].1);
    var w1 := [FieldName("labels")] + write(f[1].1) + w2;
    assert WriteEntries(f[2..], write) == w2 by {
      assert f[2..][0] == f[2] && f[2..][1..] == [];
    }
    assert WriteEntries(f[1..], write) == w1 by {
      assert f[1..][0] == f[1] && f[1..][1..] == f[2..];
    }
    assert WriteEntries(f, write) == [FieldName("id")] + write(f[0].1) + w1;
  }

  /** The written node is one JSON value whose inner object splits back into
      exactly the members `id`, `labels` and `properties`, in that order,
      holding what `writeObject` wrote for the id, the labels and the
      properties (the empty map when the node has none). */
  lemma NodeSerializeSplits(node: Node, write: Value -> seq<Token>)
    requires AllSingleEntries(NodeFields(node), write)
    ensures SingleValue(NodeSerialize(node, write))
    ensures SplitMembers(NodeSerialize(node, write)[3..]) == Some((
      [("id", write(LongValue(node.id))),
       ("labels", write(LabelsValue(node.labels))),
       ("properties", write(MapValue(PropertiesOrEmpty(node.properties))))],
      [EndObject]))
  {
    var f := NodeFields(node);
    var w := WriteEntries(f, write);
    NodeSerializeIsEntries(node, write);
    WriteEntriesIsLevel(f, write);
    Bracketed(StartObject, w, EndObject);
    WrapIsSingle("()", [StartObject] + w + [EndObject]);
    assert NodeSerialize(node, write)[3..] == w + [EndObject] + [EndObject];
    SplitMembersOfWriteEntries(f, write, [EndObject]);
    var we := WrittenEntries(f, write);
    assert we == [("id", write(f[0].1)), ("labels", write(f[1].1)), ("properties", write(f[2].1))] by {
      assert we[0] == ("id", write(f[0].1)) && we[1] == ("labels", write(f[1].1));
      assert we[2] == ("properties", write(f[2].1));
    }
  }

  /** `JoltRelationshipSerializer.serialize`: an array of the id, the start
      node's id, the type's name, the end node's id (the ids as bare numbers,
      the name as a string) and an object of the properties, empty when there
      are none. The type wrapper around it comes from the type serializer. */
  function RelationshipSerialize(rel: Relationship, write: Value -> seq<Token>): (r: seq<Token>)
    ensures |r| >= 8 && r[0] == StartArray && r[|r| - 1] == EndArray
    ensures r[1] == Num(rel.id) && r[2] == Num(rel.startNodeId) && r[3] == Str(rel.typeName)
    ensures r[4] == Num(rel.endNodeId) && r[5] == StartObject
  {
    [StartArray, Num(rel.id), Num(rel.startNodeId), Str(rel.typeName), Num(rel.endNodeId), StartObject]
      + WriteEntries(PropertiesOrEmpty(rel.properties), write) + [EndObject, EndArray]
  }

  /** The five items of a written relationship, as token groups. */
  function RelationshipItems(rel: Relationship, write: Value -> seq<Token>): (g: seq<seq<Token>>)
    ensures |g| == 5
  {
    [[Num(rel.id)], [Num(rel.startNodeId)], [Str(rel.typeName)], [Num(rel.endNodeId)],
     [StartObject] + WriteEntries(PropertiesOrEmpty(rel.properties), write) + [EndObject]]
  }

  /** The written relationship is an array of its five items. */
  lemma RelationshipSerializeIsItems(rel: Relationship, write: Value -> seq<Token>)
    ensures RelationshipSerialize(rel, write) == [StartArray] + WriteAll(RelationshipItems(rel, write), Identity) + [EndArray]
  {
    var g := RelationshipItems(rel, write);
    WriteAllOfGroups(g);
  }

  /** The written relationship is one JSON array whose items split back into
      the id, start id, type name and end id, each one token, and the
      properties object. */
  lemma RelationshipSerializeSplits(rel: Relationship, write: Value -> seq<Token>)
    requires AllSingleEntries(PropertiesOrEmpty(rel.properties), write)
    ensures SingleValue(RelationshipSerialize(rel, write))
    ensures
      var props := [StartObject] + WriteEntries(PropertiesOrEmpty(rel.properties), write) + [EndObject];
      SplitItems(RelationshipSerialize(rel, write)[1..])
        == Some(([[Num(rel.id)], [Num(rel.startNodeId)], [Str(rel.typeName)], [Num(rel.endNodeId)], props], []))
  {
    var es := PropertiesOrEmpty(rel.properties);
    var w := WriteEntries(es, write);
    var groups := RelationshipItems(rel, write);
    var all := WriteAll(groups, Identity);
    assert AllSingle(groups, Identity) by {
      WriteEntriesIsLevel(es, write);
      Bracketed(StartObject, w, EndObject);
    }
    RelationshipSerializeIsItems(rel, write);
    assert SingleValue(RelationshipSerialize(rel, write)) by {
      WriteAllIsLevel(groups, Identity);
      Bracketed(StartArray, all, EndArray);
    }
    assert RelationshipSerialize(rel, write)[1..] == all + [EndArray] + [];
    SplitItemsOfWriteAll(groups, Identity, []);
    WrittenIdentity(groups);
  }

  /** The properties object of a written relationship splits back into the
      relationship's own properties, keys unchanged and in order. */
  lemma RelationshipPropertiesSplit(rel: Relationship, write: Value -> seq<Token>)
    requires AllSingleEntries(PropertiesOrEmpty(rel.properties), write)
    ensures SplitMembers(RelationshipSerialize(rel, write)[6..])
         == Some((WrittenEntries(PropertiesOrEmpty(rel.properties), write), [EndArray]))
  {
    var es := PropertiesOrEmpty(rel.properties);
    assert RelationshipSerialize(rel, write)[6..] == WriteEntries(es, write) + [EndObject] + [EndArray];
    SplitMembersOfWriteEntries(es, write, [EndArray]);
  }

  /** Token groups written as they are. */
  function Identity(g: seq<Token>): seq<Token>
  {
    g
  }

  /** Five token groups written one after another are their concatenation. */
  lemma WriteAllOfGroups(groups: seq<seq<Token>>)
    requires |groups| == 5
    ensures WriteAll(groups, Identity) == groups[0] + groups[1] + groups[2] + groups[3] + groups[4]
  {
    var g := groups;
    assert WriteAll(g[4..], Identity) == g[4] by {
      assert g[4..][0] == g[4] && g[4..][1..] == [];
    }
    assert WriteAll(g[3..], Identity) == g[3] + g[4] by {
      assert g[3..][0] == g[3] && g[3..][1..] == g[4..];
    }
    assert WriteAll(g[2..], Identity) == g[2] + (g[3] + g[4]) by {
      assert g[2..][0] == g[2] && g[2..][1..] == g[3..];
    }
    assert WriteAll(g[1..], Identity) == g[1] + (g[2] + (g[3] + g[4])) by {
      assert g[1..][0] == g[1] && g[1..][1..] == g[2..];
    }
    assert WriteAll(g, Identity) == g[0] + (g[1] + (g[2] + (g[3] + g[4])));
  }

  /** Token groups written as they are and kept apart are the groups. */
  lemma WrittenIdentity(groups: seq<seq<Token>>)
    ensures Written(groups, Identity) == groups
  {
    var w := Written(groups, Identity);
    forall i | 0 <= i < |groups| ensures w[i] == groups[i] {
    }
  }

  /** The element a path's loop writes for a path element, given the id of
      the node written last: a node as it is, a relationship as it is when
      it starts at that node and as a `JoltRelationship` turned around
      otherwise. */
  function EmitElement(e: PathElement, lastNodeId: int): (v: Value)
    ensures e.NodeElement? ==> v == NodeValue(e.node)
    ensures e.RelationshipElement? && e.rel.startNodeId == lastNodeId ==> v == RelationshipValue(e.rel)
    ensures e.RelationshipElement? && e.rel.startNodeId != lastNodeId ==> v == ReversedValue(FromRelationshipReversed(e.rel))
  {
    match e
    case NodeElement(n) => NodeValue(n)
    case RelationshipElement(r) =>
      if r.startNodeId != lastNodeId then ReversedValue(FromRelationshipReversed(r)) else RelationshipValue(r)
  }

  /** The loop of `JoltPathSerializer.serialize`: the values written for the
      path's elements, from `lastNodeId` on; every node written becomes the
      new `lastNodeId`. */
  function Normalise(elements: seq<PathElement>, lastNodeId: int): (r: seq<Value>)
    ensures |r| == |elements|
  {
    if |elements| == 0 then []
    else
      var next := if elements[0].NodeElement? then elements[0].node.id else lastNodeId;
      [EmitElement(elements[0], lastNodeId)] + Normalise(elements[1..], next)
  }

  /** `JoltPathSerializer.serialize`: the path tag, then an array of what
      `writeObject` writes for each normalised element. */
  function PathSerialize(elements: seq<PathElement>, write: Value -> seq<Token>): (r: seq<Token>)
    ensures r == Wrap("..", [StartArray] + WriteAll(Normalise(elements, 0), write) + [EndArray])
  {
    [StartObject, FieldName(".."), StartArray] + WriteAll(Normalise(elements, 0), write) + [EndArray, EndObject]
  }

  /** The id of the last node in `prefix`, or `init` when it has none: the
      value of `lastNodeId` after the loop has gone through `prefix`. */
  function LastNodeId(init: int, prefix: seq<PathElement>): int
    decreases |prefix|
  {
    if |prefix| == 0 then init
    else if prefix[|prefix| - 1].NodeElement? then prefix[|prefix| - 1].node.id
    else LastNodeId(init, prefix[..|prefix| - 1])
  }

  /** Going through one element first and then the rest gives the same last
      node as going through all of them. */
  lemma {:induction false} LastNodeIdCons(init: int, e: PathElement, p: seq<PathElement>)
    ensures LastNodeId(if e.NodeElement? then e.node.id else init, p) == LastNodeId(init, [e] + p)
    decreases |p|
  {
    var q := [e] + p;
    if |p| == 0 {
      assert q == [e];
      assert q[..0] == [];
    } else {
      assert q[|q| - 1] == p[|p| - 1];
      assert q[..|q| - 1] == [e] + p[..|p| - 1];
      LastNodeIdCons(init, e, p[..|p| - 1]);
    }
  }

  /** Each written element is determined by its path element and the last
      node before it, so the loop's state is exactly "the id of the last node
      so far". */
  lemma {:induction false} NormaliseAt(elements: seq<PathElement>, init: int, i: nat)
    requires i < |elements|
    ensures Normalise(elements, init)[i] == EmitElement(elements[i], LastNodeId(init, elements[..i]))
    decreases i
  {
    if i == 0 {
      assert elements[..0] == [];
    } else {
      var e := elements[0];
      var next := if e.NodeElement? then e.node.id else init;
      NormaliseAt(elements[1..], next, i - 1);
      assert elements[1..][i - 1] == elements[i];
      LastNodeIdCons(init, e, elements[1..][..i - 1]);
      assert [e] + elements[1..][..i - 1] == elements[..i];
    }
  }

  /** Nodes are written unchanged; a relationship is written reversed exactly
      when its start is not the last node written before it, and keeps its id,
      type and properties either way. */
  lemma NormaliseElement(elements: seq<PathElement>, i: nat)
    requires i < |elements|
    ensures elements[i].NodeElement? ==> Normalise(elements, 0)[i] == NodeValue(elements[i].node)
    ensures elements[i].RelationshipElement? ==>
      && (Normalise(elements, 0)[i].RelationshipValue? || Normalise(elements, 0)[i].ReversedValue?)
      && (Normalise(elements, 0)[i].ReversedValue? <==> elements[i].rel.startNodeId != LastNodeId(0, elements[..i]))
      && Normalise(elements, 0)[i].rel.id == elements[i].rel.id
      && Normalise(elements, 0)[i].rel.typeName == elements[i].rel.typeName
      && Normalise(elements, 0)[i].rel.properties == elements[i].rel.properties
  {
    NormaliseAt(elements, 0, i);
  }

  /** A relationship joins two nodes, in one direction or the other. */
  predicate Joins(r: Relationship, a: Node, b: Node) {
    || (r.startNodeId == a.id && r.endNodeId == b.id)
    || (r.startNodeId == b.id && r.endNodeId == a.id)
  }

  /** A path as the database hands it out: node, relationship, node, …,
      node, each relationship joining its two neighbours. */
  predicate WellFormedPath(elements: seq<PathElement>) {
    && |elements| % 2 == 1
    && (forall i :: 0 <= i < |elements| ==> (elements[i].NodeElement? <==> i % 2 == 0))
    && (forall i :: 0 < i < |elements| - 1 && i % 2 == 1 ==>
          elements[i].RelationshipElement? && elements[i - 1].NodeElement? && elements[i + 1].NodeElement?
          && Joins(elements[i].rel, elements[i - 1].node, elements[i + 1].node))
  }

  /** The chain invariant: in a well-formed path, every relationship is
      written pointing from the node before it to the node after it, so the
      written path flows from its first node to its last. */
  lemma PathChain(elements: seq<PathElement>, i: nat)
    requires WellFormedPath(elements) && i < |elements| && i % 2 == 1
    ensures i + 1 < |elements| && elements[i - 1].NodeElement? && elements[i + 1].NodeElement?
    ensures Normalise(elements, 0)[i].RelationshipValue? || Normalise(elements, 0)[i].ReversedValue?
    ensures Normalise(elements, 0)[i].rel.startNodeId == elements[i - 1].node.id
    ensures Normalise(elements, 0)[i].rel.endNodeId == elements[i + 1].node.id
  {
    NormaliseAt(elements, 0, i);
    assert elements[..i][i - 1] == elements[i - 1];
  }

  /** The written path is one JSON value whose array splits back into one
      token group per path element, each what `writeObject` wrote for the
      normalised element, in path order. */
  lemma PathSerializeSplits(elements: seq<PathElement>, write: Value -> seq<Token>)
    requires AllSingle(Normalise(elements, 0), write)
    ensures SingleValue(PathSerialize(elements, write))
    ensures SplitItems(PathSerialize(elements, write)[3..]) == Some((Written(Normalise(elements, 0), write), [EndObject]))
    ensures |Written(Normalise(elements, 0), write)| == |elements|
  {
    var vs := Normalise(elements, 0);
    var w := WriteAll(vs, write);
    WriteAllIsLevel(vs, write);
    Bracketed(StartArray, w, EndArray);
    WrapIsSingle("..", [StartArray] + w + [EndArray]);
    assert PathSerialize(elements, write)[3..] == w + [EndArray] + [EndObject];
    SplitItemsOfWriteAll(vs, write, [EndObject]);
  }
}

=== FILE: graph.dfy ===
/** The values the codec writes and reads: Java scalars, collections, temporal
    values, points and the graph entities Node, Relationship and Path, as one
    immutable value tree.

    Text the JDK formats or parses by rules outside this model is kept as an
    opaque string: a Double's decimal text, a temporal's or a duration's
    ISO-8601 text, a point's coordinates.
 */
module Graph {
  import opened Results
  import opened Numerals
  import opened JavaTypes

  datatype TemporalKind = LocalDate | OffsetTime | LocalTime | ZonedDateTime | LocalDateTime

  /** A point: the coordinate reference system's code and the coordinates as
      the text `String.valueOf(double)` gives them. */
  datatype Point = Point(srid: Int32, coordinates: seq<string>)

  datatype Value =
    | NullValue
    | BoolValue(b: bool)
    | IntValue(i: Int32)
    | LongValue(l: Int64)
    | DoubleValue(literal: string)
    | StringValue(s: string)
    | BytesValue(bytes: seq<JByte>)
    | ListValue(items: seq<Value>)
      /** A `Map<String, ?>` in its iteration order. */
    | MapValue(entries: seq<(string, Value)>)
    | TemporalValue(kind: TemporalKind, text: string)
    | DurationValue(text: string)
    | PointValue(point: Point)
    | LabelValue(name: string)
    | NodeValue(node: Node)
    | RelationshipValue(rel: Relationship)
      /** A `JoltRelationship`: the view of a relationship built for a path. */
    | ReversedValue(rel: Relationship)
    | PathValue(elements: seq<PathElement>)

  /** A node; `properties` is `None` when `getAllProperties()` is null. */
  datatype Node = Node(id: Int64, labels: seq<string>, properties: Option<seq<(string, Value)>>)

  /** A relationship, or a `JoltRelationship` with the same five fields. */
  datatype Relationship = Relationship(
    id: Int64,
    startNodeId: Int64,
    endNodeId: Int64,
    typeName: string,
    properties: Option<seq<(string, Value)>>)

  /** What a path's iterator yields. */
  datatype PathElement = NodeElement(node: Node) | RelationshipElement(rel: Relationship)

  /** `JoltRelationship.fromRelationshipReversed`: start and end swapped, id,
      type and properties kept. */
  function FromRelationshipReversed(r: Relationship): (j: Relationship)
    ensures j.startNodeId == r.endNodeId && j.endNodeId == r.startNodeId
    ensures j.id == r.id && j.typeName == r.typeName && j.properties == r.properties
  {
    Relationship(r.id, r.endNodeId, r.startNodeId, r.typeName, r.properties)
  }

  /** Reversing a reversed relationship gives back the original. */
  lemma ReverseTwice(r: Relationship)
    ensures FromRelationshipReversed(FromRelationshipReversed(r)) == r
  {
  }

  /** `value.getClass()`; `None` for `null`. */
  function ClassOf(v: Value): (r: Option<JavaClass>)
    ensures r.None? <==> v.NullValue?
    ensures r == Some(DurationValueClass) <==> v.DurationValue?
    ensures r != Some(TemporalAmountClass) && r != Some(TemporalClass) && r != Some(ObjectClass)
  {
    match v
    case NullValue => None
    case BoolValue(_) => Some(BooleanClass)
    case IntValue(_) => Some(IntegerClass)
    case LongValue(_) => Some(LongClass)
    case DoubleValue(_) => Some(DoubleClass)
    case StringValue(_) => Some(StringClass)
    case BytesValue(_) => Some(ByteArrayClass)
    case ListValue(_) => Some(ListClass)
    case MapValue(_) => Some(MapClass)
    case TemporalValue(k, _) =>
      Some(match k
           case LocalDate => LocalDateClass
           case OffsetTime => OffsetTimeClass
           case LocalTime => LocalTimeClass
           case ZonedDateTime => ZonedDateTimeClass
           case LocalDateTime => LocalDateTimeClass)
    case DurationValue(_) => Some(DurationValueClass)
    case PointValue(_) => Some(PointValueClass)
    case LabelValue(_) => Some(LabelClass)
    case NodeValue(_) => Some(NodeClass)
    case RelationshipValue(_) => Some(RelationshipClass)
    case ReversedValue(_) => Some(JoltRelationshipClass)
    case PathValue(_) => Some(PathClass)
  }
}

=== FILE: hex.dfy ===
/** The binary sigil's payload: a byte array as upper-case hexadecimal text,
    two digits per byte, and the lenient way that text is read back.
 */
module Hex {
  import opened Results
  import opened Numerals

  /** `HEX_DIGITS`. */
  const HexDigits: string := "0123456789ABCDEF"

  /** The entry of `HEX_DIGITS` at position `n`, computed. */
  function HexChar(n: nat): (c: char)
    requires n < 16
    ensures c == HexDigits[n]
  {
    if n < 10 then ('0' as int + n) as char else ('A' as int + n - 10) as char
  }

  /** `(b >> 4) & 0xf`: the arithmetic shift floors, the mask keeps four bits. */
  function HighNibble(b: JByte): (n: nat)
    ensures n < 16
  {
    (b / 16) % 16
  }

  /** `b & 0xf`. */
  function LowNibble(b: JByte): (n: nat)
    ensures n < 16
  {
    b % 16
  }

  /** The two nibbles spell the byte's unsigned value. */
  lemma NibblesSpellUnsigned(b: JByte)
    ensures 16 * HighNibble(b) + LowNibble(b) == b % 256
  {
  }

  /** `toHexString`: two upper-case hex digits per byte, high nibble first
      (the digits themselves are stated by `ToHexStringAt`). */
  function ToHexString(bytes: seq<JByte>): (r: string)
    ensures |r| == 2 * |bytes|
  {
    if |bytes| == 0 then []
    else [HexChar(HighNibble(bytes[0])), HexChar(LowNibble(bytes[0]))] + ToHexString(bytes[1..])
  }

  /** The byte at position `i` is written at positions `2i` and `2i+1`. */
  lemma {:induction false} ToHexStringAt(bytes: seq<JByte>, i: nat)
    requires i < |bytes|
    ensures ToHexString(bytes)[2 * i] == HexChar(HighNibble(bytes[i]))
    ensures ToHexString(bytes)[2 * i + 1] == HexChar(LowNibble(bytes[i]))
  {
    if i > 0 {
      ToHexStringAt(bytes[1..], i - 1);
    }
  }

  /** A character `Character.digit(c, 16)` accepts (ASCII forms only). */
  predicate IsHexChar(c: char) {
    '0' <= c <= '9' || 'A' <= c <= 'F' || 'a' <= c <= 'f'
  }

  /** `Character.digit(c, 16)`: the digit's value, or -1 for any other
      character. */
  function Digit(c: char): (d: int)
    ensures -1 <= d < 16
    ensures d == -1 <==> !IsHexChar(c)
  {
    if '0' <= c <= '9' then c as int - '0' as int
    else if 'A' <= c <= 'F' then c as int - 'A' as int + 10
    else if 'a' <= c <= 'f' then c as int - 'a' as int + 10
    else -1
  }

  /** Each upper-case digit is read back as its own position. */
  lemma DigitOfHexChar(n: nat)
    requires n < 16
    ensures Digit(HexChar(n)) == n
  {
  }

  /** The `(byte)` cast: the low eight bits, as a signed value. */
  function ToByte(x: int): (b: JByte)
    ensures (b - x) % 256 == 0
  {
    (x + 128) % 256 - 128
  }

  /** `fromHexString`: each pair of characters becomes
      `(byte)((digit(first) << 4) + digit(second))`. A character that is no
      hex digit counts as -1 and is not rejected; an odd length fails when
      the last character is paired with the one past the end. Characters are
      Unicode scalar values, so this agrees with Java's UTF-16 `length()` and
      `charAt` only on text within the Basic Multilingual Plane. */
  function FromHexString(s: string): (r: Result<seq<JByte>>)
    ensures r.Err? <==> |s| % 2 == 1
    ensures r.Err? ==> r.error == StringIndexOutOfBounds
    ensures r.Ok? ==> |r.value| == |s| / 2
  {
    if |s| == 0 then Ok([])
    else if |s| == 1 then Err(StringIndexOutOfBounds)
    else
      var rest :- FromHexString(s[2..]);
      Ok([ToByte(16 * Digit(s[0]) + Digit(s[1]))] + rest)
  }

  /** The byte at position `k` comes from the characters at `2k` and `2k+1`. */
  lemma {:induction false} FromHexStringAt(s: string, k: nat)
    requires |s| % 2 == 0 && k < |s| / 2
    ensures FromHexString(s).value[k] == ToByte(16 * Digit(s[2 * k]) + Digit(s[2 * k + 1]))
  {
    if k > 0 {
      FromHexStringAt(s[2..], k - 1);
    }
  }

  /** The cast undoes the unsigned reading of a byte. */
  lemma ToByteOfUnsigned(b: JByte)
    ensures ToByte(b % 256) == b
  {
  }

  /** A byte's two written digits are read back as that byte. */
  lemma DigitPairRoundTrip(b: JByte)
    ensures ToByte(16 * Digit(HexChar(HighNibble(b))) + Digit(HexChar(LowNibble(b)))) == b
  {
    DigitOfHexChar(HighNibble(b));
    DigitOfHexChar(LowNibble(b));
    NibblesSpellUnsigned(b);
    ToByteOfUnsigned(b);
  }

  /** The nibbles of the byte cast from two digit values are those values. */
  lemma NibblesOfDigitPair(hi: nat, lo: nat)
    requires hi < 16 && lo < 16
    ensures HighNibble(ToByte(16 * hi + lo)) == hi
    ensures LowNibble(ToByte(16 * hi + lo)) == lo
  {
    var b := ToByte(16 * hi + lo);
    assert b == 16 * hi + lo || b == 16 * hi + lo - 256;
  }

  /** Reading back what `toHexString` wrote gives the same bytes. */
  lemma {:induction false} FromHexOfToHex(bytes: seq<JByte>)
    ensures FromHexString(ToHexString(bytes)) == Ok(bytes)
  {
    var s := ToHexString(bytes);
    var r := FromHexString(s);
    assert |s| / 2 == |bytes|;
    forall i | 0 <= i < |bytes| ensures r.value[i] == bytes[i] {
      ToHexStringAt(bytes, i);
      FromHexStringAt(s, i);
      DigitPairRoundTrip(bytes[i]);
    }
    assert r.value == bytes;
  }

  /** ASCII upper case, applied to the letters a to f that `fromHexString`
      accepts in either case. */
  function Upper(c: char): char {
    if 'a' <= c <= 'f' then (c as int - 32) as char else c
  }

  /** Writing back what `fromHexString` read from well-formed text gives the
      same text, upper-cased. */
  lemma {:induction false} ToHexOfFromHex(s: string)
    requires |s| % 2 == 0
    requires forall i :: 0 <= i < |s| ==> IsHexChar(s[i])
    ensures FromHexString(s).Ok?
    ensures |ToHexString(FromHexString(s).value)| == |s|
    ensures forall i :: 0 <= i < |s| ==> ToHexString(FromHexString(s).value)[i] == Upper(s[i])
  {
    var bytes := FromHexString(s).value;
    forall i | 0 <= i < |s| ensures ToHexString(bytes)[i] == Upper(s[i]) {
      var k := i / 2;
      assert i == 2 * k || i == 2 * k + 1;
      ToHexOfFromHexAt(s, k);
    }
  }

  /** `Character.digit` followed by `HEX_DIGITS` upper-cases a hex digit. */
  lemma HexCharOfDigit(c: char)
    requires IsHexChar(c)
    ensures HexChar(Digit(c)) == Upper(c)
  {
  }

  /** The byte read from a pair of hex digits has those digits as nibbles. */
  lemma NibblesOfPair(s: string, k: nat)
    requires |s| % 2 == 0 && k < |s| / 2
    requires IsHexChar(s[2 * k]) && IsHexChar(s[2 * k + 1])
    ensures FromHexString(s).Ok? && k < |FromHexString(s).value|
    ensures HighNibble(FromHexString(s).value[k]) == Digit(s[2 * k])
    ensures LowNibble(FromHexString(s).value[k]) == Digit(s[2 * k + 1])
  {
    var hi, lo := Digit(s[2 * k]), Digit(s[2 * k + 1]);
    assert FromHexString(s).value[k] == ToByte(16 * hi + lo) by {
      FromHexStringAt(s, k);
    }
    NibblesOfDigitPair(hi, lo);
  }

  /** One pair of `ToHexOfFromHex`. */
  lemma ToHexOfFromHexAt(s: string, k: nat)
    requires |s| % 2 == 0 && k < |s| / 2
    requires IsHexChar(s[2 * k]) && IsHexChar(s[2 * k + 1])
    ensures ToHexString(FromHexString(s).value)[2 * k] == Upper(s[2 * k])
    ensures ToHexString(FromHexString(s).value)[2 * k + 1] == Upper(s[2 * k + 1])
  {
    var bytes := FromHexString(s).value;
    NibblesOfPair(s, k);
    ToHexStringAt(bytes, k);
    HexCharOfDigit(s[2 * k]);
    HexCharOfDigit(s[2 * k + 1]);
  }

  /** Characters outside the hex alphabet are read as -1 rather than
      rejected: "G0" decodes to the byte -16. */
  lemma NonHexDigitsAccepted()
    ensures FromHexString("G0") == Ok([-16])
  {
    var r := FromHexString("G0");
    FromHexStringAt("G0", 0);
    assert Digit('G') == -1 && Digit('0') == 0;
    assert |r.value| == 1 && r.value[0] == ToByte(-16) == -16;
    assert r.value == [-16];
  }

  /** A single byte ten is written "0A"; the negative bytes -1 and -128 are
      written by their unsigned values, "FF" and "80". */
  lemma HexExamples()
    ensures ToHexString([10]) == "0A"
    ensures ToHexString([-1, -128]) == "FF80"
  {
  }

  /** Writing is byte by byte: the text of a concatenation is the
      concatenation of the texts. */
  lemma {:induction false} ToHexStringAppend(a: seq<JByte>, b: seq<JByte>)
    ensures ToHexString(a + b) == ToHexString(a) + ToHexString(b)
  {
    if |a| > 0 {
      assert (a + b)[1..] == a[1..] + b;
      ToHexStringAppend(a[1..], b);
    } else {
      assert a + b == b;
    }
  }

}

=== FILE: javatext.dfy ===
/** The JDK string operations the codec relies on, written out exactly:
    `String.trim`, `String.isBlank` (via `Character.isWhitespace`), the
    regular-expression classes `\s` and `\d`, and the boolean conversions
    `String.valueOf(boolean)` / `Boolean.parseBoolean`.
 */
module JavaText {

  /** `String.trim` strips every character whose code is at most U+0020. */
  predicate IsTrimmable(c: char) {
    c as int <= 0x20
  }

  /** `Character.isWhitespace`: the ASCII controls TAB..CR and FS..US, and the
      Unicode space, line and paragraph separators except the no-break spaces
      U+00A0, U+2007 and U+202F. */
  predicate IsWhitespace(c: char) {
    var k := c as int;
    || 0x09 <= k <= 0x0D
    || 0x1C <= k <= 0x20
    || k == 0x1680
    || 0x2000 <= k <= 0x2006
    || 0x2008 <= k <= 0x200A
    || k == 0x2028 || k == 0x2029 || k == 0x205F || k == 0x3000
  }

  /** `String.isBlank`: every character is whitespace (so the empty string is blank). */
  predicate IsBlank(s: string) {
    forall i :: 0 <= i < |s| ==> IsWhitespace(s[i])
  }

  /** The regular-expression class `\s` of `java.util.regex` (no Unicode flag). */
  predicate IsRegexSpace(c: char) {
    c == ' ' || '\t' <= c <= '\r'
  }

  /** The regular-expression class `\d` of `java.util.regex` (no Unicode flag). */
  predicate IsDigit(c: char) {
    '0' <= c <= '9'
  }

  /** Number of leading characters `trim` removes. */
  function LeadingTrimmable(s: string): (n: nat)
    ensures n <= |s|
    ensures forall k :: 0 <= k < n ==> IsTrimmable(s[k])
    ensures n == |s| || !IsTrimmable(s[n])
  {
    if |s| == 0 || !IsTrimmable(s[0]) then 0 else 1 + LeadingTrimmable(s[1..])
  }

  /** Number of trailing characters `trim` removes. */
  function TrailingTrimmable(s: string): (n: nat)
    ensures n <= |s|
    ensures forall k :: |s| - n <= k < |s| ==> IsTrimmable(s[k])
    ensures n == |s| || !IsTrimmable(s[|s| - n - 1])
  {
    if |s| == 0 || !IsTrimmable(s[|s| - 1]) then 0 else 1 + TrailingTrimmable(s[..|s| - 1])
  }

  /** `r` sits at index `i` of `s` with only trimmable characters around it. */
  predicate TrimmedAt(s: string, i: int, r: string) {
    && 0 <= i <= |s| - |r| && s[i..i + |r|] == r
    && (forall k :: 0 <= k < i ==> IsTrimmable(s[k]))
    && (forall k :: i + |r| <= k < |s| ==> IsTrimmable(s[k]))
  }

  /** `String.trim`: the longest infix of `s` that neither starts nor ends
      with a trimmable character, everything around it being trimmable. */
  function Trim(s: string): (r: string)
    ensures |r| <= |s|
    ensures r == [] || (!IsTrimmable(r[0]) && !IsTrimmable(r[|r| - 1]))
    ensures exists i :: TrimmedAt(s, i, r)
  {
    var a := LeadingTrimmable(s);
    var t := s[a..];
    var b := TrailingTrimmable(t);
    var r := t[..|t| - b];
    assert s[a..a + |r|] == r;
    assert TrimmedAt(s, a, r);
    r
  }

  /** A string that neither starts nor ends with a trimmable character is
      returned unchanged by `trim`. */
  lemma TrimUntrimmed(s: string)
    requires s == [] || (!IsTrimmable(s[0]) && !IsTrimmable(s[|s| - 1]))
    ensures Trim(s) == s
  {
    if s != [] {
      assert LeadingTrimmable(s) == 0;
      assert s[0..] == s;
      assert TrailingTrimmable(s) == 0;
    }
  }

  /** `String.valueOf(boolean)`; `Boolean.parseBoolean` reads it back. */
  function BooleanToString(b: bool): (r: string)
    ensures ParseBoolean(r) == b
    ensures |r| == 4 || |r| == 5
  {
    if b then "true" else "false"
  }

  /** ASCII case folding, exact for the letters of "true": no other character
      folds to one of them under `String.equalsIgnoreCase`. */
  function AsciiLower(c: char): char {
    if 'A' <= c <= 'Z' then (c as int + 32) as char else c
  }

  /** `Boolean.parseBoolean` (and `Boolean.valueOf(String)`): true exactly for
      "true" in any letter case; never fails. */
  function ParseBoolean(s: string): (r: bool)
    ensures r <==> |s| == 4 && forall i :: 0 <= i < 4 ==> AsciiLower(s[i]) == "true"[i]
  {
    |s| == 4 && AsciiLower(s[0]) == 't' && AsciiLower(s[1]) == 'r'
              && AsciiLower(s[2]) == 'u' && AsciiLower(s[3]) == 'e'
  }
}

=== FILE: javatypes.dfy ===
/** A closed set of the Java classes the codec deals with, and the
    `Class.isAssignableFrom` relation among them, in place of reflection.
 */
module JavaTypes {

  datatype JavaClass =
    | ObjectClass
    | NumberClass | IntegerClass | LongClass | DoubleClass | ShortClass
    | StringClass | BooleanClass | VoidClass
    | ByteArrayClass | StringArrayClass | NumberArrayClass | IntegerArrayClass | LongArrayClass
    | ListClass | MapClass
    | TemporalClass
    | LocalDateClass | OffsetTimeClass | LocalTimeClass | ZonedDateTimeClass | LocalDateTimeClass
    | TemporalAmountClass | DurationValueClass
    | PointClass | PointValueClass
    | NodeClass | RelationshipClass | JoltRelationshipClass | PathClass
    | LabelClass | RelationshipTypeClass
    | IntPrimitive | LongPrimitive | BooleanPrimitive | DoublePrimitive

  /** `Class.isPrimitive`. */
  predicate IsPrimitive(c: JavaClass) {
    c.IntPrimitive? || c.LongPrimitive? || c.BooleanPrimitive? || c.DoublePrimitive?
  }

  /** `JavaType.isArrayType`. */
  predicate IsArray(c: JavaClass) {
    c.ByteArrayClass? || c.StringArrayClass? || c.NumberArrayClass? || c.IntegerArrayClass? || c.LongArrayClass?
  }

  predicate IsTemporalKind(c: JavaClass) {
    c.LocalDateClass? || c.OffsetTimeClass? || c.LocalTimeClass? || c.ZonedDateTimeClass? || c.LocalDateTimeClass?
  }

  /** The boxed numbers, subclasses of `Number`. */
  predicate IsBoxedNumber(c: JavaClass) {
    c.IntegerClass? || c.LongClass? || c.DoubleClass? || c.ShortClass?
  }

  /** `sup.isAssignableFrom(sub)`: a class is assignable to itself; every
      reference type to `Object`; boxed numbers to `Number`; the java.time
      classes to `Temporal`; Neo4j's duration value to `TemporalAmount`; its
      point value to `Point`. Primitive types are assignable to nothing but
      themselves. */
  predicate IsAssignableFrom(sup: JavaClass, sub: JavaClass) {
    || sup == sub
    || (sup.ObjectClass? && !IsPrimitive(sub))
    || (sup.NumberClass? && IsBoxedNumber(sub))
    || (sup.TemporalClass? && IsTemporalKind(sub))
    || (sup.TemporalAmountClass? && sub.DurationValueClass?)
    || (sup.PointClass? && sub.PointValueClass?)
  }
}

=== FILE: json.dfy ===
/** The JSON tokens of Jackson's streaming API that the codec writes and
    reads. Numbers are integral: fractional numerals never reach the token
    stream in this model, they travel as strings.
 */
module Json {

  datatype Token =
    | StartObject
    | EndObject
    | StartArray
    | EndArray
    | FieldName(name: string)
    | Str(text: string)
    | Num(number: int)
}

=== FILE: lists.dfy ===
/** `JoltListDeserializer`: its own `serialize` writes a list as a wrapper
    object under the list tag holding an array of its elements, each written
    by the nested serializer (the module registers `JoltListSerializer` as
    the list writer instead, and calls no `serialize` of this class); a list
    is read back element by element, each element being a tagged struct
    whose tag picks the type the nested reader is asked for.

    `ctxt.readValue` is the parameter `readFor`: for each target class, a
    reader started at the element's tag (the parser stands on the field name
    after `getSigilFromStruct`), returning the element and the tokens after
    the last one it consumed.
 */
module Lists {
  import opened Results
  import opened JavaText
  import opened JavaTypes
  import opened Json
  import opened Tokens
  import opened Graph
  import opened Sigils
  import StdDeser

  /** A nested reader never gives back more tokens than it was handed, so
      the element loop always moves forward; nor does a type-id failure it
      reports stand beyond them. */
  ghost predicate Progresses(f: StdDeser.Step<Value>) {
    forall t ::
      && (f(t).Ok? ==> |f(t).value.1| <= |t|)
      && (f(t).Err? && f(t).error.InvalidTypeId? ==> |f(t).error.rest| <= |t|)
  }

  type Reader = f: StdDeser.Step<Value> | Progresses(f) witness (t: seq<Token>) => Err(NullPointer)

  /** The deserializer's own `serialize`, which nothing in the module calls:
      the list tag, then an array of the elements as `writeObject` writes
      them. */
  function ListSerialize(items: seq<Value>, write: Value -> seq<Token>): (r: seq<Token>)
    ensures r == Wrap(Literal(List), [StartArray] + WriteAll(items, write) + [EndArray])
  {
    [StartObject, FieldName("[]"), StartArray] + WriteAll(items, write) + [EndArray, EndObject]
  }

  /** The class `handleNestedJolt` asks `readValue` for, for each sigil it
      dispatches; any other sigil is refused. */
  function ElementTarget(s: Sigil): (r: Result<JavaClass>)
    ensures r.Err? <==> s in {Map, TemporalAmount, Sigil.Node, Sigil.Relationship, RelationshipReversed, Path, Null}
    ensures r.Err? ==> r.error == UnsupportedListElement(Literal(s))
  {
    match s
    case Time => Ok(TemporalClass)
    case Integer => Ok(NumberClass)
    case Real => Ok(NumberClass)
    case Boolean => Ok(BooleanClass)
    case List => Ok(ListClass)
    case Spatial => Ok(PointValueClass)
    case Binary => Ok(ByteArrayClass)
    case Unicode => Ok(StringClass)
    case _ => Err(UnsupportedListElement(Literal(s)))
  }

  /** `handleNestedJolt`, with the element's struct start as the current
      token: the element's sigil, then the nested reader for its target
      class, started at the tag. */
  function HandleNestedJolt(readFor: JavaClass -> Reader, toks: seq<Token>): (r: Result<(Value, seq<Token>)>)
    requires |toks| > 0 && IsStructStart(toks[0])
    ensures r.Ok? ==> |r.value.1| < |toks|
  {
    var sigil :- StdDeser.SigilFromStruct(toks);
    var target :- ElementTarget(sigil);
    readFor(target)(toks[1..])
  }

  /** The loop of `deserializeImpl`, from the token after the array start or
      after the previous element: elements until the array's end, each one a
      struct; a missing token is the `NullPointerException` of
      `t.isStructStart()` on a null token. */
  function ReadElements(readFor: JavaClass -> Reader, toks: seq<Token>): (r: Result<(seq<Value>, seq<Token>)>)
    ensures r.Ok? ==> |r.value.1| < |toks|
    decreases |toks|
  {
    if |toks| == 0 then Err(NullPointer)
    else if toks[0] == EndArray then Ok(([], toks[1..]))
    else if IsStructStart(toks[0]) then
      var (v, rest) :- HandleNestedJolt(readFor, toks);
      var (vs, after) :- ReadElements(readFor, rest);
      Ok(([v] + vs, after))
    else Err(NotYetDone)
  }

  /** `JoltListDeserializer.deserializeImpl`, with the payload as the current
      token: it must start an array, whose elements are then read. */
  function ListImpl(readFor: JavaClass -> Reader, payload: seq<Token>): (r: Result<(Value, seq<Token>)>)
    ensures (|payload| == 0 || payload[0] != StartArray) ==> r == Err(NotAnArray)
    ensures r.Ok? ==> r.value.0.ListValue?
  {
    if |payload| == 0 || payload[0] != StartArray then Err(NotAnArray)
    else
      var (vs, after) :- ReadElements(readFor, payload[1..]);
      Ok((ListValue(vs), after))
  }

  /** The list step as the function value the decoder is given. */
  function ListStepOf(readFor: JavaClass -> Reader): (step: StdDeser.Step<Value>)
    ensures forall payload :: step(payload) == ListImpl(readFor, payload)
  {
    p => ListImpl(readFor, p)
  }

  /** `JoltListDeserializer`: sigil `[]`, any payload shape allowed. */
  function ListDeserialize(readFor: JavaClass -> Reader, toks: seq<Token>): (r: Result<(Value, seq<Token>)>)
    ensures r.Ok? ==> |toks| >= 3 && toks[1].FieldName? && Trim(toks[1].name) == "[]" && toks[2] == StartArray
    ensures r.Ok? ==> r.value.0.ListValue?
  {
    StdDeser.Deserialize(List, false, ListStepOf(readFor), toks)
  }

  /** The written list is one JSON value, and its array splits back into one
      token group per element, each what `writeObject` wrote for it, in
      order. */
  lemma ListSerializeSplits(items: seq<Value>, write: Value -> seq<Token>)
    requires AllSingle(items, write)
    ensures SingleValue(ListSerialize(items, write))
    ensures |ListSerialize(items, write)| >= 3 && ListSerialize(items, write)[2] == StartArray
    ensures SplitItems(ListSerialize(items, write)[3..]) == Some((Written(items, write), [EndObject]))
  {
    var w := WriteAll(items, write);
    WriteAllIsLevel(items, write);
    Bracketed(StartArray, w, EndArray);
    WrapIsSingle(Literal(List), [StartArray] + w + [EndArray]);
    assert ListSerialize(items, write)[3..] == w + [EndArray] + [EndObject];
    SplitItemsOfWriteAll(items, write, [EndObject]);
  }

  /** An element is read back: written as a struct, and `handleNestedJolt`
      on it, whatever follows, yields it and stops right after it. */
  predicate ReadsBack(readFor: JavaClass -> Reader, write: Value -> seq<Token>, x: Value, rest: seq<Token>) {
    && |write(x)| > 0 && IsStructStart(write(x)[0])
    && HandleNestedJolt(readFor, write(x) + rest) == Ok((x, rest))
  }

  /** An element tagged with a sigil the list dispatches is handed to the
      reader for that sigil's target class, started at its tag. */
  lemma HandleNestedDispatch(readFor: JavaClass -> Reader, s: Sigil, tag: string, body: seq<Token>, rest: seq<Token>)
    requires Trim(tag) == Literal(s) && ElementTarget(s).Ok?
    ensures HandleNestedJolt(readFor, Wrap(tag, body) + rest)
         == readFor(ElementTarget(s).value)([FieldName(tag)] + body + [EndObject] + rest)
  {
    var toks := Wrap(tag, body) + rest;
    WrapParts(tag, body, rest);
    OfLiteralOfLiteral(s);
    assert StdDeser.SigilFromStruct(toks) == Ok(s);
    assert toks[1..] == [FieldName(tag)] + body + [EndObject] + rest;
  }

  /** An element tagged with a sigil the list does not dispatch (a map, a
      duration's own tag, a graph entity, null) is refused. */
  lemma HandleNestedUnsupported(readFor: JavaClass -> Reader, s: Sigil, tag: string, body: seq<Token>, rest: seq<Token>)
    requires Trim(tag) == Literal(s) && ElementTarget(s).Err?
    ensures HandleNestedJolt(readFor, Wrap(tag, body) + rest) == Err(UnsupportedListElement(Literal(s)))
  {
    var toks := Wrap(tag, body) + rest;
    WrapParts(tag, body, rest);
    OfLiteralOfLiteral(s);
    assert StdDeser.SigilFromStruct(toks) == Ok(s);
  }

  /** Whatever follows, the elements written by `writeObject` and closed by
      the array's end are read back, all of them and in order, when each is
      read back on its own. */
  lemma {:induction false} ReadElementsOfWriteAll(readFor: JavaClass -> Reader, write: Value -> seq<Token>, xs: seq<Value>, tail: seq<Token>)
    requires forall i, rest :: 0 <= i < |xs| ==> ReadsBack(readFor, write, xs[i], rest)
    ensures ReadElements(readFor, WriteAll(xs, write) + [EndArray] + tail) == Ok((xs, tail))
    decreases |xs|
  {
    var ts := WriteAll(xs, write) + [EndArray] + tail;
    if |xs| == 0 {
      assert ts == [EndArray] + tail;
      assert ts[1..] == tail;
    } else {
      var rest := WriteAll(xs[1..], write) + [EndArray] + tail;
      WriteAllCons(xs, write, EndArray, tail);
      assert ReadsBack(readFor, write, xs[0], rest);
      assert ts[0] == write(xs[0])[0];
      assert forall i, r :: 0 <= i < |xs[1..]| ==> ReadsBack(readFor, write, xs[1..][i], r) by {
        forall i, r | 0 <= i < |xs[1..]| ensures ReadsBack(readFor, write, xs[1..][i], r) {
          assert xs[1..][i] == xs[i + 1];
        }
      }
      ReadElementsOfWriteAll(readFor, write, xs[1..], tail);
      assert [xs[0]] + xs[1..] == xs;
    }
  }

  /** The round trip: a list written by `serialize` is read back as the same
      elements in the same order, leaving the stream after its closing brace,
      when each element is read back on its own. The payload being an array,
      not a string, is allowed because the list lifts the string restriction. */
  lemma ListRoundTrip(readFor: JavaClass -> Reader, write: Value -> seq<Token>, xs: seq<Value>, tail: seq<Token>)
    requires forall i, rest :: 0 <= i < |xs| ==> ReadsBack(readFor, write, xs[i], rest)
    ensures ListDeserialize(readFor, ListSerialize(xs, write) + tail) == Ok((ListValue(xs), tail))
  {
    var body := [StartArray] + WriteAll(xs, write) + [EndArray];
    var after := [EndObject] + tail;
    assert ListImpl(readFor, body + after) == Ok((ListValue(xs), after)) by {
      assert body + after == [StartArray] + (WriteAll(xs, write) + [EndArray] + after);
      ListImplOfArray(readFor, WriteAll(xs, write) + [EndArray] + after);
      ReadElementsOfWriteAll(readFor, write, xs, after);
    }
    assert after[1..] == tail;
    assert ListSerialize(xs, write) == Wrap("[]", body);
    ListDeserializeOfWrap(readFor, body, tail);
  }

  /** Under the list tag the decoder hands the payload to the list step and
      closes the struct after it. */
  lemma ListDeserializeOfWrap(readFor: JavaClass -> Reader, value: seq<Token>, tail: seq<Token>)
    ensures ListDeserialize(readFor, Wrap("[]", value) + tail)
         == StdDeser.Close(ListImpl(readFor, value + ([EndObject] + tail)))
  {
    var toks := Wrap("[]", value) + tail;
    WrapParts("[]", value, tail);
    StdDeser.LiteralUntrimmed(List);
    StdDeser.DeserializeAccepted(List, false, ListStepOf(readFor), toks);
  }

  /** A list element that is a bare scalar, not a struct, is refused. */
  lemma ListRefusesScalarElement(readFor: JavaClass -> Reader, t: Token, rest: seq<Token>, tail: seq<Token>)
    requires IsScalar(t)
    ensures ListDeserialize(readFor, Wrap("[]", [StartArray, t] + rest) + tail) == Err(NotYetDone)
  {
    var payload := [StartArray, t] + rest + ([EndObject] + tail);
    assert ListImpl(readFor, payload) == Err(NotYetDone) by {
      assert payload == [StartArray] + ([t] + (rest + ([EndObject] + tail)));
      ListImplOfArray(readFor, [t] + (rest + ([EndObject] + tail)));
    }
    ListDeserializeOfWrap(readFor, [StartArray, t] + rest, tail);
  }

  /** An array payload is read element by element from the token after the
      array start. */
  lemma ListImplOfArray(readFor: JavaClass -> Reader, elements: seq<Token>)
    ensures ListImpl(readFor, [StartArray] + elements)
         == match ReadElements(readFor, elements)
            case Ok((vs, after)) => Ok((ListValue(vs), after))
            case Err(e) => Err(e)
  {
    assert ([StartArray] + elements)[1..] == elements;
  }

  /** The element loop stops at an element whose sigil it does not dispatch. */
  lemma ReadElementsUnsupported(readFor: JavaClass -> Reader, s: Sigil, body: seq<Token>, after: seq<Token>)
    requires ElementTarget(s).Err?
    ensures ReadElements(readFor, Wrap(Literal(s), body) + after) == Err(UnsupportedListElement(Literal(s)))
  {
    WrapParts(Literal(s), body, after);
    StdDeser.LiteralUntrimmed(s);
    HandleNestedUnsupported(readFor, s, Literal(s), body, after);
  }

  /** A list element tagged with a sigil the list does not dispatch is
      refused, naming the sigil. */
  lemma ListRefusesUnsupportedElement(readFor: JavaClass -> Reader, s: Sigil, body: seq<Token>, rest: seq<Token>, tail: seq<Token>)
    requires ElementTarget(s).Err?
    ensures ListDeserialize(readFor, Wrap("[]", [StartArray] + Wrap(Literal(s), body) + rest) + tail)
         == Err(UnsupportedListElement(Literal(s)))
  {
    var element := Wrap(Literal(s), body);
    var after := rest + ([EndObject] + tail);
    var payload := [StartArray] + element + rest + ([EndObject] + tail);
    assert ListImpl(readFor, payload) == Err(UnsupportedListElement(Literal(s))) by {
      assert payload == [StartArray] + (element + after);
      ListImplOfArray(readFor, element + after);
      ReadElementsUnsupported(readFor, s, body, after);
    }
    ListDeserializeOfWrap(readFor, [StartArray] + element + rest, tail);
  }

  /** A payload under the list tag that is not an array is refused as such;
      a string payload reaches this check, the string restriction being off. */
  lemma ListRefusesNonArray(readFor: JavaClass -> Reader, t: Token, rest: seq<Token>, tail: seq<Token>)
    requires t != StartArray
    ensures ListDeserialize(readFor, Wrap("[]", [t] + rest) + tail) == Err(NotAnArray)
  {
    ListDeserializeOfWrap(readFor, [t] + rest, tail);
    assert ([t] + rest + ([EndObject] + tail))[0] == t;
  }
  /** An array that never ends fails on the missing token. */
  lemma ListUnterminated(readFor: JavaClass -> Reader, tag: string)
    requires tag == Literal(List)
    ensures ListDeserialize(readFor, [StartObject, FieldName(tag), StartArray]) == Err(NullPointer)
  {
    var toks := [StartObject, FieldName(tag), StartArray];
    assert ListImpl(readFor, toks[2..]) == Err(NullPointer) by {
      assert toks[2..] == [StartArray] + [];
      ListImplOfArray(readFor, []);
    }
    StdDeser.LiteralUntrimmed(List);
    StdDeser.DeserializeAccepted(List, false, ListStepOf(readFor), toks);
  }
}

=== FILE: numbers.dfy ===
/** The number serializers. In strict mode a long is always written as a
    tagged string, `Z` when it fits the integer tag and `R` otherwise; in
    compact mode a number in integer range is written bare and any other
    falls back to the string payload of the delegating serializer.

    The two range checks differ: the strict one leaves `Integer.MAX_VALUE`
    out, the compact one lets it in.
 */
module Numbers {
  import opened Results
  import opened Numerals
  import opened Json
  import opened Graph
  import TypeIds

  /** `JoltDelegatingValueSerializer.serialize`: the converter's text as one
      string token. The wrapper object around it comes from the type
      serializer, not from here. */
  function DelegatingSerialize<T>(converter: T -> string, v: T): (r: seq<Token>)
    ensures |r| == 1 && r[0].Str? && r[0].text == converter(v)
  {
    [Str(converter(v))]
  }

  /** The tag the strict long serializer writes. */
  function LongTagOf(v: Int64): (tag: string)
    ensures tag == "Z" <==> TypeIds.FitsIntegerTag(v)
    ensures tag == "R" <==> !TypeIds.FitsIntegerTag(v)
  {
    if MIN_INT <= v < MAX_INT then "Z" else "R"
  }

  /** `JoltLongSerializer.serialize`: a one-member object whose key is the
      integer tag exactly when the long fits it (the real tag otherwise) and
      whose value is the decimal text of the long, whichever tag is chosen. */
  function LongSerialize(v: Int64): (r: seq<Token>)
    ensures |r| == 4 && r[0] == StartObject && r[3] == EndObject
    ensures r[1] == FieldName("Z") <==> TypeIds.FitsIntegerTag(v)
    ensures r[1] == FieldName("R") <==> !TypeIds.FitsIntegerTag(v)
    ensures r[2] == Str(LongToString(v))
  {
    [StartObject, FieldName(LongTagOf(v)), Str(LongToString(v)), EndObject]
  }

  /** The payload reads back as the long, whichever tag was chosen. */
  lemma LongPayloadParses(v: Int64)
    ensures LongSerialize(v)[2].Str? && ParseLong(LongSerialize(v)[2].text) == Ok(v)
  {
    ParseLongOfLongToString(v);
  }

  /** The strict long serializer writes the same tag the type-id resolver
      assigns a Long. */
  lemma LongSerializeAgreesWithResolver(v: Int64)
    ensures TypeIds.IdFromValue(LongValue(v)).Ok?
    ensures LongSerialize(v)[1] == FieldName(TypeIds.IdFromValue(LongValue(v)).value)
  {
    TypeIds.LongTag(v);
  }

  /** The boundaries: `Integer.MIN_VALUE` and `Integer.MAX_VALUE - 1` are
      tagged `Z`; `Integer.MAX_VALUE` is tagged `R`, and so is the long just
      below `Integer.MIN_VALUE`. */
  lemma LongSerializeBoundaries(v: Int64)
    ensures v == MIN_INT || v == MAX_INT - 1 ==> LongSerialize(v)[1] == FieldName("Z")
    ensures v == MAX_INT || v == MIN_INT - 1 ==> LongSerialize(v)[1] == FieldName("R")
  {
  }

  /** `123L` is written `{"Z":"123"}`. */
  lemma LongSerializeExample()
    ensures LongSerialize(123) == [StartObject, FieldName("Z"), Str("123"), EndObject]
  {
    assert LongToString(123) == "123" by {
      assert DigitsOf(123) == DigitsOf(12) + [DigitChar(3)];
      assert DigitsOf(12) == DigitsOf(1) + [DigitChar(2)];
    }
  }

  /** The compact serializer's range: `Integer.MIN_VALUE` to
      `Integer.MAX_VALUE`, both included. */
  predicate FitsBare(v: int) {
    MIN_INT <= v <= MAX_INT
  }

  /** `JoltSparseNumberSerializer.serialize` for a long (or an int widened
      to one): a bare number in integer range, otherwise what the delegating
      serializer with `String.valueOf` writes. */
  function SparseSerialize(v: Int64): (r: seq<Token>)
    ensures |r| == 1
    ensures r[0].Num? <==> FitsBare(v)
    ensures r[0].Num? ==> r[0].number == v
    ensures r[0].Str? <==> !FitsBare(v)
    ensures r[0].Str? ==> r[0].text == LongToString(v)
  {
    if MIN_INT <= v <= MAX_INT then [Num(v)]
    else DelegatingSerialize<int>(LongToString, v)
  }

  /** Out of integer range the string payload reads back as the long. */
  lemma SparsePayloadParses(v: Int64)
    requires !FitsBare(v)
    ensures SparseSerialize(v)[0].Str? && ParseLong(SparseSerialize(v)[0].text) == Ok(v)
  {
    ParseLongOfLongToString(v);
  }

  /** Every Integer takes the bare path. */
  lemma SparseSerializeInt(v: Int32)
    ensures SparseSerialize(v) == [Num(v)]
  {
  }

  /** `Integer.MAX_VALUE` is the one value the two modes disagree on within
      the compact range: bare in compact mode, tagged `R` in strict mode,
      whereas its predecessor is tagged `Z`. */
  lemma ModesDisagreeOnMaxInt()
    ensures SparseSerialize(MAX_INT) == [Num(MAX_INT)]
    ensures LongSerialize(MAX_INT)[1] == FieldName("R")
    ensures forall v: Int64 :: FitsBare(v) && v != MAX_INT ==> LongSerialize(v)[1] == FieldName("Z")
  {
  }
}

=== FILE: numerals.dfy ===
/** Java's 32- and 64-bit integers and their decimal text: `String.valueOf(long)`
    (also `Integer.toString`), `Long.parseLong` and `Integer.valueOf(String)`.
    Only ASCII digits are treated as decimal digits.
 */
module Numerals {
  import opened Results
  import opened JavaText

  const MIN_INT: int := -0x8000_0000
  const MAX_INT: int := 0x7FFF_FFFF
  const MIN_LONG: int := -0x8000_0000_0000_0000
  const MAX_LONG: int := 0x7FFF_FFFF_FFFF_FFFF

  /** A Java `int` / `Integer`. */
  type Int32 = x: int | MIN_INT <= x <= MAX_INT

  /** A Java `long` / `Long`. */
  type Int64 = x: int | MIN_LONG <= x <= MAX_LONG

  /** A Java `byte`: signed, two's complement. */
  type JByte = b: int | -128 <= b <= 127

  function DigitChar(d: nat): (c: char)
    requires d < 10
    ensures IsDigit(c)
  {
    ('0' as int + d) as char
  }

  /** Value of a run of decimal digits, most significant first. */
  function DigitsValue(s: string): int
  {
    if |s| == 0 then 0 else DigitsValue(s[..|s| - 1]) * 10 + (s[|s| - 1] as int - '0' as int)
  }

  predicate AllDigits(s: string) {
    forall i :: 0 <= i < |s| ==> IsDigit(s[i])
  }

  /** The digits Java prints: at least one, and no leading zero unless the
      whole run is "0". */
  predicate IsCanonicalDigits(s: string) {
    |s| >= 1 && AllDigits(s) && (s[0] == '0' ==> |s| == 1)
  }

  /** Decimal digits of a non-negative number. */
  function DigitsOf(n: nat): (r: string)
    ensures IsCanonicalDigits(r)
    ensures DigitsValue(r) == n
    decreases n
  {
    if n < 10 then
      [DigitChar(n)]
    else
      var front := DigitsOf(n / 10);
      var r := front + [DigitChar(n % 10)];
      assert r[..|r| - 1] == front;
      r
  }

  /** `String.valueOf(long)` / `Integer.toString(int)`: a minus sign for
      negative values, then the canonical digits of the magnitude. */
  function LongToString(v: int): (r: string)
    ensures |r| >= 1
    ensures v < 0 ==> r[0] == '-' && IsCanonicalDigits(r[1..]) && DigitsValue(r[1..]) == -v
    ensures v >= 0 ==> IsCanonicalDigits(r) && DigitsValue(r) == v
  {
    if v < 0 then
      var d := DigitsOf(-v);
      assert ("-" + d)[1..] == d;
      "-" + d
    else
      DigitsOf(v)
  }

  /** `s` is the decimal text of `v` in one of the forms `Long.parseLong`
      reads: a run of digits, or a '+' or '-' followed by one, leading zeros
      allowed. */
  predicate SpellsLong(s: string, v: int) {
    || (|s| >= 1 && AllDigits(s) && DigitsValue(s) == v)
    || (|s| >= 2 && s[0] == '+' && AllDigits(s[1..]) && DigitsValue(s[1..]) == v)
    || (|s| >= 2 && s[0] == '-' && AllDigits(s[1..]) && DigitsValue(s[1..]) == -v)
  }

  /** `Long.parseLong`: an optional '+' or '-', at least one digit, and a value
      within the 64-bit range; anything else is a NumberFormatException. */
  function ParseLong(s: string): (r: Result<Int64>)
    ensures r.Ok? ==> SpellsLong(s, r.value)
    ensures r.Err? ==> forall v :: MIN_LONG <= v <= MAX_LONG ==> !SpellsLong(s, v)
    ensures r.Ok? ==> |s| >= 1
    ensures r.Ok? && s[0] == '-' ==> r.value <= 0
    ensures r.Ok? && s[0] != '-' ==> r.value >= 0
    ensures r.Err? ==> r.error == NumberFormat(s)
  {
    if |s| == 0 then Err(NumberFormat(s))
    else
      var negative := s[0] == '-';
      var digits := if negative || s[0] == '+' then s[1..] else s;
      if |digits| == 0 || !AllDigits(digits) then Err(NumberFormat(s))
      else
        DigitsValueNonNegative(digits);
        var magnitude := DigitsValue(digits);
        var v := if negative then -magnitude else magnitude;
        if MIN_LONG <= v <= MAX_LONG then Ok(v) else Err(NumberFormat(s))
  }

  /** `Integer.valueOf(String)` on the digit run the point grammar captured:
      digits whose value exceeds the 32-bit range are a NumberFormatException. */
  function ParseInt(s: string): (r: Result<Int32>)
    requires AllDigits(s)
    ensures r.Ok? <==> |s| >= 1 && DigitsValue(s) <= MAX_INT
    ensures r.Ok? ==> r.value == DigitsValue(s)
  {
    DigitsValueNonNegative(s);
    if |s| == 0 then Err(NumberFormat(s))
    else if DigitsValue(s) <= MAX_INT then Ok(DigitsValue(s))
    else Err(NumberFormat(s))
  }

  lemma {:induction false} DigitsValueNonNegative(s: string)
    requires AllDigits(s)
    ensures DigitsValue(s) >= 0
  {
    if |s| > 0 {
      DigitsValueNonNegative(s[..|s| - 1]);
    }
  }

  /** The decimal text Java prints for a long is read back by `Long.parseLong`
      as the same long. */
  lemma ParseLongOfLongToString(v: Int64)
    ensures ParseLong(LongToString(v)) == Ok(v)
  {
    var s := LongToString(v);
    if v < 0 {
      assert s[0] == '-';
    } else {
      assert s[0] != '-' && s[0] != '+';
    }
  }

  /** The decimal text of a non-negative number is the digit run `Integer.valueOf`
      reads back, when the number fits in 32 bits. */
  lemma ParseIntOfDigits(n: Int32)
    requires n >= 0
    ensures AllDigits(LongToString(n))
    ensures ParseInt(LongToString(n)) == Ok(n)
  {
  }
}

=== FILE: registry.dfy ===
/** The two Jolt modules: which serializer and which deserializer each
    registers for which Java class. Strict mode tags every scalar, compact
    (default) mode writes strings and booleans as plain JSON and numbers in
    integer range bare, and registers no deserializer for them.
 */
module Registry {
  import opened Results
  import opened JavaTypes
  import Sigils

  /** `JoltModule.STRICT` and `JoltModule.DEFAULT`. */
  datatype Mode = Strict | Default

  /** The serializers the modules register, with the sigil they are
      registered under where they take one. */
  datatype SerializerKind =
    | DelegatingSer(sigil: Sigils.Sigil)
    | LongSer
    | SparseNumberSer(sigil: Sigils.Sigil)
    | ListSer
    | LabelConverterSer
    | RelationshipTypeConverterSer
    | NodeSer
    | RelationshipSer
    | RelationshipReversedSer
    | PathSer
    | MapSer

  /** The deserializers the modules register. */
  datatype DeserializerKind =
    | DelegatingDeser(sigil: Sigils.Sigil)
    | RealDeser
    | ListDeser

  /** The classes whose registration depends on the mode. */
  predicate ModeDependent(c: JavaClass) {
    c in {StringClass, BooleanPrimitive, BooleanClass, IntPrimitive, IntegerClass,
          LongPrimitive, LongClass, VoidClass, ListClass}
  }

  /** `addSerializers`: the serializer registered for a class, if any. */
  function SerializerFor(mode: Mode, c: JavaClass): (r: Option<SerializerKind>)
    ensures mode == Default && c in {IntPrimitive, IntegerClass, LongPrimitive, LongClass}
      ==> r == Some(SparseNumberSer(Sigils.Integer))
    ensures mode == Default && c in {StringClass, BooleanPrimitive, BooleanClass, VoidClass, ListClass} ==> r.None?
  {
    if ModeDependent(c) then
      match mode
      case Strict =>
        (match c
         case StringClass => Some(DelegatingSer(Sigils.Unicode))
         case BooleanPrimitive => Some(DelegatingSer(Sigils.Boolean))
         case BooleanClass => Some(DelegatingSer(Sigils.Boolean))
         case IntPrimitive => Some(DelegatingSer(Sigils.Integer))
         case IntegerClass => Some(DelegatingSer(Sigils.Integer))
         case LongPrimitive => Some(LongSer)
         case LongClass => Some(LongSer)
         case VoidClass => Some(DelegatingSer(Sigils.Null))
         case _ => Some(ListSer))
      case Default =>
        if c in {IntPrimitive, IntegerClass, LongPrimitive, LongClass} then Some(SparseNumberSer(Sigils.Integer))
        else None
    else
      match c
      case DoublePrimitive => Some(DelegatingSer(Sigils.Real))
      case DoubleClass => Some(DelegatingSer(Sigils.Real))
      case ByteArrayClass => Some(DelegatingSer(Sigils.Binary))
      case PointClass => Some(DelegatingSer(Sigils.Spatial))
      case LocalDateClass => Some(DelegatingSer(Sigils.Time))
      case OffsetTimeClass => Some(DelegatingSer(Sigils.Time))
      case LocalTimeClass => Some(DelegatingSer(Sigils.Time))
      case ZonedDateTimeClass => Some(DelegatingSer(Sigils.Time))
      case LocalDateTimeClass => Some(DelegatingSer(Sigils.Time))
      case DurationValueClass => Some(DelegatingSer(Sigils.Time))
      case LabelClass => Some(LabelConverterSer)
      case RelationshipTypeClass => Some(RelationshipTypeConverterSer)
      case NodeClass => Some(NodeSer)
      case RelationshipClass => Some(RelationshipSer)
      case JoltRelationshipClass => Some(RelationshipReversedSer)
      case PathClass => Some(PathSer)
      case MapClass => Some(MapSer)
      case _ => None
  }

  /** `addDeserializers`: the deserializer registered for a class, if any. */
  function DeserializerFor(mode: Mode, c: JavaClass): (r: Option<DeserializerKind>)
    ensures mode == Default && ModeDependent(c) ==> r.None?
  {
    if ModeDependent(c) then
      match mode
      case Strict =>
        (match c
         case StringClass => Some(DelegatingDeser(Sigils.Unicode))
         case BooleanPrimitive => Some(DelegatingDeser(Sigils.Boolean))
         case BooleanClass => Some(DelegatingDeser(Sigils.Boolean))
         case IntPrimitive => Some(DelegatingDeser(Sigils.Integer))
         case IntegerClass => Some(DelegatingDeser(Sigils.Integer))
         case LongClass => Some(DelegatingDeser(Sigils.Integer))
         case ListClass => Some(ListDeser)
         case _ => None)
      case Default => None
    else
      match c
      case NumberClass => Some(RealDeser)
      case ByteArrayClass => Some(DelegatingDeser(Sigils.Binary))
      case PointClass => Some(DelegatingDeser(Sigils.Spatial))
      case LocalDateClass => Some(DelegatingDeser(Sigils.Time))
      case OffsetTimeClass => Some(DelegatingDeser(Sigils.Time))
      case LocalTimeClass => Some(DelegatingDeser(Sigils.Time))
      case ZonedDateTimeClass => Some(DelegatingDeser(Sigils.Time))
      case LocalDateTimeClass => Some(DelegatingDeser(Sigils.Time))
      case DurationValueClass => Some(DelegatingDeser(Sigils.Time))
      case _ => None
  }

  /** Strict mode tags every scalar: strings, booleans and ints through the
      delegating serializer under their own sigils, longs through the long
      serializer, `Void` under the null sigil. */
  lemma StrictSerializers()
    ensures SerializerFor(Strict, StringClass) == Some(DelegatingSer(Sigils.Unicode))
    ensures SerializerFor(Strict, BooleanClass) == SerializerFor(Strict, BooleanPrimitive) == Some(DelegatingSer(Sigils.Boolean))
    ensures SerializerFor(Strict, IntegerClass) == SerializerFor(Strict, IntPrimitive) == Some(DelegatingSer(Sigils.Integer))
    ensures SerializerFor(Strict, LongClass) == SerializerFor(Strict, LongPrimitive) == Some(LongSer)
    ensures SerializerFor(Strict, VoidClass) == Some(DelegatingSer(Sigils.Null))
    ensures SerializerFor(Strict, ListClass) == Some(ListSer)
  {
  }

  /** Strict mode reads the scalars back, a boxed `Long` under the integer
      sigil; there is no deserializer for the primitive `long` nor for
      `Void`. */
  lemma StrictDeserializers()
    ensures DeserializerFor(Strict, StringClass) == Some(DelegatingDeser(Sigils.Unicode))
    ensures DeserializerFor(Strict, BooleanClass) == DeserializerFor(Strict, BooleanPrimitive) == Some(DelegatingDeser(Sigils.Boolean))
    ensures DeserializerFor(Strict, IntegerClass) == DeserializerFor(Strict, IntPrimitive) == Some(DelegatingDeser(Sigils.Integer))
    ensures DeserializerFor(Strict, LongClass) == Some(DelegatingDeser(Sigils.Integer))
    ensures DeserializerFor(Strict, LongPrimitive).None? && DeserializerFor(Strict, VoidClass).None?
    ensures DeserializerFor(Strict, ListClass) == Some(ListDeser)
  {
  }

  /** Outside the mode-dependent classes the two modules register the same
      serializers and deserializers. */
  lemma ModesAgreeElsewhere(c: JavaClass)
    requires !ModeDependent(c)
    ensures SerializerFor(Strict, c) == SerializerFor(Default, c)
    ensures DeserializerFor(Strict, c) == DeserializerFor(Default, c)
  {
  }

  /** Every java.time class and Neo4j's duration share the temporal sigil,
      in both directions and both modes. */
  lemma TimeShared(mode: Mode, c: JavaClass)
    requires IsTemporalKind(c) || c == DurationValueClass
    ensures SerializerFor(mode, c) == Some(DelegatingSer(Sigils.Time))
    ensures DeserializerFor(mode, c) == Some(DelegatingDeser(Sigils.Time))
  {
  }

  /** Where a class has a delegating serializer and a delegating
      deserializer, both are registered under the same sigil. */
  lemma WriteAndReadAgree(mode: Mode, c: JavaClass)
    requires SerializerFor(mode, c).Some? && SerializerFor(mode, c).value.DelegatingSer?
    requires DeserializerFor(mode, c).Some? && DeserializerFor(mode, c).value.DelegatingDeser?
    ensures SerializerFor(mode, c).value.sigil == DeserializerFor(mode, c).value.sigil
  {
  }

  /** Every class a module can read is one it can write, except `Number`,
      which is read by the real deserializer and written through its
      concrete subclasses. */
  lemma ReadableIsWritable(mode: Mode, c: JavaClass)
    requires DeserializerFor(mode, c).Some?
    ensures SerializerFor(mode, c).Some? || (c == NumberClass && DeserializerFor(mode, c) == Some(RealDeser))
  {
  }

  /** The sigil a class with a delegating serializer is registered under is
      the one whose literal the type-id resolver writes for that class. */
  lemma {:induction false} ResolverAgreesWithRegistration(mode: Mode, c: JavaClass)
    requires !IsPrimitive(c)
    requires SerializerFor(mode, c).Some? && SerializerFor(mode, c).value.DelegatingSer?
    ensures Sigils.ForType(Some(c)).Ok?
    ensures Sigils.AliasedLiteral(Sigils.ForType(Some(c)).value) == Sigils.Literal(SerializerFor(mode, c).value.sigil)
  {
    var s := SerializerFor(mode, c).value.sigil;
    if IsTemporalKind(c) {
      Sigils.ForTypeTemporal(c);
    } else if c == DurationValueClass {
      Sigils.ForTypeDuration();
    } else if c == DoubleClass {
      Sigils.ForTypeOtherNumbers(c);
    } else if c == IntegerClass {
      Sigils.ForTypeInteger();
    } else {
      FirstCoverOfRegistered(c, s);
    }
  }

  /** The remaining registered classes are listed by their sigil and by no
      earlier one. */
  lemma FirstCoverOfRegistered(c: JavaClass, s: Sigils.Sigil)
    requires (c, s) in {(StringClass, Sigils.Unicode), (BooleanClass, Sigils.Boolean), (VoidClass, Sigils.Null),
                        (ByteArrayClass, Sigils.Binary), (PointClass, Sigils.Spatial)}
    ensures Sigils.ForType(Some(c)) == Ok(s)
  {
    assert Sigils.Types(s) == [c];
    forall t | Sigils.Ordinal(t) < Sigils.Ordinal(s) ensures !Sigils.Covers(t, c) {
      OnlyOwnSigilCovers(c, s, t);
    }
    Sigils.ForTypeIsFirstCover(c, s);
  }

  /** A class with no supertype among the listed ones is covered only by
      the sigil that lists it. */
  lemma OnlyOwnSigilCovers(c: JavaClass, s: Sigils.Sigil, t: Sigils.Sigil)
    requires c in {StringClass, BooleanClass, VoidClass, ByteArrayClass, PointClass}
    requires Sigils.Types(s) == [c] && t != s
    ensures !Sigils.Covers(t, c)
  {
    if t == Sigils.Real {
      assert Sigils.Types(Sigils.Real)[1..][1..][1..] == [];
    }
  }
}

=== FILE: results.dfy ===
/** Outcomes of the codec's operations.

    Java's `null` becomes `None`; every exception the codec raises (or lets
    escape from the JDK and Jackson calls it makes) becomes an `Err` carrying
    a `Failure` that names the exception and the text it reports.
 */
module Results {
  import opened Json

  datatype Option<+T> = None | Some(value: T)

  /** The exceptions the modelled code raises, one constructor each. */
  datatype Failure =
      /** `Sigil.ofLiteral` on a literal outside the table. */
    | NoSuchSigil(literal: string)
      /** `Sigil.forType` on a class no sigil covers. */
    | UnsupportedType
      /** JoltStdDeserializer: the current token does not start a struct. */
    | NotCompatibleWithJolt
      /** JoltStdDeserializer: the trimmed tag is not a sigil literal. */
    | UnsupportedNamedDatatype(tag: string)
      /** JoltStdDeserializer: the tag names a sigil other than the deserializer's own. */
    | SigilMismatch(found: string, expected: string)
      /** JoltStdDeserializer: the payload is not a string although only strings are allowed. */
    | OnlyStringValues
      /** JoltStdDeserializer: the struct does not close right after its payload. */
    | DanglingData
      /** JoltStdDeserializer: a primitive target received a null or blank payload. */
    | NullOrBlank
      /** JoltListDeserializer: the payload under the list tag is not an array. */
    | NotAnArray
      /** JoltListDeserializer: a list element that is not a struct. */
    | NotYetDone
      /** JoltListDeserializer: a list element whose sigil the list does not dispatch. */
    | UnsupportedListElement(sigil: string)
      /** Jackson: a type id resolved to a class that does not fit the requested
          type; `rest` holds the tokens after the type id's field name, where
          the parser stands when the exception is raised. */
    | InvalidTypeId(id: string, rest: seq<Token>)
      /** Jackson: a token other than the one the wrapper-object format needs. */
    | WrongToken
      /** JoltCodec: a type inclusion other than the wrapper object. */
    | UnsupportedInclusion
      /** `Long.parseLong`, `Integer.valueOf` or `Double.parseDouble` rejected the text. */
    | NumberFormat(text: string)
      /** `String.charAt` past the end of the string. */
    | StringIndexOutOfBounds
      /** A method called on `null` (a missing field name or token). */
    | NullPointer
      /** WKTToPoint: the text does not match the point grammar. */
    | IllegalPointLiteral(text: string)
      /** `CoordinateReferenceSystem.get` on a code that names no reference system. */
    | UnknownCrs(code: int)

  datatype Result<+T> = Ok(value: T) | Err(error: Failure) {

    predicate IsFailure() {
      Err?
    }

    function PropagateFailure<U>(): Result<U>
      requires Err?
    {
      Err(error)
    }

    function Extract(): T
      requires Ok?
    {
      value
    }
  }
}

=== FILE: sigils.dfy ===
/** The sigil registry: the fifteen tags of the Jolt format, the Java types
    each covers, the reverse lookup from literal to sigil, the one alias
    (temporal amounts are written with the temporal tag), and the
    first-match lookup of a sigil for a Java class.
 */
module Sigils {
  import opened Results
  import opened JavaTypes

  /** The sigils in declaration order. */
  datatype Sigil =
    | Integer | Real | Unicode | Binary | List | Map | Time | TemporalAmount
    | Spatial | Node | Relationship | RelationshipReversed | Path | Boolean | Null

  function AllSigils(): (r: seq<Sigil>)
    ensures |r| == 15
  {
    [Integer, Real, Unicode, Binary, List, Map, Time, TemporalAmount,
     Spatial, Node, Relationship, RelationshipReversed, Path, Boolean, Null]
  }

  /** Position of a sigil in declaration order. */
  function Ordinal(s: Sigil): (n: nat)
    ensures n < |AllSigils()| && AllSigils()[n] == s
  {
    match s
    case Integer => 0
    case Real => 1
    case Unicode => 2
    case Binary => 3
    case List => 4
    case Map => 5
    case Time => 6
    case TemporalAmount => 7
    case Spatial => 8
    case Node => 9
    case Relationship => 10
    case RelationshipReversed => 11
    case Path => 12
    case Boolean => 13
    case Null => 14
  }

  /** Positions and sigils correspond one to one. */
  lemma OrdinalAt(i: nat)
    requires i < |AllSigils()|
    ensures Ordinal(AllSigils()[i]) == i
  {
  }

  /** `getValue`: the literal written as the wrapper object's key. */
  function Literal(s: Sigil): string {
    match s
    case Integer => "Z"
    case Real => "R"
    case Unicode => "U"
    case Binary => "#"
    case List => "[]"
    case Map => "{}"
    case Time => "T"
    case TemporalAmount => "TA"
    case Spatial => "@"
    case Node => "()"
    case Relationship => "->"
    case RelationshipReversed => "<-"
    case Path => ".."
    case Boolean => "?"
    case Null => ""
  }

  /** The sigil another one stands in for: only temporal amounts have one. */
  function AliasFor(s: Sigil): Option<Sigil> {
    if s == TemporalAmount then Some(Time) else None
  }

  /** `getAliasedValueOrValue`: the literal of the aliased sigil if there is
      one, the sigil's own literal otherwise. */
  function AliasedLiteral(s: Sigil): (r: string)
    ensures s == TemporalAmount ==> r == "T"
    ensures s != TemporalAmount ==> r == Literal(s)
  {
    match AliasFor(s)
    case Some(a) => Literal(a)
    case None => Literal(s)
  }

  /** The Java types a sigil covers, in declaration order. */
  function Types(s: Sigil): (r: seq<JavaClass>)
    ensures |r| >= 1
  {
    match s
    case Integer => [IntegerClass]
    case Real => [NumberClass, LongClass, DoubleClass]
    case Unicode => [StringClass]
    case Binary => [ByteArrayClass]
    case List => [ListClass]
    case Map => [MapClass]
    case Time => [TemporalClass]
    case TemporalAmount => [TemporalAmountClass]
    case Spatial => [PointClass]
    case Node => [NodeClass]
    case Relationship => [RelationshipClass]
    case RelationshipReversed => [JoltRelationshipClass]
    case Path => [PathClass]
    case Boolean => [BooleanClass]
    case Null => [VoidClass]
  }

  /** No two sigils share a literal, so the reverse lookup is well defined
      (`Collectors.toUnmodifiableMap` would throw on a duplicate key). */
  lemma LiteralsDistinct(a: Sigil, b: Sigil)
    ensures Literal(a) == Literal(b) ==> a == b
  {
  }

  /** The lookup in `REVERSE_LOOKUP`, as a scan of the sigils from position
      `from` on; the literals being distinct, the first match is the only one. */
  function FindLiteral(lit: string, from: nat): (r: Option<nat>)
    requires from <= |AllSigils()|
    ensures r.Some? ==> from <= r.value < |AllSigils()| && Literal(AllSigils()[r.value]) == lit
    ensures r.None? ==> forall j :: from <= j < |AllSigils()| ==> Literal(AllSigils()[j]) != lit
    decreases |AllSigils()| - from
  {
    if from == |AllSigils()| then None
    else if Literal(AllSigils()[from]) == lit then Some(from)
    else FindLiteral(lit, from + 1)
  }

  /** `ofLiteral`: the sigil whose literal this is, or an
      IllegalArgumentException for any string outside the table. */
  function OfLiteral(lit: string): (r: Result<Sigil>)
    ensures r.Ok? ==> Literal(r.value) == lit
    ensures r.Err? ==> r.error == NoSuchSigil(lit) && forall s :: Literal(s) != lit
  {
    match FindLiteral(lit, 0)
    case Some(i) => Ok(AllSigils()[i])
    case None =>
      assert forall s :: Literal(s) != lit by {
        forall s ensures Literal(s) != lit {
          var j := Ordinal(s);
          assert Literal(AllSigils()[j]) != lit;
        }
      }
      Err(NoSuchSigil(lit))
  }

  /** Every sigil is found again from its literal. */
  lemma OfLiteralOfLiteral(s: Sigil)
    ensures OfLiteral(Literal(s)) == Ok(s)
  {
    LiteralsDistinct(OfLiteral(Literal(s)).value, s);
  }

  /** The inner loop of `forType`: is any of `types` assignable from `c`? */
  predicate AnyAssignable(types: seq<JavaClass>, c: JavaClass) {
    |types| > 0 && (IsAssignableFrom(types[0], c) || AnyAssignable(types[1..], c))
  }

  /** Some type the sigil lists is assignable from `c`. */
  predicate Covers(s: Sigil, c: JavaClass) {
    AnyAssignable(Types(s), c)
  }

  /** The inner loop finds an assignable type exactly when the list has one. */
  lemma {:induction false} AnyAssignableIff(types: seq<JavaClass>, c: JavaClass)
    ensures AnyAssignable(types, c) <==> exists u :: u in types && IsAssignableFrom(u, c)
  {
    if |types| > 0 {
      AnyAssignableIff(types[1..], c);
      assert forall u :: u in types <==> u == types[0] || u in types[1..];
    }
  }

  /** The outer loop of `forType`: the position, from `from` on, of the first
      sigil covering `c`. */
  function FirstCovering(c: JavaClass, from: nat): (r: Option<nat>)
    requires from <= |AllSigils()|
    ensures r.Some? ==> from <= r.value < |AllSigils()| && Covers(AllSigils()[r.value], c)
    ensures r.Some? ==> forall j :: from <= j < r.value ==> !Covers(AllSigils()[j], c)
    ensures r.None? ==> forall j :: from <= j < |AllSigils()| ==> !Covers(AllSigils()[j], c)
    decreases |AllSigils()| - from
  {
    if from == |AllSigils()| then None
    else if AnyAssignable(Types(AllSigils()[from]), c) then Some(from)
    else FirstCovering(c, from + 1)
  }

  /** `forType`: `Null` for a null class; otherwise the first sigil in
      declaration order covering the class, or an IllegalArgumentException
      when none does. */
  function ForType(t: Option<JavaClass>): (r: Result<Sigil>)
    ensures t.None? ==> r == Ok(Null)
    ensures t.Some? && r.Ok? ==> Covers(r.value, t.value)
    ensures t.Some? && r.Ok? ==> forall s :: Ordinal(s) < Ordinal(r.value) ==> !Covers(s, t.value)
    ensures t.Some? && r.Err? ==> r.error == UnsupportedType && forall s :: !Covers(s, t.value)
  {
    match t
    case None => Ok(Null)
    case Some(c) =>
      match FirstCovering(c, 0)
      case Some(i) =>
        var s := AllSigils()[i];
        OrdinalAt(i);
        assert forall t :: Ordinal(t) < i ==> !Covers(t, c) by {
          forall t | Ordinal(t) < i ensures !Covers(t, c) {
            assert AllSigils()[Ordinal(t)] == t;
          }
        }
        Ok(s)
      case None =>
        assert forall t :: !Covers(t, c) by {
          forall t ensures !Covers(t, c) {
            assert AllSigils()[Ordinal(t)] == t;
          }
        }
        Err(UnsupportedType)
  }

  /** `forType` characterised without the scan: a sigil that covers the
      class, with no earlier sigil covering it, is the one returned. */
  lemma {:induction false} ForTypeIsFirstCover(c: JavaClass, s: Sigil)
    requires Covers(s, c)
    requires forall t :: Ordinal(t) < Ordinal(s) ==> !Covers(t, c)
    ensures ForType(Some(c)) == Ok(s)
  {
    var r := ForType(Some(c));
    assert r.Ok?;
    assert Ordinal(r.value) == Ordinal(s);
    assert r.value == AllSigils()[Ordinal(s)];
  }

  /** A boxed Integer is an integer. */
  lemma ForTypeInteger()
    ensures ForType(Some(IntegerClass)) == Ok(Integer)
  {
    assert IntegerClass in Types(Integer);
    ForTypeIsFirstCover(IntegerClass, Integer);
  }

  /** A Long, Double or Short is real: they are Numbers, which `Real` lists. */
  lemma ForTypeOtherNumbers(c: JavaClass)
    requires c == LongClass || c == DoubleClass || c == ShortClass
    ensures ForType(Some(c)) == Ok(Real)
  {
    assert NumberClass in Types(Real);
    assert forall t :: Ordinal(t) < Ordinal(Real) ==> t == Integer;
    ForTypeIsFirstCover(c, Real);
  }

  /** A duration is a temporal amount, not a temporal. */
  lemma ForTypeDuration()
    ensures ForType(Some(DurationValueClass)) == Ok(TemporalAmount)
  {
    assert TemporalAmountClass in Types(TemporalAmount);
    ForTypeIsFirstCover(DurationValueClass, TemporalAmount);
  }

  /** Every java.time class is temporal: no earlier sigil lists `Temporal`
      or a supertype of it. */
  lemma ForTypeTemporal(c: JavaClass)
    requires IsTemporalKind(c)
    ensures ForType(Some(c)) == Ok(Time)
  {
    assert TemporalClass in Types(Time);
    forall t | Ordinal(t) < Ordinal(Time) ensures !Covers(t, c) {
      if t == Real {
        assert Types(Real)[1..][1..][1..] == [];
      }
    }
    ForTypeIsFirstCover(c, Time);
  }

  /** A Neo4j point value is spatial. */
  lemma ForTypePointValue()
    ensures ForType(Some(PointValueClass)) == Ok(Spatial)
  {
    assert PointClass in Types(Spatial);
    ForTypeIsFirstCover(PointValueClass, Spatial);
  }

  /** No sigil lists `Object`, `Label` or a primitive type. */
  lemma TypesListed(t: Sigil, u: JavaClass)
    requires u in Types(t)
    ensures u != ObjectClass && u != LabelClass && !IsPrimitive(u)
  {
  }

  /** A class outside every sigil's list, such as `Object`, a primitive `int`
      or a `Label`, has no sigil. */
  lemma ForTypeUncovered(c: JavaClass)
    requires c == ObjectClass || c == LabelClass || IsPrimitive(c)
    ensures ForType(Some(c)) == Err(UnsupportedType)
  {
    forall t ensures !Covers(t, c) {
      AnyAssignableIff(Types(t), c);
      forall u | u in Types(t) ensures !IsAssignableFrom(u, c) {
        TypesListed(t, u);
      }
    }
  }
}

=== FILE: stddeser.dfy ===
/** The strict struct decoder shared by every Jolt deserializer, and the
    real-number deserializer built on it.

    The decoder is a small state machine over the token stream: the current
    token must start a struct; the next one must be a field name, which,
    trimmed, must be the literal of the deserializer's own sigil; the token
    after it is the payload and, unless the deserializer lifts the
    restriction, must be a string; the payload is converted by the
    deserializer's own step; and the token after the converted payload must
    end a struct.

    A stream is the tokens from the parser's current token onwards; a step
    returns its value and the tokens after the last one it consumed.
 */
module StdDeser {
  import opened Results
  import opened Numerals
  import opened JavaText
  import opened Json
  import opened Tokens
  import opened Graph
  import opened Sigils
  import TypeIds
  import Numbers

  /** A deserializer's own conversion step (`deserializeImpl`), started with
      the payload as the current token. */
  type Step<T> = seq<Token> -> Result<(T, seq<Token>)>

  /** `getSigilFromStruct`, with the struct start as the current token: the
      next token's field name, trimmed, looked up as a sigil literal. A
      missing field name is the `NullPointerException` of `null.trim()`. */
  function SigilFromStruct(toks: seq<Token>): (r: Result<Sigil>)
    ensures r.Ok? ==> |toks| >= 2 && toks[1].FieldName? && Literal(r.value) == Trim(toks[1].name)
    ensures (|toks| < 2 || !toks[1].FieldName?) ==> r == Err(NullPointer)
    ensures |toks| >= 2 && toks[1].FieldName? && r.Err? ==>
      r.error == UnsupportedNamedDatatype(Trim(toks[1].name)) && forall s :: Literal(s) != Trim(toks[1].name)
  {
    if |toks| < 2 || !toks[1].FieldName? then Err(NullPointer)
    else
      var literal := Trim(toks[1].name);
      match OfLiteral(literal)
      case Ok(s) => Ok(s)
      case Err(_) => Err(UnsupportedNamedDatatype(literal))
  }

  /** `JsonParser.getText` of a token: the string, the field name, the
      number's decimal text, or the structural character. */
  function Text(t: Token): (r: string)
    ensures t.Str? ==> r == t.text
    ensures t.FieldName? ==> r == t.name
  {
    match t
    case StartObject => "{"
    case EndObject => "}"
    case StartArray => "["
    case EndArray => "]"
    case FieldName(n) => n
    case Str(s) => s
    case Num(n) => LongToString(n)
  }

  /** `getValueAsString`: the current token's text trimmed, the empty string
      when there is no current token; a blank result is refused only when the
      target class is primitive. */
  function ValueAsString(current: Option<Token>, primitive: bool): (r: Result<string>)
    ensures current.None? && !primitive ==> r == Ok("")
    ensures r.Err? <==> primitive && IsBlank(if current.None? then "" else Trim(Text(current.value)))
    ensures r.Err? ==> r.error == NullOrBlank
    ensures r.Ok? && current.Some? ==> r.value == Trim(Text(current.value))
    ensures r.Ok? ==> r.value == [] || (!IsTrimmable(r.value[0]) && !IsTrimmable(r.value[|r.value| - 1]))
  {
    var valueAsString := if current.None? then "" else Trim(Text(current.value));
    if primitive && IsBlank(valueAsString) then Err(NullOrBlank) else Ok(valueAsString)
  }

  /** The current token of a stream, if any. */
  function Current(toks: seq<Token>): Option<Token> {
    if |toks| == 0 then None else Some(toks[0])
  }

  /** The stream after the current token (`nextToken`). */
  function Next(toks: seq<Token>): seq<Token> {
    if |toks| == 0 then [] else toks[1..]
  }

  /** `JoltStdDeserializer.deserialize` for a deserializer of sigil `own`
      whose payload must be a string when `stringsOnly` holds and which
      converts it with `step`. */
  function Deserialize<T>(own: Sigil, stringsOnly: bool, step: Step<T>, toks: seq<Token>): (r: Result<(T, seq<Token>)>)
    ensures |toks| == 0 ==> r == Err(NullPointer)
    ensures |toks| > 0 && !IsStructStart(toks[0]) ==> r == Err(NotCompatibleWithJolt)
    ensures r.Ok? ==> |toks| >= 2 && IsStructStart(toks[0]) && toks[1].FieldName? && Trim(toks[1].name) == Literal(own)
    ensures r.Ok? && stringsOnly ==> |toks| >= 3 && toks[2].Str?
    ensures r.Ok? ==> step(toks[2..]).Ok? && r.value.0 == step(toks[2..]).value.0
    ensures r.Ok? ==> |step(toks[2..]).value.1| > 0 && IsStructEnd(step(toks[2..]).value.1[0])
    ensures r.Ok? ==> r.value.1 == step(toks[2..]).value.1[1..]
  {
    if |toks| == 0 then Err(NullPointer)
    else if !IsStructStart(toks[0]) then Err(NotCompatibleWithJolt)
    else
      var found :- SigilFromStruct(toks);
      if found != own then Err(SigilMismatch(Literal(found), Literal(own)))
      else
        var payload := toks[2..];
        if stringsOnly && (|payload| == 0 || !payload[0].Str?) then Err(OnlyStringValues)
        else
          Close(step(payload))
  }

  /** The decoder's last state: after the conversion the next token must end
      the struct (a missing token is the `NullPointerException` of
      `nextToken().isStructEnd()`). */
  function Close<T>(converted: Result<(T, seq<Token>)>): (r: Result<(T, seq<Token>)>)
    ensures r.Ok? <==> converted.Ok? && |converted.value.1| > 0 && IsStructEnd(converted.value.1[0])
    ensures r.Ok? ==> r.value == (converted.value.0, converted.value.1[1..])
    ensures converted.Err? ==> r == converted
  {
    match converted
    case Err(e) => Err(e)
    case Ok((v, after)) =>
      if |after| == 0 then Err(NullPointer)
      else if !IsStructEnd(after[0]) then Err(DanglingData)
      else Ok((v, after[1..]))
  }

  /** Once the struct start, the tag and (under the string restriction) the
      payload's shape have been accepted, the outcome is the conversion's,
      closed. */
  lemma DeserializeAccepted<T>(own: Sigil, stringsOnly: bool, step: Step<T>, toks: seq<Token>)
    requires |toks| >= 2 && IsStructStart(toks[0]) && toks[1].FieldName? && Trim(toks[1].name) == Literal(own)
    requires stringsOnly ==> |toks| >= 3 && toks[2].Str?
    ensures Deserialize(own, stringsOnly, step, toks) == Close(step(toks[2..]))
  {
    OfLiteralOfLiteral(own);
    assert SigilFromStruct(toks) == Ok(own);
  }

  /** A tag that is some other sigil's literal is refused, naming both. */
  lemma DeserializeWrongSigil<T>(own: Sigil, stringsOnly: bool, step: Step<T>, toks: seq<Token>, found: Sigil)
    requires |toks| >= 2 && IsStructStart(toks[0]) && toks[1] == FieldName(Literal(found))
    requires found != own
    ensures Deserialize(own, stringsOnly, step, toks) == Err(SigilMismatch(Literal(found), Literal(own)))
  {
    TrimUntrimmed(Literal(found));
    OfLiteralOfLiteral(found);
  }

  /** A tag that is no sigil's literal, after trimming, is refused as an
      unsupported named datatype. */
  lemma DeserializeUnknownTag<T>(own: Sigil, stringsOnly: bool, step: Step<T>, toks: seq<Token>)
    requires |toks| >= 2 && IsStructStart(toks[0]) && toks[1].FieldName?
    requires forall s :: Literal(s) != Trim(toks[1].name)
    ensures Deserialize(own, stringsOnly, step, toks) == Err(UnsupportedNamedDatatype(Trim(toks[1].name)))
  {
  }

  /** With the string restriction on, a payload that is not a string (or is
      missing) is refused before the step runs. */
  lemma DeserializeNonStringPayload<T>(own: Sigil, step: Step<T>, toks: seq<Token>)
    requires |toks| >= 2 && IsStructStart(toks[0]) && toks[1].FieldName? && Trim(toks[1].name) == Literal(own)
    requires |toks| == 2 || !toks[2].Str?
    ensures Deserialize(own, true, step, toks) == Err(OnlyStringValues)
  {
    OfLiteralOfLiteral(own);
    assert SigilFromStruct(toks) == Ok(own);
  }

  /** Whatever follows the converted payload, if it does not close the
      struct, is dangling data. */
  lemma DeserializeDangling<T>(own: Sigil, stringsOnly: bool, step: Step<T>, toks: seq<Token>)
    requires |toks| >= 3 && IsStructStart(toks[0]) && toks[1].FieldName? && Trim(toks[1].name) == Literal(own)
    requires stringsOnly ==> toks[2].Str?
    requires step(toks[2..]).Ok? && |step(toks[2..]).value.1| > 0
    requires !IsStructEnd(step(toks[2..]).value.1[0])
    ensures Deserialize(own, stringsOnly, step, toks) == Err(DanglingData)
  {
    DeserializeAccepted(own, stringsOnly, step, toks);
  }

  /** The round trip of a one-member wrapper object: when the step reads the
      value's tokens back as `v`, the decoder yields exactly `v`, whatever
      whitespace surrounds the tag, and leaves the stream after the closing
      brace. */
  lemma DeserializeWrapped<T>(own: Sigil, stringsOnly: bool, step: Step<T>, tag: string, value: seq<Token>, v: T, tail: seq<Token>)
    requires Trim(tag) == Literal(own)
    requires stringsOnly ==> |value| > 0 && value[0].Str?
    requires step(value + ([EndObject] + tail)) == Ok((v, [EndObject] + tail))
    ensures Deserialize(own, stringsOnly, step, Wrap(tag, value) + tail) == Ok((v, tail))
  {
    WrapParts(tag, value, tail);
    DeserializeAccepted(own, stringsOnly, step, Wrap(tag, value) + tail);
  }

  /** `JoltRealDeserializer.deserializeImpl`: the trimmed payload text as a
      Long when `Long.parseLong` accepts it, otherwise as a Double when
      `Double.parseDouble` (the parameter, answering the double's text or
      `None` for a NumberFormatException) accepts it. */
  function RealStep(parseDouble: string -> Option<string>, payload: seq<Token>): (r: Result<(Value, seq<Token>)>)
    ensures r.Ok? ==> r.value.1 == Next(payload)
    ensures r.Ok? ==> r.value.0.LongValue? || r.value.0.DoubleValue?
    ensures r.Ok? && r.value.0.LongValue? ==> ParseLong(ValueAsString(Current(payload), false).value) == Ok(r.value.0.l)
    ensures r.Ok? && r.value.0.DoubleValue? ==>
      && ParseLong(ValueAsString(Current(payload), false).value).Err?
      && parseDouble(ValueAsString(Current(payload), false).value) == Some(r.value.0.literal)
    ensures r.Err? ==>
      && ParseLong(ValueAsString(Current(payload), false).value).Err?
      && parseDouble(ValueAsString(Current(payload), false).value).None?
      && r.error == NumberFormat(ValueAsString(Current(payload), false).value)
  {
    var text := ValueAsString(Current(payload), false).value;
    match ParseLong(text)
    case Ok(l) => Ok((LongValue(l), Next(payload)))
    case Err(_) =>
      match parseDouble(text)
      case Some(d) => Ok((DoubleValue(d), Next(payload)))
      case None => Err(NumberFormat(text))
  }

  /** `JoltRealDeserializer`: sigil `R`, string payloads only. */
  function RealDeserialize(parseDouble: string -> Option<string>, toks: seq<Token>): (r: Result<(Value, seq<Token>)>)
    ensures r.Ok? ==> |toks| >= 3 && toks[1].FieldName? && Trim(toks[1].name) == "R" && toks[2].Str?
    ensures r.Ok? ==> r.value.0.LongValue? || r.value.0.DoubleValue?
  {
    Deserialize(Real, true, RealStepOf(parseDouble), toks)
  }

  /** The real step as the function value the decoder is given. */
  function RealStepOf(parseDouble: string -> Option<string>): (step: Step<Value>)
    ensures forall payload :: step(payload) == RealStep(parseDouble, payload)
  {
    p => RealStep(parseDouble, p)
  }

  /** No sigil literal has anything for `trim` to remove. */
  lemma LiteralUntrimmed(s: Sigil)
    ensures Trim(Literal(s)) == Literal(s)
  {
    TrimUntrimmed(Literal(s));
  }

  /** The decimal text of a long has nothing for `trim` to remove. */
  lemma LongTextUntrimmed(v: int)
    ensures Trim(LongToString(v)) == LongToString(v)
  {
    var s := LongToString(v);
    var d := if v < 0 then s[1..] else s;
    assert |d| > 0 && IsDigit(d[|d| - 1]) by {
      assert IsCanonicalDigits(d);
    }
    assert s[|s| - 1] == d[|d| - 1];
    TrimUntrimmed(s);
  }

  /** The real step reads the decimal text of a long back as that long. */
  lemma RealStepOfLongText(parseDouble: string -> Option<string>, v: Int64, rest: seq<Token>)
    ensures RealStep(parseDouble, [Str(LongToString(v))] + rest) == Ok((LongValue(v), rest))
  {
    var payload := [Str(LongToString(v))] + rest;
    assert ValueAsString(Current(payload), false) == Ok(LongToString(v)) by {
      LongTextUntrimmed(v);
    }
    ParseLongOfLongToString(v);
    assert Next(payload) == rest;
  }

  /** The real step falls back to the double parse for a text the long
      parse refuses. */
  lemma RealStepOfDoubleText(parseDouble: string -> Option<string>, text: string, d: string, rest: seq<Token>)
    requires ParseLong(Trim(text)).Err? && parseDouble(Trim(text)) == Some(d)
    ensures RealStep(parseDouble, [Str(text)] + rest) == Ok((DoubleValue(d), rest))
  {
    var payload := [Str(text)] + rest;
    assert ValueAsString(Current(payload), false) == Ok(Trim(text));
    assert Next(payload) == rest;
  }

  /** The real step fails on a text neither parse accepts. */
  lemma RealStepRefuses(parseDouble: string -> Option<string>, text: string, rest: seq<Token>)
    requires ParseLong(Trim(text)).Err? && parseDouble(Trim(text)).None?
    ensures RealStep(parseDouble, [Str(text)] + rest) == Err(NumberFormat(Trim(text)))
  {
    assert ValueAsString(Current([Str(text)] + rest), false) == Ok(Trim(text));
  }

  /** The decimal text of any long under `R` is read back as that long. */
  lemma RealReadsLongText(parseDouble: string -> Option<string>, v: Int64, tail: seq<Token>)
    ensures RealDeserialize(parseDouble, Wrap("R", [Str(LongToString(v))]) + tail) == Ok((LongValue(v), tail))
  {
    RealStepOfLongText(parseDouble, v, [EndObject] + tail);
    LiteralUntrimmed(Real);
    DeserializeWrapped(Real, true, RealStepOf(parseDouble), "R", [Str(LongToString(v))], LongValue(v), tail);
  }

  /** A long outside the integer tag's range, as the strict long serializer
      writes it under `R`, is read back by the real deserializer as the same
      long. */
  lemma RealReadsStrictLong(parseDouble: string -> Option<string>, v: Int64, tail: seq<Token>)
    requires !TypeIds.FitsIntegerTag(v)
    ensures RealDeserialize(parseDouble, Numbers.LongSerialize(v) + tail) == Ok((LongValue(v), tail))
  {
    assert Numbers.LongSerialize(v) == Wrap("R", [Str(LongToString(v))]);
    RealReadsLongText(parseDouble, v, tail);
  }

  /** A long inside the integer tag's range is written under `Z`, which the
      real deserializer refuses. */
  lemma RealRefusesIntegerTag(parseDouble: string -> Option<string>, v: Int64, tail: seq<Token>)
    requires TypeIds.FitsIntegerTag(v)
    ensures RealDeserialize(parseDouble, Numbers.LongSerialize(v) + tail) == Err(SigilMismatch("Z", "R"))
  {
    assert Numbers.LongSerialize(v) == Wrap(Literal(Integer), [Str(LongToString(v))]);
    WrapParts(Literal(Integer), [Str(LongToString(v))], tail);
    DeserializeWrongSigil(Real, true, RealStepOf(parseDouble), Numbers.LongSerialize(v) + tail, Integer);
  }

  /** A payload `Long.parseLong` refuses but `Double.parseDouble` accepts,
      such as "42.23", is read as a Double. */
  lemma RealReadsDouble(parseDouble: string -> Option<string>, text: string, d: string, tail: seq<Token>)
    requires ParseLong(Trim(text)).Err? && parseDouble(Trim(text)) == Some(d)
    ensures RealDeserialize(parseDouble, Wrap("R", [Str(text)]) + tail) == Ok((DoubleValue(d), tail))
  {
    RealStepOfDoubleText(parseDouble, text, d, [EndObject] + tail);
    LiteralUntrimmed(Real);
    DeserializeWrapped(Real, true, RealStepOf(parseDouble), "R", [Str(text)], DoubleValue(d), tail);
  }

  /** A payload neither parse accepts fails with the double parse's error. */
  lemma RealRefusesNonNumber(parseDouble: string -> Option<string>, text: string, tail: seq<Token>)
    requires ParseLong(Trim(text)).Err? && parseDouble(Trim(text)).None?
    ensures RealDeserialize(parseDouble, Wrap("R", [Str(text)]) + tail) == Err(NumberFormat(Trim(text)))
  {
    WrapParts("R", [Str(text)], tail);
    LiteralUntrimmed(Real);
    DeserializeAccepted(Real, true, RealStepOf(parseDouble), Wrap("R", [Str(text)]) + tail);
    RealStepRefuses(parseDouble, text, [EndObject] + tail);
  }

  /** "123" under `R` is the Long 123. */
  lemma RealReadsExample(parseDouble: string -> Option<string>)
    ensures RealDeserialize(parseDouble, Wrap("R", [Str("123")])) == Ok((LongValue(123), []))
  {
    Numbers.LongSerializeExample();
    RealReadsLongText(parseDouble, 123, []);
    assert Wrap("R", [Str(LongToString(123))]) + [] == Wrap("R", [Str("123")]);
  }
}

=== FILE: tokens.dfy ===
/** The JSON token stream the codec writes and reads, standing for Jackson's
    `JsonGenerator` calls and `JsonParser` tokens, and the structural facts
    about it that the encoders' contracts are stated with.

    A parser position is represented by the tokens from the current one
    onwards; a generator's output is the sequence of tokens written.
 */
module Tokens {
  import opened Results
  import opened Json

  /** `JsonToken.isStructStart`: object or array start. */
  predicate IsStructStart(t: Token) {
    t.StartObject? || t.StartArray?
  }

  /** `JsonToken.isStructEnd`: object or array end. */
  predicate IsStructEnd(t: Token) {
    t.EndObject? || t.EndArray?
  }

  predicate IsScalar(t: Token) {
    t.Str? || t.Num?
  }

  /** Nesting change caused by one token. */
  function Delta(t: Token): int {
    if IsStructStart(t) then 1 else if IsStructEnd(t) then -1 else 0
  }

  /** Net nesting depth after a token sequence. */
  function Depth(ts: seq<Token>): int {
    if |ts| == 0 then 0 else Depth(ts[..|ts| - 1]) + Delta(ts[|ts| - 1])
  }

  /** Balanced: never closes more than it has opened, and ends at depth zero.
      A sequence of complete values and field names is level. */
  predicate Level(ts: seq<Token>) {
    Depth(ts) == 0 && forall k :: 0 <= k <= |ts| ==> Depth(ts[..k]) >= 0
  }

  /** Exactly one JSON value: a scalar token, or a bracketed group whose
      brackets balance for the first time at its last token. */
  predicate SingleValue(ts: seq<Token>) {
    || (|ts| == 1 && IsScalar(ts[0]))
    || (&& |ts| >= 2 && IsStructStart(ts[0]) && Depth(ts) == 0
        && forall k :: 1 <= k < |ts| ==> Depth(ts[..k]) > 0)
  }

  lemma DepthStep(s: seq<Token>, i: nat)
    requires i < |s|
    ensures Depth(s[..i + 1]) == Depth(s[..i]) + Delta(s[i])
  {
    assert s[..i + 1][..i] == s[..i];
  }

  lemma {:induction false} DepthAppend(a: seq<Token>, b: seq<Token>)
    ensures Depth(a + b) == Depth(a) + Depth(b)
    decreases |b|
  {
    if |b| == 0 {
      assert a + b == a;
    } else {
      var b' := b[..|b| - 1];
      assert (a + b)[..|a + b| - 1] == a + b';
      DepthAppend(a, b');
    }
  }

  lemma LevelAppend(a: seq<Token>, b: seq<Token>)
    requires Level(a) && Level(b)
    ensures Level(a + b)
  {
    DepthAppend(a, b);
    forall k | 0 <= k <= |a + b|
      ensures Depth((a + b)[..k]) >= 0
    {
      if k <= |a| {
        assert (a + b)[..k] == a[..k];
      } else {
        assert (a + b)[..k] == a + b[..k - |a|];
        DepthAppend(a, b[..k - |a|]);
      }
    }
  }

  lemma SingleValueIsLevel(v: seq<Token>)
    requires SingleValue(v)
    ensures Level(v)
  {
    if |v| == 1 {
      assert v[..0] == [] && v[..1] == v;
      assert Depth(v) == Depth(v[..0]) + Delta(v[0]);
    } else {
      assert v[..|v|] == v;
    }
  }

  lemma FieldNameIsLevel(k: string)
    ensures Level([FieldName(k)])
  {
    var f := [FieldName(k)];
    assert f[..0] == [] && f[..1] == f;
    assert Depth(f) == Depth(f[..0]) + Delta(f[0]);
  }

  /** An opening token, a level body and a closing token make one value. */
  lemma Bracketed(open: Token, body: seq<Token>, close: Token)
    requires IsStructStart(open) && IsStructEnd(close) && Level(body)
    ensures SingleValue([open] + body + [close])
  {
    var v := [open] + body + [close];
    DepthAppend([open], body);
    DepthAppend([open] + body, [close]);
    assert Depth([open]) == 1 by { assert [open][..0] == []; }
    assert Depth([close]) == -1 by { assert [close][..0] == []; }
    forall k | 1 <= k < |v|
      ensures Depth(v[..k]) > 0
    {
      assert v[..k] == [open] + body[..k - 1];
      DepthAppend([open], body[..k - 1]);
    }
  }

  /** The wrapper-object form of a tagged value: an object whose one member
      is the tag and the value's tokens. */
  function Wrap(tag: string, value: seq<Token>): (r: seq<Token>)
    ensures |r| == |value| + 3
  {
    [StartObject, FieldName(tag)] + value + [EndObject]
  }

  /** Reading into a wrapped value followed by more tokens: the struct start,
      the tag, then the value with the closing brace and the rest after it. */
  lemma WrapParts(tag: string, value: seq<Token>, tail: seq<Token>)
    ensures |Wrap(tag, value) + tail| >= 3
    ensures (Wrap(tag, value) + tail)[0] == StartObject
    ensures (Wrap(tag, value) + tail)[1] == FieldName(tag)
    ensures (Wrap(tag, value) + tail)[2..] == value + ([EndObject] + tail)
    ensures ([EndObject] + tail)[1..] == tail
  {
    var w := Wrap(tag, value) + tail;
    assert w == [StartObject, FieldName(tag)] + (value + ([EndObject] + tail));
  }

  /** A wrapped single value is a single value. */
  lemma WrapIsSingle(tag: string, value: seq<Token>)
    requires SingleValue(value)
    ensures SingleValue(Wrap(tag, value))
  {
    SingleValueIsLevel(value);
    FieldNameIsLevel(tag);
    LevelAppend([FieldName(tag)], value);
    assert [StartObject, FieldName(tag)] + value == [StartObject] + ([FieldName(tag)] + value);
    Bracketed(StartObject, [FieldName(tag)] + value, EndObject);
  }

  /** Every item's output is a single value. */
  predicate AllSingle<X>(xs: seq<X>, write: X -> seq<Token>) {
    forall i :: 0 <= i < |xs| ==> SingleValue(write(xs[i]))
  }

  /** Every entry's value output is a single value. */
  predicate AllSingleEntries<X>(es: seq<(string, X)>, write: X -> seq<Token>) {
    forall i :: 0 <= i < |es| ==> SingleValue(write(es[i].1))
  }

  /** The outputs of `write` for each item, concatenated in order (a
      `for (var x : xs) generator.writeObject(x)` loop). */
  function WriteAll<X>(xs: seq<X>, write: X -> seq<Token>): seq<Token>
  {
    if |xs| == 0 then [] else write(xs[0]) + WriteAll(xs[1..], write)
  }

  /** Each entry as its key as field name followed by `write` of its value,
      concatenated in order (a loop over `entrySet()`). */
  function WriteEntries<X>(es: seq<(string, X)>, write: X -> seq<Token>): seq<Token>
  {
    if |es| == 0 then [] else [FieldName(es[0].0)] + write(es[0].1) + WriteEntries(es[1..], write)
  }

  /** The per-item outputs of `write`, kept apart. */
  function Written<X>(xs: seq<X>, write: X -> seq<Token>): (r: seq<seq<Token>>)
    ensures |r| == |xs|
  {
    seq(|xs|, i requires 0 <= i < |xs| => write(xs[i]))
  }

  /** The keys with the per-value outputs of `write`, kept apart. */
  function WrittenEntries<X>(es: seq<(string, X)>, write: X -> seq<Token>): (r: seq<(string, seq<Token>)>)
    ensures |r| == |es|
  {
    seq(|es|, i requires 0 <= i < |es| => (es[i].0, write(es[i].1)))
  }

  lemma {:induction false} WriteAllIsLevel<X>(xs: seq<X>, write: X -> seq<Token>)
    requires AllSingle(xs, write)
    ensures Level(WriteAll(xs, write))
    decreases |xs|
  {
    if |xs| == 0 {
      var e := WriteAll(xs, write);
      assert e == [] && e[..0] == e;
    } else {
      SingleValueIsLevel(write(xs[0]));
      assert AllSingle(xs[1..], write) by {
        forall i | 0 <= i < |xs[1..]| ensures SingleValue(write(xs[1..][i])) {
          assert xs[1..][i] == xs[i + 1];
        }
      }
      WriteAllIsLevel(xs[1..], write);
      LevelAppend(write(xs[0]), WriteAll(xs[1..], write));
    }
  }

  lemma {:induction false} WriteEntriesIsLevel<X>(es: seq<(string, X)>, write: X -> seq<Token>)
    requires AllSingleEntries(es, write)
    ensures Level(WriteEntries(es, write))
    decreases |es|
  {
    if |es| == 0 {
      var e := WriteEntries(es, write);
      assert e == [] && e[..0] == e;
    } else {
      FieldNameIsLevel(es[0].0);
      SingleValueIsLevel(write(es[0].1));
      LevelAppend([FieldName(es[0].0)], write(es[0].1));
      assert AllSingleEntries(es[1..], write) by {
        forall i | 0 <= i < |es[1..]| ensures SingleValue(write(es[1..][i].1)) {
          assert es[1..][i] == es[i + 1];
        }
      }
      WriteEntriesIsLevel(es[1..], write);
      LevelAppend([FieldName(es[0].0)] + write(es[0].1), WriteEntries(es[1..], write));
    }
  }

  /** Index just past the token at which the running depth, `d` after the
      first `i` tokens, first returns to zero. */
  function CloseIndex(ts: seq<Token>, i: nat, d: int): (r: Option<nat>)
    ensures r.Some? ==> i < r.value <= |ts|
    decreases |ts| - i
  {
    if i >= |ts| then None
    else if d + Delta(ts[i]) == 0 then Some(i + 1)
    else CloseIndex(ts, i + 1, d + Delta(ts[i]))
  }

  /** Length of the value at the head of `ts`, found by bracket counting. */
  function ValueLength(ts: seq<Token>): (r: Option<nat>)
    ensures r.Some? ==> 1 <= r.value <= |ts|
  {
    if |ts| == 0 then None
    else if IsScalar(ts[0]) then Some(1)
    else if IsStructStart(ts[0]) then CloseIndex(ts, 1, 1)
    else None
  }

  lemma {:induction false} CloseIndexFinds(v: seq<Token>, rest: seq<Token>, i: nat)
    requires SingleValue(v) && |v| >= 2 && 1 <= i < |v|
    ensures CloseIndex(v + rest, i, Depth(v[..i])) == Some(|v|)
    decreases |v| - i
  {
    assert (v + rest)[i] == v[i];
    DepthStep(v, i);
    if i + 1 < |v| {
      CloseIndexFinds(v, rest, i + 1);
    } else {
      assert v[..i + 1] == v;
    }
  }

  /** Bracket counting finds exactly the end of a single value, whatever follows it. */
  lemma ValueLengthOfSingle(v: seq<Token>, rest: seq<Token>)
    requires SingleValue(v)
    ensures ValueLength(v + rest) == Some(|v|)
  {
    if |v| >= 2 {
      assert (v + rest)[0] == v[0];
      assert Depth(v[..1]) == 1 by {
        DepthStep(v, 0);
        assert v[..0] == [];
      }
      CloseIndexFinds(v, rest, 1);
    }
  }

  /** Splits the items of an array body up to its closing token, returning the
      items' token groups and the tokens after the close. */
  function SplitItems(ts: seq<Token>): Option<(seq<seq<Token>>, seq<Token>)>
    decreases |ts|
  {
    if |ts| == 0 then None
    else if ts[0] == EndArray then Some(([], ts[1..]))
    else match ValueLength(ts)
      case None => None
      case Some(n) =>
        match SplitItems(ts[n..])
        case None => None
        case Some(res) => Some(([ts[..n]] + res.0, res.1))
  }

  /** Splits the members of an object body up to its closing token, returning
      each field name with its value's tokens, and the tokens after the close. */
  function SplitMembers(ts: seq<Token>): Option<(seq<(string, seq<Token>)>, seq<Token>)>
    decreases |ts|
  {
    if |ts| == 0 then None
    else if ts[0] == EndObject then Some(([], ts[1..]))
    else if !ts[0].FieldName? then None
    else match ValueLength(ts[1..])
      case None => None
      case Some(n) =>
        match SplitMembers(ts[1 + n..])
        case None => None
        case Some(res) => Some(([(ts[0].name, ts[1..1 + n])] + res.0, res.1))
  }

  /** One step of `SplitItems`: a single value at the head is split off and
      the rest is split on its own. */
  lemma SplitItemsCons(v: seq<Token>, rest: seq<Token>)
    requires SingleValue(v)
    ensures SplitItems(v + rest) ==
      match SplitItems(rest)
      case None => None
      case Some(res) => Some(([v] + res.0, res.1))
  {
    var ts := v + rest;
    ValueLengthOfSingle(v, rest);
    assert ts[0] == v[0];
    assert ts[|v|..] == rest;
    assert ts[..|v|] == v;
  }

  /** One step of `SplitMembers`: a field name and the single value after it
      are split off and the rest is split on its own. */
  lemma SplitMembersCons(k: string, v: seq<Token>, rest: seq<Token>)
    requires SingleValue(v)
    ensures SplitMembers([FieldName(k)] + v + rest) ==
      match SplitMembers(rest)
      case None => None
      case Some(res) => Some(([(k, v)] + res.0, res.1))
  {
    var ts := [FieldName(k)] + v + rest;
    assert ts[1..] == v + rest;
    ValueLengthOfSingle(v, rest);
    assert ts[1 + |v|..] == rest;
    assert ts[1..1 + |v|] == v;
  }

  /** The tail of a sequence of single-valued items is single-valued too. */
  lemma AllSingleTail<X>(xs: seq<X>, write: X -> seq<Token>)
    requires |xs| > 0 && AllSingle(xs, write)
    ensures SingleValue(write(xs[0])) && AllSingle(xs[1..], write)
  {
    forall i | 0 <= i < |xs[1..]| ensures SingleValue(write(xs[1..][i])) {
      assert xs[1..][i] == xs[i + 1];
    }
  }

  /** The tail of a sequence of single-valued entries is single-valued too. */
  lemma AllSingleEntriesTail<X>(es: seq<(string, X)>, write: X -> seq<Token>)
    requires |es| > 0 && AllSingleEntries(es, write)
    ensures SingleValue(write(es[0].1)) && AllSingleEntries(es[1..], write)
  {
    forall i | 0 <= i < |es[1..]| ensures SingleValue(write(es[1..][i].1)) {
      assert es[1..][i] == es[i + 1];
    }
  }

  /** `WriteAll` peels off the first item. */
  lemma WriteAllCons<X>(xs: seq<X>, write: X -> seq<Token>, close: Token, tail: seq<Token>)
    requires |xs| > 0
    ensures WriteAll(xs, write) + [close] + tail == write(xs[0]) + (WriteAll(xs[1..], write) + [close] + tail)
  {
    var w, r := write(xs[0]), WriteAll(xs[1..], write);
    assert WriteAll(xs, write) == w + r;
    assert (w + r) + [close] + tail == w + (r + [close] + tail);
  }

  /** `Written` peels off the first item. */
  lemma WrittenCons<X>(xs: seq<X>, write: X -> seq<Token>)
    requires |xs| > 0
    ensures Written(xs, write) == [write(xs[0])] + Written(xs[1..], write)
  {
    var a, b := Written(xs, write), [write(xs[0])] + Written(xs[1..], write);
    forall i | 0 <= i < |a| ensures a[i] == b[i] {
      if i > 0 {
        assert xs[1..][i - 1] == xs[i];
      }
    }
  }

  /** `WriteEntries` peels off the first entry. */
  lemma WriteEntriesCons<X>(es: seq<(string, X)>, write: X -> seq<Token>, close: Token, tail: seq<Token>)
    requires |es| > 0
    ensures WriteEntries(es, write) + [close] + tail
         == [FieldName(es[0].0)] + write(es[0].1) + (WriteEntries(es[1..], write) + [close] + tail)
  {
    var f, w, r := [FieldName(es[0].0)], write(es[0].1), WriteEntries(es[1..], write);
    assert WriteEntries(es, write) == f + w + r;
    assert (f + w + r) + [close] + tail == f + w + (r + [close] + tail);
  }

  /** `WrittenEntries` peels off the first entry. */
  lemma WrittenEntriesCons<X>(es: seq<(string, X)>, write: X -> seq<Token>)
    requires |es| > 0
    ensures WrittenEntries(es, write) == [(es[0].0, write(es[0].1))] + WrittenEntries(es[1..], write)
  {
    var a, b := WrittenEntries(es, write), [(es[0].0, write(es[0].1))] + WrittenEntries(es[1..], write);
    forall i | 0 <= i < |a| ensures a[i] == b[i] {
      if i > 0 {
        assert es[1..][i - 1] == es[i];
      }
    }
  }

  /** Whatever follows, the items written by `WriteAll` are split back apart
      one group per item, in order. */
  lemma {:induction false} SplitItemsOfWriteAll<X>(xs: seq<X>, write: X -> seq<Token>, tail: seq<Token>)
    requires AllSingle(xs, write)
    ensures SplitItems(WriteAll(xs, write) + [EndArray] + tail) == Some((Written(xs, write), tail))
    decreases |xs|
  {
    if |xs| == 0 {
      var ts := WriteAll(xs, write) + [EndArray] + tail;
      assert ts == [EndArray] + tail;
      assert ts[1..] == tail;
    } else {
      AllSingleTail(xs, write);
      SplitItemsOfWriteAll(xs[1..], write, tail);
      WriteAllCons(xs, write, EndArray, tail);
      WrittenCons(xs, write);
      SplitItemsCons(write(xs[0]), WriteAll(xs[1..], write) + [EndArray] + tail);
    }
  }

  /** Whatever follows, the members written by `WriteEntries` are split back
      into the same keys, each with its own value's tokens, in order. */
  lemma {:induction false} SplitMembersOfWriteEntries<X>(es: seq<(string, X)>, write: X -> seq<Token>, tail: seq<Token>)
    requires AllSingleEntries(es, write)
    ensures SplitMembers(WriteEntries(es, write) + [EndObject] + tail) == Some((WrittenEntries(es, write), tail))
    decreases |es|
  {
    if |es| == 0 {
      var ts := WriteEntries(es, write) + [EndObject] + tail;
      assert ts == [EndObject] + tail;
      assert ts[1..] == tail;
    } else {
      AllSingleEntriesTail(es, write);
      SplitMembersOfWriteEntries(es[1..], write, tail);
      WriteEntriesCons(es, write, EndObject, tail);
      WrittenEntriesCons(es, write);
      SplitMembersCons(es[0].0, write(es[0].1), WriteEntries(es[1..], write) + [EndObject] + tail);
    }
  }
}

=== FILE: typeids.dfy ===
/** The type-id resolver: which tag a value is written under, and which Java
    type a tag read back resolves to.
 */
module TypeIds {
  import opened Results
  import opened Numerals
  import opened JavaTypes
  import opened Graph
  import Sigils

  /** A long that fits the compact integer tag: at least `Integer.MIN_VALUE`
      and strictly below `Integer.MAX_VALUE`. */
  predicate FitsIntegerTag(l: int) {
    MIN_INT <= l < MAX_INT
  }

  /** The sigil whose literal is written for a value found under sigil `s`:
      a fitting long under the real sigil is demoted to the integer one, a
      temporal amount is aliased to the temporal one, any other sigil stays. */
  function WrittenSigil(s: Sigils.Sigil, v: Value): (w: Sigils.Sigil)
    ensures w == Sigils.Integer <==> s == Sigils.Integer || (s == Sigils.Real && v.LongValue? && FitsIntegerTag(v.l))
    ensures w == Sigils.Time <==> s == Sigils.Time || s == Sigils.TemporalAmount
    ensures w != Sigils.Integer && w != Sigils.Time ==> w == s
  {
    if s == Sigils.Real && v.LongValue? && FitsIntegerTag(v.l) then Sigils.Integer
    else if s == Sigils.TemporalAmount then Sigils.Time
    else s
  }

  /** `checkForLongForRealz`: the literal of the written sigil. */
  function CheckForLongForRealz(s: Sigils.Sigil, v: Value): (r: string)
    ensures r == Sigils.Literal(WrittenSigil(s, v))
  {
    if s == Sigils.Real && v.LongValue? && FitsIntegerTag(v.l) then Sigils.Literal(Sigils.Integer)
    else Sigils.AliasedLiteral(s)
  }

  /** `idFromValue`: the empty tag for null, otherwise the tag of the first
      sigil covering the value's class; fails when no sigil covers it. */
  function IdFromValue(v: Value): (r: Result<string>)
    ensures v.NullValue? ==> r == Ok("")
    ensures r.Err? <==> !v.NullValue? && Sigils.ForType(ClassOf(v)).Err?
    ensures r.Err? ==> r.error == UnsupportedType
    ensures r.Ok? && !v.NullValue? ==> r.value == Sigils.Literal(WrittenSigil(Sigils.ForType(ClassOf(v)).value, v))
  {
    if v.NullValue? then Ok(Sigils.Literal(Sigils.Null))
    else
      var s :- Sigils.ForType(ClassOf(v));
      Ok(CheckForLongForRealz(s, v))
  }

  /** `idFromValueAndType`: as `idFromValue`, but looking up the suggested
      type instead of the value's class when one is given. */
  function IdFromValueAndType(v: Value, suggested: Option<JavaClass>): (r: Result<string>)
    ensures suggested.None? ==> r == IdFromValue(v)
    ensures suggested.Some? ==> (r.Err? <==> Sigils.ForType(suggested).Err?)
    ensures suggested.Some? && r.Ok? ==> r.value == Sigils.Literal(WrittenSigil(Sigils.ForType(suggested).value, v))
  {
    match suggested
    case None => IdFromValue(v)
    case Some(_) =>
      var s :- Sigils.ForType(suggested);
      Ok(CheckForLongForRealz(s, v))
  }

  /** `typeFromId`: the real tag resolves to `Number`, the temporal tag to
      `Temporal`, every other tag to the first type its sigil lists; a string
      that is no sigil's literal fails. */
  function TypeFromId(id: string): (r: Result<JavaClass>)
    ensures r.Err? <==> Sigils.OfLiteral(id).Err?
    ensures r.Err? ==> r.error == NoSuchSigil(id)
  {
    var s :- Sigils.OfLiteral(id);
    if s == Sigils.Real then Ok(NumberClass)
    else if s == Sigils.Time then Ok(TemporalClass)
    else Ok(Sigils.Types(s)[0])
  }

  /** A value other than null has no tag exactly when no sigil covers its
      class. */
  lemma IdFromValueFails(v: Value)
    ensures IdFromValue(v).Err? <==> !v.NullValue? && forall s :: !Sigils.Covers(s, ClassOf(v).value)
  {
    if !v.NullValue? && IdFromValue(v).Ok? {
      var s := Sigils.ForType(ClassOf(v)).value;
      assert Sigils.Covers(s, ClassOf(v).value);
    }
  }

  /** A tag resolves to no type exactly when it is no sigil's literal. */
  lemma TypeFromIdFails(id: string)
    ensures TypeFromId(id).Err? <==> forall s :: Sigils.Literal(s) != id
  {
    if TypeFromId(id).Ok? {
      assert Sigils.Literal(Sigils.OfLiteral(id).value) == id;
    }
  }

  /** A long gets the integer tag exactly when it fits it, the real tag
      otherwise. */
  lemma LongTag(l: Int64)
    ensures IdFromValue(LongValue(l)) == Ok(if FitsIntegerTag(l) then "Z" else "R")
  {
    var v := LongValue(l);
    Sigils.ForTypeOtherNumbers(LongClass);
    assert ClassOf(v) == Some(LongClass);
    var w := WrittenSigil(Sigils.Real, v);
    assert IdFromValue(v) == Ok(Sigils.Literal(w));
    if FitsIntegerTag(l) {
      assert w == Sigils.Integer;
    } else {
      assert w == Sigils.Real;
    }
  }

  /** An Integer is tagged `Z` and a Double always `R`. */
  lemma NumberTags(v: Value)
    requires v.IntValue? || v.DoubleValue?
    ensures v.IntValue? ==> IdFromValue(v) == Ok("Z")
    ensures v.DoubleValue? ==> IdFromValue(v) == Ok("R")
  {
    if v.IntValue? {
      Sigils.ForTypeInteger();
    } else {
      Sigils.ForTypeOtherNumbers(DoubleClass);
    }
  }

  /** Every java.time value and every duration is tagged `T`. */
  lemma TemporalTags(v: Value)
    requires v.TemporalValue? || v.DurationValue?
    ensures IdFromValue(v) == Ok("T")
  {
    if v.DurationValue? {
      Sigils.ForTypeDuration();
    } else {
      Sigils.ForTypeTemporal(ClassOf(v).value);
    }
  }

  /** Only durations and the `TemporalAmount` interface itself fall under the
      temporal-amount sigil. */
  lemma TemporalAmountCovers(c: JavaClass)
    requires Sigils.Covers(Sigils.TemporalAmount, c)
    ensures c == TemporalAmountClass || c == DurationValueClass
  {
    assert Sigils.Types(Sigils.TemporalAmount) == [TemporalAmountClass];
  }

  /** `typeFromId` on a sigil's own literal: `Number` for the real sigil,
      the first listed type for every other (`Temporal` for the temporal one). */
  lemma TypeFromLiteral(s: Sigils.Sigil)
    ensures TypeFromId(Sigils.Literal(s)) == Ok(if s == Sigils.Real then NumberClass else Sigils.Types(s)[0])
  {
    Sigils.OfLiteralOfLiteral(s);
  }

  /** A class the real sigil covers is a `Number`. */
  lemma RealCoversNumbers(c: JavaClass)
    requires Sigils.Covers(Sigils.Real, c)
    ensures IsAssignableFrom(NumberClass, c)
  {
    var t := Sigils.Types(Sigils.Real);
    assert t == [NumberClass, LongClass, DoubleClass];
    assert IsAssignableFrom(t[0], c) || IsAssignableFrom(t[1], c) || IsAssignableFrom(t[2], c) by {
      assert t[1..][1..][1..] == [];
    }
  }

  /** What `typeFromId` resolves a sigil's written tag to is assignable from
      every class that sigil covers, except for temporal amounts, whose tag is
      the temporal one. */
  lemma {:induction false} ResolvedCoversSigil(s: Sigils.Sigil, c: JavaClass)
    requires Sigils.Covers(s, c) && s != Sigils.TemporalAmount
    ensures TypeFromId(Sigils.AliasedLiteral(s)).Ok?
    ensures IsAssignableFrom(TypeFromId(Sigils.AliasedLiteral(s)).value, c)
  {
    assert Sigils.AliasedLiteral(s) == Sigils.Literal(s);
    TypeFromLiteral(s);
    if s == Sigils.Real {
      RealCoversNumbers(c);
    } else {
      assert |Sigils.Types(s)| == 1 && Sigils.Types(s)[1..] == [];
    }
  }

  /** The tag written for a value resolves, on reading, to a type the value's
      class is assignable to — unless the value is a duration (its tag `T`
      resolves to `Temporal`) or a long demoted to the integer tag (which
      resolves to `Integer`). */
  lemma {:induction false} TagResolvesToSupertype(v: Value)
    requires !v.NullValue? && !v.DurationValue?
    requires !(v.LongValue? && FitsIntegerTag(v.l))
    requires IdFromValue(v).Ok?
    ensures TypeFromId(IdFromValue(v).value).Ok?
    ensures IsAssignableFrom(TypeFromId(IdFromValue(v).value).value, ClassOf(v).value)
  {
    var c := ClassOf(v).value;
    var s := Sigils.ForType(ClassOf(v)).value;
    assert s != Sigils.TemporalAmount by {
      if s == Sigils.TemporalAmount {
        TemporalAmountCovers(c);
        assert false;
      }
    }
    assert IdFromValue(v).value == Sigils.AliasedLiteral(s) by {
      assert IdFromValue(v).value == CheckForLongForRealz(s, v);
    }
    ResolvedCoversSigil(s, c);
  }

  /** The temporal tag resolves to `Temporal`: the branch of `typeFromId`
      that would resolve it to `TemporalAmount` is never reached. */
  lemma TimeResolvesToTemporal()
    ensures TypeFromId("T") == Ok(TemporalClass)
  {
    TypeFromLiteral(Sigils.Time);
  }

  /** A duration's tag resolves to `Temporal`, which a duration is not: the
      wrapper deserializer rejects it, which the codec's retry repairs. */
  lemma DurationTagMisresolves(text: string)
    ensures IdFromValue(DurationValue(text)) == Ok("T")
    ensures TypeFromId("T") == Ok(TemporalClass)
    ensures !IsAssignableFrom(TemporalClass, DurationValueClass)
  {
    TemporalTags(DurationValue(text));
    TimeResolvesToTemporal();
  }

  /** A long demoted to the integer tag resolves to `Integer`: it is read back
      as an Integer, not a Long. */
  lemma DemotedLongResolvesToInteger(l: Int64)
    requires FitsIntegerTag(l)
    ensures IdFromValue(LongValue(l)) == Ok("Z") && TypeFromId("Z") == Ok(IntegerClass)
    ensures !IsAssignableFrom(IntegerClass, LongClass)
  {
    LongTag(l);
    TypeFromLiteral(Sigils.Integer);
  }
}

=== FILE: wkt.dfy ===
/** The spatial sigil's payload: a point as extended well-known text,
    `SRID=<code>;POINT(<x> <y>)` (with ` Z ` before the parenthesis for three
    coordinates), and the regular expression that reads two-dimensional
    points back.

    Coordinates are kept as the text `String.valueOf(double)` gives; reading
    one back goes through a caller-supplied `parseDouble` that yields the
    canonical text of the parsed double, or `None` where `Double.parseDouble`
    throws. Whether a reference-system code is known is likewise a parameter.
 */
module Wkt {
  import opened Results
  import opened Numerals
  import opened JavaText
  import opened Graph

  /** `Collectors.joining(" ")`. */
  function JoinSpaces(cs: seq<string>): string {
    if |cs| == 0 then "" else if |cs| == 1 then cs[0] else cs[0] + " " + JoinSpaces(cs[1..])
  }

  /** `PointToWKT.apply`. */
  function PointToWkt(p: Point): (r: string)
    ensures |r| >= 8 && r[..5] == "SRID=" && r[|r| - 1] == ')'
  {
    "SRID=" + (LongToString(p.srid) + (";POINT" + ((if |p.coordinates| == 3 then " Z " else "")
      + ("(" + (JoinSpaces(p.coordinates) + ")")))))
  }

  predicate AllSpace(s: string) {
    forall i :: 0 <= i < |s| ==> IsRegexSpace(s[i])
  }

  predicate NoSpace(s: string) {
    forall i :: 0 <= i < |s| ==> !IsRegexSpace(s[i])
  }

  /** The pieces the pattern `SRID=(\d+);\s*POINT\(\s*(\S+)\s+(\S+)\s*\)`
      cuts a matching text into: the three groups and the four runs of
      white space around them. */
  datatype WktParts = WktParts(
    srid: string, gap1: string, gap2: string, x: string, gap3: string, y: string, gap4: string)

  /** Each piece matches its part of the pattern. */
  predicate WellFormed(p: WktParts) {
    && |p.srid| > 0 && AllDigits(p.srid)
    && AllSpace(p.gap1) && AllSpace(p.gap2)
    && |p.x| > 0 && NoSpace(p.x)
    && |p.gap3| > 0 && AllSpace(p.gap3)
    && |p.y| > 0 && NoSpace(p.y)
    && AllSpace(p.gap4)
  }

  /** The text the pieces spell. */
  function Assemble(p: WktParts): string {
    "SRID=" + (p.srid + (";" + (p.gap1 + ("POINT(" + (p.gap2 + (p.x + (p.gap3 + (p.y + (p.gap4 + ")")))))))))
  }

  function IsSpaceFn(): char -> bool { c => IsRegexSpace(c) }
  function IsNonSpaceFn(): char -> bool { c => !IsRegexSpace(c) }
  function IsDigitFn(): char -> bool { c => IsDigit(c) }

  /** What follows the literal `lit` at the start of `t`, if it is there. */
  function AfterLiteral(lit: string, t: string): (r: Option<string>)
    ensures r.Some? ==> t == lit + r.value
  {
    if |lit| <= |t| && t[..|lit|] == lit then
      assert t == t[..|lit|] + t[|lit|..];
      Some(t[|lit|..])
    else None
  }

  /** The literal is found in front of whatever follows it. */
  lemma AfterLiteralOfConcat(lit: string, u: string)
    ensures AfterLiteral(lit, lit + u) == Some(u)
  {
    assert (lit + u)[..|lit|] == lit;
  }

  /** The longest prefix of `t` whose characters satisfy `f` (a greedy
      `[..]*`), and what follows it. */
  function SplitRun(t: string, f: char -> bool): (r: (string, string))
    ensures t == r.0 + r.1
    ensures forall k :: 0 <= k < |r.0| ==> f(r.0[k])
    ensures |r.1| == 0 || !f(r.1[0])
  {
    if |t| == 0 || !f(t[0]) then ("", t)
    else
      var (a, b) := SplitRun(t[1..], f);
      assert t == [t[0]] + a + b;
      ([t[0]] + a, b)
  }

  /** A run followed by a character outside it is split off exactly. */
  lemma SplitRunOfConcat(a: string, b: string, f: char -> bool)
    requires forall k :: 0 <= k < |a| ==> f(a[k])
    requires |b| == 0 || !f(b[0])
    ensures SplitRun(a + b, f) == (a, b)
  {
    var r := SplitRun(a + b, f);
    assert forall k :: 0 <= k < |r.0| ==> (a + b)[k] == r.0[k];
    assert forall k :: 0 <= k < |a| ==> (a + b)[k] == a[k];
    assert |b| == 0 || (a + b)[|a|] == b[0];
    assert |r.1| == 0 || (a + b)[|r.0|] == r.1[0];
    assert |r.0| == |a|;
    assert r.0 == (a + b)[..|a|] == a;
  }

  /** The longest suffix of `t` made of `\s` characters, split off. */
  function SplitTrailingSpaces(t: string): (r: (string, string))
    ensures t == r.0 + r.1
    ensures AllSpace(r.1)
    ensures |r.0| == 0 || !IsRegexSpace(r.0[|r.0| - 1])
  {
    if |t| == 0 || !IsRegexSpace(t[|t| - 1]) then (t, "")
    else
      var (a, b) := SplitTrailingSpaces(t[..|t| - 1]);
      assert t == a + (b + [t[|t| - 1]]);
      (a, b + [t[|t| - 1]])
  }

  /** Trailing white space after text that does not end in white space is
      split off exactly. */
  lemma {:induction false} SplitTrailingSpacesOfConcat(a: string, b: string)
    requires |a| == 0 || !IsRegexSpace(a[|a| - 1])
    requires AllSpace(b)
    ensures SplitTrailingSpaces(a + b) == (a, b)
  {
    if |b| == 0 {
      assert a + b == a;
    } else {
      var b' := b[..|b| - 1];
      assert (a + b)[..|a + b| - 1] == a + b';
      SplitTrailingSpacesOfConcat(a, b');
      assert b' + [b[|b| - 1]] == b;
    }
  }

  /** `(\S+)\s*\)` at the end of the text: the second coordinate and the
      white space after it. */
  function ParseTail(t: string): (r: Option<(string, string)>)
    ensures r.Some? ==> |r.value.0| > 0 && NoSpace(r.value.0) && AllSpace(r.value.1)
    ensures r.Some? ==> t == r.value.0 + (r.value.1 + ")")
  {
    if |t| == 0 || t[|t| - 1] != ')' then None
    else
      var (y, gap4) := SplitTrailingSpaces(t[..|t| - 1]);
      var (y1, rest) := SplitRun(y, IsNonSpaceFn());
      if |y| == 0 || |rest| != 0 then None
      else
        assert y1 == y;
        assert t == t[..|t| - 1] + ")";
        Some((y, gap4))
  }

  /** `\s*(\S+)\s+(\S+)\s*\)`, after the opening parenthesis. */
  function ParseCoordinates(t: string): (r: Option<(string, string, string, string, string)>)
    ensures r.Some? ==> t == r.value.0 + (r.value.1 + (r.value.2 + (r.value.3 + (r.value.4 + ")"))))
    ensures r.Some? ==> AllSpace(r.value.0) && |r.value.1| > 0 && NoSpace(r.value.1)
    ensures r.Some? ==> |r.value.2| > 0 && AllSpace(r.value.2)
    ensures r.Some? ==> |r.value.3| > 0 && NoSpace(r.value.3) && AllSpace(r.value.4)
  {
    var (gap2, t1) := SplitRun(t, IsSpaceFn());
    var (x, t2) := SplitRun(t1, IsNonSpaceFn());
    var (gap3, t3) := SplitRun(t2, IsSpaceFn());
    if |x| == 0 || |gap3| == 0 then None
    else match ParseTail(t3)
      case None => None
      case Some((y, gap4)) => Some((gap2, x, gap3, y, gap4))
  }

  /** `SRID=(\d+);\s*POINT\(` followed by the coordinates. */
  function ParseWkt(text: string): (r: Option<WktParts>)
    ensures r.Some? ==> WellFormed(r.value) && Assemble(r.value) == text
  {
    match AfterLiteral("SRID=", text)
    case None => None
    case Some(t) =>
      var (d, t1) := SplitRun(t, IsDigitFn());
      match AfterLiteral(";", t1)
      case None => None
      case Some(t2) =>
        var (gap1, t3) := SplitRun(t2, IsSpaceFn());
        match AfterLiteral("POINT(", t3)
        case None => None
        case Some(t4) =>
          match ParseCoordinates(t4)
          case None => None
          case Some((gap2, x, gap3, y, gap4)) =>
            if |d| == 0 then None
            else Some(WktParts(d, gap1, gap2, x, gap3, y, gap4))
  }

  /** The pattern's match is unique: well-formed pieces are cut out of the
      text they spell exactly as they were. */
  lemma {:induction false} ParseWktOfAssemble(p: WktParts)
    requires WellFormed(p)
    ensures ParseWkt(Assemble(p)) == Some(p)
  {
    var inner := p.gap2 + (p.x + (p.gap3 + (p.y + (p.gap4 + ")"))));
    var t3 := "POINT(" + inner;
    var t1 := ";" + (p.gap1 + t3);
    AfterLiteralOfConcat("SRID=", p.srid + t1);
    SplitRunOfConcat(p.srid, t1, IsDigitFn());
    AfterLiteralOfConcat(";", p.gap1 + t3);
    SplitRunOfConcat(p.gap1, t3, IsSpaceFn());
    AfterLiteralOfConcat("POINT(", inner);
    ParseCoordinatesOfParts(p.gap2, p.x, p.gap3, p.y, p.gap4);
  }

  /** `ParseWktOfAssemble`, from the opening parenthesis on. */
  lemma {:induction false} ParseCoordinatesOfParts(gap2: string, x: string, gap3: string, y: string, gap4: string)
    requires AllSpace(gap2) && |x| > 0 && NoSpace(x) && |gap3| > 0 && AllSpace(gap3)
    requires |y| > 0 && NoSpace(y) && AllSpace(gap4)
    ensures ParseCoordinates(gap2 + (x + (gap3 + (y + (gap4 + ")"))))) == Some((gap2, x, gap3, y, gap4))
  {
    var t3 := y + (gap4 + ")");
    SplitRunOfConcat(gap2, x + (gap3 + t3), IsSpaceFn());
    SplitRunOfConcat(x, gap3 + t3, IsNonSpaceFn());
    SplitRunOfConcat(gap3, t3, IsSpaceFn());
    ParseTailOfParts(y, gap4);
  }

  /** `ParseWktOfAssemble`, for the second coordinate and the closing
      parenthesis. */
  lemma {:induction false} ParseTailOfParts(y: string, gap4: string)
    requires |y| > 0 && NoSpace(y) && AllSpace(gap4)
    ensures ParseTail(y + (gap4 + ")")) == Some((y, gap4))
  {
    var t := y + (gap4 + ")");
    assert t[..|t| - 1] == y + gap4;
    SplitTrailingSpacesOfConcat(y, gap4);
    SplitRunOfConcat(y, "", IsNonSpaceFn());
    assert y + "" == y;
  }

  /** `WKTToPoint.apply`: the text must match the pattern, else an
      IllegalArgumentException; then `Integer.valueOf` on the code (which
      overflows past `Integer.MAX_VALUE`), the reference-system lookup, and
      `Double.parseDouble` on each coordinate, in that order. */
  function WktToPoint(text: string, crsKnown: Int32 -> bool, parseDouble: string -> Option<string>): (r: Result<Point>)
    ensures ParseWkt(text).None? ==> r == Err(IllegalPointLiteral(text))
    ensures r.Ok? ==> |r.value.coordinates| == 2 && crsKnown(r.value.srid)
    ensures r.Ok? ==> ParseWkt(text).Some? && DigitsValue(ParseWkt(text).value.srid) == r.value.srid
    ensures r.Ok? ==> parseDouble(ParseWkt(text).value.x) == Some(r.value.coordinates[0])
    ensures r.Ok? ==> parseDouble(ParseWkt(text).value.y) == Some(r.value.coordinates[1])
  {
    match ParseWkt(text)
    case None => Err(IllegalPointLiteral(text))
    case Some(p) =>
      var srid :- ParseInt(p.srid);
      if !crsKnown(srid) then Err(UnknownCrs(srid))
      else match (parseDouble(p.x), parseDouble(p.y))
        case (None, _) => Err(NumberFormat(p.x))
        case (_, None) => Err(NumberFormat(p.y))
        case (Some(x), Some(y)) => Ok(Point(srid, [x, y]))
  }

  /** The pieces a two-dimensional point's text is made of. */
  function PartsOf2D(p: Point): WktParts
    requires |p.coordinates| == 2
  {
    WktParts(LongToString(p.srid), "", "", p.coordinates[0], " ", p.coordinates[1], "")
  }

  /** The pieces of a point with a non-negative code and coordinates free of
      white space match the pattern. */
  lemma PartsOf2DWellFormed(p: Point)
    requires p.srid >= 0 && |p.coordinates| == 2
    requires forall i :: 0 <= i < 2 ==> |p.coordinates[i]| > 0 && NoSpace(p.coordinates[i])
    ensures WellFormed(PartsOf2D(p))
  {
    ParseIntOfDigits(p.srid);
    assert AllSpace(" ");
    assert NoSpace(p.coordinates[0]) && NoSpace(p.coordinates[1]);
  }

  /** The point's text is spelled by its pieces. */
  lemma AssemblePartsOf2D(p: Point)
    requires |p.coordinates| == 2
    ensures Assemble(PartsOf2D(p)) == PointToWkt(p)
  {
    var x, y := p.coordinates[0], p.coordinates[1];
    var tail := x + (" " + (y + ")"));
    assert JoinSpaces(p.coordinates) == x + " " + y;
    assert JoinSpaces(p.coordinates) + ")" == tail;
    assert ";" + ("" + ("POINT(" + ("" + (x + (" " + (y + ("" + ")"))))))) == ";POINT(" + tail;
    assert ";POINT" + ("" + ("(" + tail)) == ";POINT(" + tail;
  }

  /** A two-dimensional point's text is cut back into its pieces. */
  lemma ParseWktOfPoint2D(p: Point)
    requires p.srid >= 0 && |p.coordinates| == 2
    requires forall i :: 0 <= i < 2 ==> |p.coordinates[i]| > 0 && NoSpace(p.coordinates[i])
    ensures ParseWkt(PointToWkt(p)) == Some(PartsOf2D(p))
  {
    PartsOf2DWellFormed(p);
    AssemblePartsOf2D(p);
    ParseWktOfAssemble(PartsOf2D(p));
  }

  /** `WKTToPoint.apply` once every step succeeds. */
  lemma WktToPointOfSteps(text: string, parts: WktParts, srid: Int32, x: string, y: string,
                          crsKnown: Int32 -> bool, parseDouble: string -> Option<string>)
    requires ParseWkt(text) == Some(parts) && AllDigits(parts.srid) && ParseInt(parts.srid) == Ok(srid)
    requires crsKnown(srid) && parseDouble(parts.x) == Some(x) && parseDouble(parts.y) == Some(y)
    ensures WktToPoint(text, crsKnown, parseDouble) == Ok(Point(srid, [x, y]))
  {
  }

  /** A two-dimensional point with a non-negative code in a known reference
      system and coordinates in canonical form is read back from its text. */
  lemma PointRoundTrip2D(srid: Int32, x: string, y: string, crsKnown: Int32 -> bool, parseDouble: string -> Option<string>)
    requires srid >= 0 && crsKnown(srid)
    requires |x| > 0 && NoSpace(x) && parseDouble(x) == Some(x)
    requires |y| > 0 && NoSpace(y) && parseDouble(y) == Some(y)
    ensures WktToPoint(PointToWkt(Point(srid, [x, y])), crsKnown, parseDouble) == Ok(Point(srid, [x, y]))
  {
    var p := Point(srid, [x, y]);
    ParseWktOfPoint2D(p);
    ParseIntOfDigits(srid);
    WktToPointOfSteps(PointToWkt(p), PartsOf2D(p), srid, x, y, crsKnown, parseDouble);
  }

  /** A three-dimensional point's text does not match the pattern: the
      ` Z ` between `POINT` and the parenthesis is rejected. */
  lemma PointRejected3D(p: Point, crsKnown: Int32 -> bool, parseDouble: string -> Option<string>)
    requires p.srid >= 0 && |p.coordinates| == 3
    ensures WktToPoint(PointToWkt(p), crsKnown, parseDouble) == Err(IllegalPointLiteral(PointToWkt(p)))
  {
    var d := LongToString(p.srid);
    ParseIntOfDigits(p.srid);
    var rest2 := "POINT Z (" + (JoinSpaces(p.coordinates) + ")");
    var rest1 := ";POINT" + (" Z " + ("(" + (JoinSpaces(p.coordinates) + ")")));
    assert rest1 == ";" + rest2;
    AfterLiteralOfConcat("SRID=", d + rest1);
    SplitRunOfConcat(d, rest1, IsDigitFn());
    AfterLiteralOfConcat(";", rest2);
    SplitRunOfConcat("", rest2, IsSpaceFn());
    assert "" + rest2 == rest2;
    assert rest2[5] == ' ';
    assert AfterLiteral("POINT(", rest2).None?;
  }

}
